=== FILE: README.md ===
# seismic-visualiser, modelled in Dafny

seismic-visualiser is a PyQt/OpenGL desktop viewer for seismic survey data. It shows:

- mine geometry read from DXF files;
- seismic events read from EVP files and `events.csv`;
- detector positions read from `detectors.csv`.

This project models the deterministic core of the viewer as immutable Dafny datatypes and pure functions. GL, Qt and file reading are stripped away.

| area | modules | what they model |
|---|---|---|
| shared values | `Common`, `Text`, `Dict` | `Option`, `Vec3`, the Y/Z axis swap, `numpy.tile`; `str.strip`, `str.split()`, `str.lower()` over ASCII; Python's insertion-ordered `dict` keyed by object id (`Dict`) |
| meshes and objects | `Meshes`, `SceneObjects` | `ObjectMesh` and `SceneObject`: constructor defaults, the hover swap of the active edge-colour buffer, the enable flags, the global id counter |
| builders | `Shapes`, `Dxf` | cube and pyramid tables, UV-sphere grid indices, detector and event spheres with the energy → colour bucket, DXF face merging with the index/offset accumulation, the DXF bounding box |
| viewer widget | `Camera`, `Picking`, `Renderer`, `StableSort`, `Viewer` | the `GLWidget` camera clamps, closest-hit picking and the hover state machine, the per-object draw passes, the opaque/transparent partition with the stable back-to-front sort, the `add_object_*` family and the event size rule |
| property table | `Properties`, `Opacity` | the per-file table threshold → {colour, opacity, visualization}: its defaults, the `int()` key conversion on load, visualization changes that keep opacity, 10-step opacity snapping, the energy-bucket lookup and the in-place alpha rewrite, the recreate-sphere fallback |
| main window | `Evp`, `Files` | the EVP line parser, the `events.csv` and `detectors.csv` row rules, file-type dispatch, the `loaded_files` registry (path → ids) with toggling on and off and project removal |

Floating point is modelled as `real`. The numeric primitives the model does not interpret travel in one `Numerics` value:

- natural log;
- `10**x`;
- Python `float()` on a token;
- the sphere vertex position.

The ray/box hit distance of picking and the camera distance of the transparent sort are function parameters.

Python's `dict` keeps insertion order, and the source relies on it in three places:

- "the last key is the object just added";
- the order of the draw list;
- which object wins a tie when picking.

`Dict.Dict` therefore pairs a key order with a map, and every operation states what it does to both, in its own contract or in a lemma beside it (`Dict.RemoveEachOrder` for the `del` loop). The process-global `OBJECT_COUNT` is threaded through the model as `Viewer.nextId`.

Two behaviours of the code disagree with a plain reading of its intent, and the model follows the code.

- **Empty DXF file.** A DXF file without vertices makes `vertices.min` raise, so `create_dxf_object` fails and no placeholder is created. `Dxf.CreateDxfObject` returns `None` in that case.
- **Threshold energies.** `create_event` colours an event by strict `>` against the thresholds. `update_sphere_opacity` assigns the event to a range by `>=`. `Properties.BucketsAgreeIff` proves that the two agree exactly when the energy is non-negative and is none of the five positive thresholds. An event whose energy equals a threshold is coloured for one range and dimmed with the other.

## Model

| member | source | states |
|---|---|---|
| Common.SwapYZ | object_constructors.py:22 | the stored point is the source point with its second and third coordinates exchanged |
| Common.SwapYZInvolution | AppWindow.py:143-152 | exchanging Y and Z twice gives the original point back |
| Common.Trunc | main.py:127 | `int()` of a float truncates toward zero: the result is within one of the argument, on the zero side |
| Common.Tile | object_constructors.py:54-56 | `numpy.tile(row, (n, 1)).flatten()` holds n copies of the row |
| Common.TileRgba | object_constructors.py:219 | component k of a tiled RGBA buffer is component k mod 4 of the colour |
| Common.TileRgb | object_constructors.py:55-56 | component k of a tiled RGB buffer is component k mod 3 of the colour |
| Common.Collect | AppWindow.py:380-391 | a loader loop that skips rows which fail yields at most one value per input, each produced by some input |
| Common.CollectConcat | AppWindow.py:419-433 | rows are handled independently: the values of two blocks of rows are those of each block, concatenated |
| Common.CollectAll | AppWindow.py:380-391 | if every row fails nothing is loaded; if every row parses, row i yields the i-th value |
| Common.LowerChar | AppWindow.py:285 | `str.lower()` on an ASCII character shifts exactly the capital letters |
| Common.Lower | AppWindow.py:285 | lower-casing keeps the length and lower-cases each character in place |
| Text.StripLeft | AppWindow.py:66 | `lstrip` removes exactly the leading whitespace |
| Text.StripRight | AppWindow.py:66 | `rstrip` removes exactly the trailing whitespace |
| Text.StripNoSpace | AppWindow.py:66 | a line with no surrounding whitespace is unchanged by `strip` |
| Text.StripIdempotent | AppWindow.py:66 | stripping twice is the same as stripping once |
| Text.Word | AppWindow.py:73 | the first token is the maximal leading run of non-whitespace |
| Text.Split | AppWindow.py:73 | `split()` yields only non-empty, whitespace-free tokens |
| Text.WordOfToken | AppWindow.py:73 | a token followed by whitespace or by the end of the string is read back as the first word |
| Text.SplitJoin | AppWindow.py:73 | splitting tokens joined by single spaces returns the tokens |
| Text.ReplaceChar | AppWindow.py:375 | `replace(',', '.')` changes exactly the occurrences of the character and keeps the length |
| Text.ReplaceCharRemoves | AppWindow.py:375 | after the replacement no comma is left, and a string without a comma is unchanged |
| Dict.Empty | main.py:59 | the empty scene is a well-formed ordered map with no entries |
| Dict.Put | main.py:383 | `objects[id] = obj` stores the value and keeps every other entry; a new key goes last, an existing key keeps its place |
| Dict.Without | AppWindow.py:484 | removing a key from the order keeps exactly the other keys, without duplicates |
| Dict.WithoutConcat | AppWindow.py:484 | removing a key keeps the relative order of the remaining keys: it acts on each part of a concatenation separately |
| Dict.WithoutSingle | AppWindow.py:484 | on a single key, removal drops exactly the removed key and keeps any other |
| Dict.WithoutAbsent | AppWindow.py:484 | removing a key that is not in the order leaves the order unchanged |
| Dict.Omit | AppWindow.py:482-484 | leaving a set of keys out of the order keeps exactly the other keys, without duplicates |
| Dict.WithoutIsOmit | AppWindow.py:484 | removing one key is leaving out the set of that key |
| Dict.OmitOmit | AppWindow.py:482-485 | leaving out one set of keys and then another is leaving out their union |
| Dict.OmitAbsent | AppWindow.py:483 | leaving out keys that are not in the order changes nothing more |
| Dict.OmitNone | AppWindow.py:482-484 | leaving out no keys keeps the order |
| Dict.Remove | AppWindow.py:484 | `del objects[id]` removes exactly that key and keeps the other entries; the new order is `Without` of the old one, which keeps the order of the rest (`Dict.WithoutConcat`) |
| Dict.LastKey | AppWindow.py:319 | `list(objects.keys())[-1]` names a stored key |
| Dict.Values | main.py:260 | the values are listed in insertion order |
| Dict.Update | AppWindow.py:309 | changing an object in place keeps the key order and changes only that entry |
| Dict.Span | AppWindow.py:343-354 | the ids recorded for a batch of n additions are the n consecutive counter values |
| Dict.ApplyEach | AppWindow.py:307-310 | applying an idempotent change to the listed ids changes exactly the listed entries that exist |
| Dict.RemoveEach | AppWindow.py:482-484 | deleting the listed ids that exist leaves exactly the other entries, unchanged |
| Dict.RemoveOmit | AppWindow.py:483-484 | leaving keys out after a `del` is leaving the deleted key out with them, whether or not it was present |
| Dict.RemoveEachOrder | AppWindow.py:482-484 | the surviving entries keep their order: the new order is the old one with the listed ids left out |
| Dict.PutFreshIsLast | AppWindow.py:319 | after adding a new key, the last key is that key |
| Dict.ReplaceMovesLast | properties_field.py:735-744 | deleting a key and storing it again moves it to the end of the order and changes only its value |
| Meshes.NewCollisionBox | collisions.py:5-9 | a new collision box is enabled and spans the two given corners |
| Meshes.NewMesh | object_meshes.py:2-17 | a new mesh has faces, edges and the mesh itself enabled, and all five colour references point at the face colours |
| Meshes.OnHover | object_meshes.py:19-20 | hovering makes the hovered buffer the active edge colours and changes nothing else |
| Meshes.OnUnhover | object_meshes.py:22-23 | unhovering restores the baseline edge colours and changes nothing else |
| Meshes.HoverIdempotent | object_meshes.py:19-23 | hovering twice is hovering once, and unhovering twice is unhovering once |
| Meshes.UnhoverUndoesHover | object_meshes.py:19-23 | on a mesh showing its baseline edge colours, unhover undoes hover |
| Meshes.HoverKeepsWellFormed | object_meshes.py:19-23 | hover and unhover keep every index list within the vertex count |
| SceneObjects.CalculateMatrix | scene_objects.py:37-52 | the matrix is recomputed from the current transform and no other field changes |
| SceneObjects.NewSceneObject | scene_objects.py:15-34 | a new object takes the counter as its id and advances it; it is enabled, not hovered, opacity 1.0, unit scale, zero rotation and location, matrix computed, with the given mesh, type and data |
| SceneObjects.ConstructionIdsIncrease | scene_objects.py:8 | two successive constructions get strictly increasing ids, below the next counter value |
| SceneObjects.OnHover | scene_objects.py:55-57 | the object is marked hovered, its mesh is hovered, and nothing else changes |
| SceneObjects.OnUnhover | scene_objects.py:59-61 | the object is marked not hovered, its mesh is unhovered, and nothing else changes |
| SceneObjects.SetEnabled | AppWindow.py:309-310 | toggling sets both the object's and its mesh's enabled flag and nothing else |
| SceneObjects.SetEnabledLastWins | AppWindow.py:331-334 | of two successive toggles only the last one counts |
| Shapes.CubeTables | object_constructors.py:96-131 | the cube has 8 vertices inside the unit box, 24 quad indices and 24 edge indices, all below 8 |
| Shapes.CubeMesh | object_constructors.py:80-142 | the cube mesh uses the fixed tables, has no triangles, 3 edge-colour components per vertex, and faces and edges enabled |
| Shapes.CreateCube | object_constructors.py:80-145 | a new cube is a fresh object with a well-formed mesh, the unit collision box and origin at the box centre |
| Shapes.PyramidTables | object_constructors.py:225-253 | the pyramid has 5 vertices inside the unit box, 18 triangle indices and 16 edge indices, all below 5 |
| Shapes.PyramidMesh | object_constructors.py:218-262 | the pyramid mesh uses the fixed tables, has no quads, and every vertex is coloured translucent magenta |
| Shapes.CreatePyramid | object_constructors.py:218-268 | a new pyramid is a fresh object with a well-formed mesh, the unit collision box and origin at the box centre |
| Shapes.RowTris | object_constructors.py:171-182 | one parallel band contributes 6 triangle indices per meridian, all below the vertex count |
| Shapes.GridTris | object_constructors.py:171-182 | the sphere's bands together contribute 6·M per band, all below (P+1)·M |
| Shapes.RowEdges | object_constructors.py:184-196 | one band contributes 4 edge indices per meridian, or 2 on the last band, all in range |
| Shapes.GridEdges | object_constructors.py:184-196 | the edge list has 2·P·M + 2·(P−1)·M indices, all below the vertex count |
| Shapes.SphereCounts | object_constructors.py:149-196 | a sphere with M meridians and P parallels has P·M·6 triangle indices and 2·P·M + 2·(P−1)·M edge indices, all below (P+1)·M |
| Shapes.SphereVertices | object_constructors.py:153-164 | the sphere has (P+1)·M vertices |
| Shapes.SphereMesh | object_constructors.py:149-209 | the sphere mesh has its grid triangles and edges and no quads; every vertex gets the given colour; faces are on and edges are off |
| Shapes.CreateSphere | object_constructors.py:149-215 | a new sphere is a fresh object with a well-formed mesh of those counts, flat colour, the unit collision box and origin at its centre |
| Shapes.CreateDetector | object_constructors.py:271-276 | a detector is a pyramid placed at the given point, typed "detector", carrying its id |
| Shapes.CreateBucket | object_constructors.py:281-292 | the colour bucket is one of six |
| Shapes.CreateBucketSpec | object_constructors.py:281-292 | the bucket is b exactly when the energy is strictly above threshold b and not strictly above threshold b−1 |
| Shapes.CreateBucketMonotone | object_constructors.py:281-292 | a larger energy never gets a lower bucket |
| Shapes.EventColor | object_constructors.py:281-292 | the event colour is the bucket's colour and is always opaque |
| Shapes.CreateEvent | object_constructors.py:279-299 | an event is a 32×32 sphere at the given point, typed "event", with type and energy data, coloured by its bucket, without edges |
| Dxf.AllPoints | object_constructors.py:21-26 | the points of all faces, face after face, one per source point |
| Dxf.StoredPoints | object_constructors.py:22 | each stored point is the source point scaled, with Y and Z exchanged |
| Dxf.FaceBlock | object_constructors.py:29-31 | a face's index block is the run o, o+1, … of its vertex count |
| Dxf.EdgeLoop | object_constructors.py:32-35 | a face's edges join each vertex to the next and the last back to the first |
| Dxf.AddFace | object_constructors.py:19-35 | a 3-point face adds a triangle and three edges, a 4-point face adds a quad and four edges, any other face adds vertices only |
| Dxf.Merge | object_constructors.py:12-48 | merging all faces stores one vertex per source point, and every triangle, quad and edge index is below the vertex count |
| Dxf.MergeVertices | object_constructors.py:21-26 | the k-th stored vertex is the k-th source point, scaled and with Y and Z exchanged |
| Dxf.MergeCounts | object_constructors.py:28-35 | there are 3 triangle indices per 3-point face, 4 quad indices per 4-point face, and 6 or 8 edge indices per such face |
| Dxf.AppendFace | object_constructors.py:26-35 | appending one face by the source's literal index lists, with the offset advanced by the face's size, matches the merge step |
| Dxf.LoadDxfVertices | object_constructors.py:12-48 | the loader's loop computes the merge of all faces: one vertex per point and every index in range |
| Dxf.MinCorner | object_constructors.py:69 | the low corner is the componentwise minimum of the vertices, attained on each axis |
| Dxf.MaxCorner | object_constructors.py:70 | the high corner is the componentwise maximum of the vertices, attained on each axis |
| Dxf.CreateDxfObject | object_constructors.py:51-77 | a file without points yields no object and consumes no id; otherwise every vertex lies in the collision box, the origin is the box midpoint, and each colour buffer has one entry per vertex |
| Dxf.DxfBoxTight | object_constructors.py:69-73 | each face of the collision box touches some vertex |
| Camera.InitialCamera | main.py:50-53 | the camera starts at arm length 20, rotX 0 and rotY at its minimum, which is within the bounds |
| Camera.ClampIntSpec | main.py:127 | `max(lo, min(hi, v))` lies in [lo, hi] and keeps a value already inside |
| Camera.WheelStep | main.py:127 | the step is whichever of the proportional step and the fixed step has the larger magnitude, the fixed one only when it is strictly larger |
| Camera.WheelEvent | main.py:125-127 | after a wheel event the arm length is within [5, 10000] and the angles are unchanged |
| Camera.WheelStepSign | main.py:127 | the step has the sign of the wheel delta |
| Camera.WheelMonotone | main.py:125-127 | scrolling forward never lengthens the arm, scrolling back never shortens it, and no scroll changes nothing |
| Camera.AddRotY | main.py:560-561 | rotY stays within its bounds and moves by the drag amount when that stays inside; nothing else changes |
| Camera.AddRotX | main.py:557-558 | rotX moves by π·val/360 without a bound; nothing else changes |
| Camera.SetRotX | main.py:551-552 | rotX becomes π·val/180 and nothing else changes |
| Camera.SetRotY | main.py:554-555 | rotY becomes π·val/360 and nothing else changes |
| Camera.SetPerspectiveTop | main.py:539-541 | the top view sets rotX to 0 and rotY to its minimum |
| Camera.SetPerspectiveSide | main.py:543-545 | the side view sets rotX to π·side/2 and rotY to π/2, which is within the bounds |
| Camera.SetPerspectiveBottom | main.py:547-549 | the bottom view sets rotX to 0 and rotY to its maximum |
| Camera.SetArm | main.py:563-564 | the arm length becomes 20 + val, unclamped |
| Camera.BoundedOperationsKeepValid | main.py:125-127 | the wheel, the vertical drag, the horizontal drag and the preset views all keep the camera within its bounds |
| Camera.SetArmValidIff | main.py:563-564 | `setArm` keeps the arm within bounds exactly when −15 ≤ val ≤ 9980 |
| Picking.CheckCollision | main.py:161-174 | the result is −1 exactly when no object is enabled, pickable and hit in range; otherwise it is the nearest hit, the first in scene order on ties |
| Picking.HoverUpdate | main.py:177-186 | when the pick changes, the old object is unhovered and the new one hovered, nothing else changes, and the hovered id becomes the pick; when it is unchanged nothing happens; a stale hovered id fails as the source's lookup does |
| Picking.HoverUpdateKeepsConsistent | main.py:177-186 | if exactly the hovered object is marked hovered before, exactly the picked object is marked after, and the update does not fail |
| Picking.HoverUpdateIdempotent | main.py:177-186 | repeating a check with the same pick changes nothing |
| Renderer.DrawPasses | main.py:189-224 | the triangle and quad passes run exactly when faces are on and the list exists; the edge pass runs exactly when edges are on, the list exists and the object is not an event, and it comes last with the active edge colours; every index is in range |
| Renderer.EventsHaveNoEdgePass | main.py:217 | an event never gets an edge pass |
| Renderer.HoverRecoloursEdgesOnly | main.py:217-221 | hovering changes only the colours of the edge pass, to the hovered buffer |
| Renderer.VisibleOf | main.py:260-273 | an object is drawn exactly when it and its mesh are enabled |
| Renderer.Opaque | main.py:268-273 | the opaque list holds exactly the drawn objects with opacity at least 0.99 |
| Renderer.Transparent | main.py:268-273 | the transparent list holds exactly the drawn objects with opacity below 0.99 |
| Renderer.PartitionExact | main.py:260-273 | every drawn object is in exactly one of the two lists, as a multiset |
| Renderer.PaintGL | main.py:241-324 | the frame issues one draw call per object of the frame order, with that object's passes |
| Renderer.FrameTail | main.py:296-309 | after the opaque objects come the transparent ones, sorted back to front |
| Renderer.FrameTailTransparent | main.py:299-309 | every object after the opaque block is drawn and transparent |
| Renderer.FrameHeadOpaque | main.py:276-286 | every object in the opaque block is drawn and opaque |
| Renderer.FrameOrderCorrect | main.py:260-309 | the frame is a permutation of the drawn objects, opaque first, then transparent by decreasing distance, with ties kept in scene order |
| StableSort.WithKey | main.py:296 | the objects at one distance, in order, are a sub-list |
| StableSort.WithKeyConcat | main.py:296 | selecting one distance distributes over concatenation |
| StableSort.InsertDesc | main.py:296 | inserting keeps all elements and adds the new one |
| StableSort.InsertDescSorted | main.py:296 | inserting into a list sorted by decreasing key keeps it sorted |
| StableSort.InsertDescStable | main.py:296 | an inserted element goes after every element with the same key |
| StableSort.NoneAbove | main.py:296 | a sorted list whose head is below v holds nothing with key v |
| StableSort.SortDesc | main.py:296 | `sorted(..., reverse=True)` is a permutation of its input |
| StableSort.SortDescSorted | main.py:296 | the sorted list is in decreasing key order |
| StableSort.SortDescStable | main.py:296 | elements with equal keys keep their original order |
| Viewer.InitialViewer | main.py:47-62 | a new widget has no objects, no hovered object, no view target and the initial camera |
| Viewer.AddNew | main.py:383 | storing a fresh object adds exactly its id, last, advances the counter and changes nothing else |
| Viewer.ReplaceKeepsValid | properties_field.py:735-744 | deleting an object and storing a replacement under the same id keeps the scene well formed |
| Viewer.AddEach | AppWindow.py:343-354 | a batch of additions adds the new objects under consecutive ids, in order, after the existing ones, and keeps every existing entry |
| Viewer.TypeMultiplier | main.py:357-365 | every type has a positive multiplier, and an unlisted type gets 1.5 |
| Viewer.EventSize | main.py:368-371 | the size is in [0, 100]: 1.0 for non-positive energy, otherwise the product of the absolute log energy and the multiplier, capped at 100 |
| Viewer.EventSizeByType | main.py:357-371 | at equal energy, explosions are at least as large as earthquakes, which equal unlisted types and are at least as large as microseismic events, which are at least as large as unknown ones |
| Viewer.AddObjectDxf | main.py:326-332 | a DXF with points adds one object at unit scale and makes it the view target; one without points adds nothing |
| Viewer.DetectorObject | main.py:334-337 | a stored detector has scale 50 and a current matrix, at its position, with its id |
| Viewer.AddObjectDetector | main.py:334-339 | adding a detector stores exactly that object, last, and keeps the view target |
| Viewer.EventObject | main.py:354-380 | a stored event sphere has the size of the size rule, a current matrix, base colour red, opacity 1.0 and the bucket colours |
| Viewer.AddObjectEvent | main.py:341-383 | without a custom colour the event sphere is stored last; with one, the call fails and adds nothing |
| Viewer.AddObjectEventAdds | main.py:354-383 | without a custom colour, adding an event is storing its sphere as a fresh object |
| Viewer.MarkerColor | main.py:390-406 | a custom colour is used as given; otherwise the colour is the energy bucket's colour |
| Viewer.PadRgba | main.py:409-410 | an RGB colour gets alpha 1.0 appended; any other length is kept |
| Viewer.AddMarker | main.py:412-434 | a marker is built from the colour, placed, typed "event", scaled, with a current matrix and type, energy and visualization data |
| Viewer.AddObjectBeachBall | main.py:386-436 | a beach ball uses the padded marker colour and the event size rule, visualization "beach_ball" |
| Viewer.AddObjectPoint | main.py:480-516 | a point uses the marker colour without padding and fixed size 5, visualization "point" |
| Viewer.SuccessiveAddsDistinct | scene_objects.py:32-34 | two successive additions get distinct, increasing ids, appended in order |
| Evp.ScanEnergyFirst | AppWindow.py:93-108 | the scan finds no energy exactly when no column in range is acceptable; otherwise it returns the first acceptable column |
| Evp.LineEnergy | AppWindow.py:110-114 | without a scanned energy, a positive magnitude gives 10^(1.5m+4.8), otherwise 1.0 |
| Evp.EventType | AppWindow.py:117-122 | explosion above 2.0, earthquake in (0.5, 2.0], microseismic otherwise |
| Evp.EventTypeMonotone | AppWindow.py:117-122 | a larger magnitude never gives a weaker type |
| Evp.ParseLineSpec | AppWindow.py:65-129 | skipped lines yield nothing; a parsed record has columns 3–5 as coordinates, its magnitude from column 2 (NaN read as 0), the type by magnitude, and the energy from the first acceptable column of 6..min(20, n)−1 or the magnitude fallback |
| Evp.ParseLineAccepts | AppWindow.py:80-87 | a line that is not skipped yields a record exactly when its magnitude and coordinates parse |
| Evp.ParseEvp | AppWindow.py:44-141 | every record comes from some line of the file, at most one per line |
| Evp.ParseEvpConcat | AppWindow.py:65-134 | lines are parsed independently |
| Evp.ParseEvpTypes | AppWindow.py:117-122 | every record's type agrees with its magnitude |
| Evp.ParseEvpComment | AppWindow.py:69-70 | a comment line adds no record |
| Files.LastIndexOf | AppWindow.py:285 | the last occurrence of a character, or −1 |
| Files.Basename | AppWindow.py:285 | `os.path.basename` is the slash-free tail of the path after its last slash |
| Files.BasenameOfJoin | AppWindow.py:285 | the base name of dir/name is name |
| Files.Ext | AppWindow.py:156 | `os.path.splitext` yields an empty extension or a dot-led, dot-free, slash-free suffix of the path |
| Files.ExtOfName | AppWindow.py:156 | the extension of dir/stem.ext is ".ext" when the stem is not all dots |
| Files.SupportedByExtension | AppWindow.py:154-158 | a file is supported exactly when its lower-cased extension is .dxf, .evp, .evg or .csv |
| Files.DotNameUnsupported | AppWindow.py:154-158 | a dot-file such as ".dxf" has no extension and is unsupported, yet the visibility dispatch still routes it by name |
| Files.EndsWithDotSuffix | AppWindow.py:288-290 | a name ending in a single extension ends with a dot suffix exactly when that is its extension |
| Files.DispatchNameByExtension | AppWindow.py:283-298 | a lower-cased name goes to the DXF toggle exactly when it ends in .dxf, to the EVP toggle exactly when it ends in .evp or .evg, and to the CSV toggles only when it ends in .csv |
| Files.DispatchByExtension | AppWindow.py:283-298 | by the extension of a path: DXF and EVP dispatch match the extension, and an unsupported file goes to the generic handler |
| Files.TransformEventCoordinates | AppWindow.py:143-152 | the placed point is the event's point with Y and Z exchanged |
| Files.EvpPlacement | AppWindow.py:344-348 | an EVP event is placed with Y and Z exchanged and keeps its type and energy |
| Files.EventRow | AppWindow.py:421-430 | an `events.csv` row is loaded exactly when it has six cells and columns 1, 2, 3 and 5 parse; its type is never empty |
| Files.EventRowRoundTrip | AppWindow.py:421-430 | a row written with x, z, y in columns 1–3, energy in column 5 and the type last reads back as the same event |
| Files.DetectorRow | AppWindow.py:380-391 | a `detectors.csv` row is loaded exactly when it has four cells, cell 0 parses as an int and the coordinates parse |
| Files.DetectorRowRoundTrip | AppWindow.py:380-391 | a row written with the id, then z, x, y reads back as the same detector |
| Files.PlacementObject | AppWindow.py:348 | each placed event becomes an event sphere at its point with its type and energy |
| Files.RecordObject | AppWindow.py:387 | each detector row becomes a detector object at its point with its id |
| Files.EventMaker | AppWindow.py:348 | the event maker keeps the id it is given |
| Files.EventMakerIs | AppWindow.py:348 | the event maker builds the placement's object |
| Files.PlacementIsEventAdd | AppWindow.py:348 | loading one event is `add_object_event` without a custom colour |
| Files.RecordIsDetectorAdd | AppWindow.py:387 | loading one detector is `add_object_detector` |
| Files.SetEnabledIds | AppWindow.py:305-310 | toggling a file's ids sets the flags of exactly the listed ids still in the scene, removes nothing and leaves the rest unchanged |
| Files.SetEnabledIdsLastWins | AppWindow.py:327-334 | toggling off and then on is the same as toggling on |
| Files.SetEnabledIdsVisible | AppWindow.py:356-368 | after a toggle, every listed object still in the scene is drawn exactly when the toggle is on |
| Files.EvpPlacements | AppWindow.py:344-348 | the i-th placement is the i-th event, placed |
| Files.RecordOne | AppWindow.py:319-320 | recording the last key after one addition records the new id |
| Files.RecordEach | AppWindow.py:349-354 | recording a batch keeps the registry's invariant |
| Files.LoadBatch | AppWindow.py:343-354 | a loaded batch adds one object per item under consecutive ids and records them for the path |
| Files.LoadDxf | AppWindow.py:312-326 | a DXF with points is loaded as one object, recorded and made the view target; a file that fails changes nothing |
| Files.LoadEvp | AppWindow.py:341-355 | each parsed event becomes one sphere, in file order, and the ids are recorded |
| Files.LoadDetectors | AppWindow.py:374-396 | each loadable row becomes one detector, in file order; a file that cannot be read records nothing |
| Files.LoadEventsCsv | AppWindow.py:415-438 | each loadable row becomes one event sphere, in file order; a file that cannot be read records nothing |
| Files.ToggleFile | AppWindow.py:300-456 | toggling a loaded file only sets its objects' flags; toggling on an unloaded file runs the loader of its kind and carries over that loader's outcome: whether the path is recorded, the ids recorded and the objects added under them, and for DXF the view target; toggling off an unloaded file or any other kind of file does nothing; other paths and existing objects are kept |
| Files.ToggleFileVisibility | AppWindow.py:283-298 | an unrecognised file changes nothing, and every toggle keeps the registry's invariant |
| Files.Flatten | AppWindow.py:478-479 | a project's file list holds exactly the files of its groups |
| Files.IdsOfCons | AppWindow.py:478-485 | the ids removed for a list of files are those of the first loaded file plus those of the rest |
| Files.RemoveFiles | AppWindow.py:478-485 | removing files drops exactly their registry entries and exactly their objects still in the scene, and keeps everything else |
| Files.RemoveFilesOrder | AppWindow.py:478-485 | the surviving objects keep their draw and pick order: the new order is the old one with the removed files' ids left out |
| Files.RemoveProjectObjects | AppWindow.py:474-487 | an unknown project changes nothing; otherwise the project's loaded files and their objects are removed, the surviving objects keep their order, and the project entry is dropped; the counter, the hovered object, the camera and the view target are kept |
| Properties.ThresholdKeysListed | properties_field.py:209-234 | the six range keys are 1e11, 1e9, 1e8, 1e6, 1e3 and 0 |
| Properties.DigitsValue | properties_field.py:170 | an accepted digit string begins and ends with a digit and holds only digits and underscores |
| Properties.ParseInt | properties_field.py:170 | `int()` accepts only strings that are not blank; the exact shape it accepts is stated by `Properties.ParseIntAccepts` |
| Properties.ParseIntAccepts | properties_field.py:170 | `int()` accepts exactly a stripped string that is a sign followed by a digit string, or a digit string alone; the value is the digits' value, negated after a minus; a blank string is rejected |
| Properties.NatToDecimal | properties_field.py:170 | a non-negative number is written as a non-empty string of digits |
| Properties.DigitsRoundTrip | properties_field.py:170 | reading back the decimal digits of a number gives the number |
| Properties.ParseIntRoundTrip | properties_field.py:170 | `int(str(k)) == k` for every integer |
| Properties.ConvertKeysFrom | properties_field.py:165-174 | every converted key comes from a raw key that `int()` accepts |
| Properties.ConvertKeysTo | properties_field.py:168-173 | every raw key that `int()` accepts is present after conversion |
| Properties.ConvertKeysValue | properties_field.py:168-171 | a converted key holds the value of the last raw key that converts to it |
| Properties.SaveRanges | properties_field.py:194-195 | a saved range table has one entry per key |
| Properties.SavedEntry | properties_field.py:194-195 | each saved entry is a key written as a string together with its value |
| Properties.SavedKeysOnly | properties_field.py:165-174 | reloading a saved table yields no key that was not saved |
| Properties.SavedKeyRestored | properties_field.py:165-174 | every saved key is restored with its value |
| Properties.SaveLoadRangesRoundTrip | properties_field.py:165-195 | saving a range table and reloading it gives the same table |
| Properties.ConvertFile | properties_field.py:165-176 | loading keeps the type entry and converts the range keys, and only the range keys |
| Properties.LoadPropertiesSettings | properties_field.py:153-183 | loading adds or replaces exactly the saved files that still exist and keeps the other current entries |
| Properties.SavePropertiesSettings | properties_field.py:185-198 | exactly the files that still exist are saved |
| Properties.SaveLoadRoundTrip | properties_field.py:153-198 | saving and then loading restores the settings of every existing file |
| Properties.DefaultRanges | properties_field.py:205-239 | the defaults hold exactly the six thresholds, with the bucket colours, opacity 1.0 and the given visualization |
| Properties.InitializeFileProperties | properties_field.py:200-239 | a known file is left alone; a new file gets the given type and the default ranges |
| Properties.ChangeVisualization | properties_field.py:401-428 | an unknown file changes nothing; otherwise the file's type and every range's visualization change, while colours and opacities are kept, a missing opacity becoming 1.0 |
| Properties.OnRangeVisualizationChanged | properties_field.py:475-494 | only the named range's visualization changes, and only when the file and threshold exist |
| Properties.OnRangeVisualizationLastWins | properties_field.py:475-494 | of two visualization changes to the same range only the last one counts |
| Properties.OnRangeVisualizationCommute | properties_field.py:475-494 | changes to two different ranges are independent of their order |
| Properties.ChangeVisualizationLastWins | properties_field.py:401-428 | of two visualization changes only the last one counts |
| Properties.Discrete | properties_field.py:576 | `(value // 10) * 10` is the multiple of 10 at or just below the value, and equals it exactly when the value is a multiple of 10 |
| Properties.StoreOpacity | properties_field.py:573-592 | a value that is not a multiple of 10, an unknown file or an unknown threshold changes nothing; otherwise only that range's opacity becomes value/100 |
| Properties.MaxKey | properties_field.py:638 | the largest key of a non-empty set |
| Properties.SortedKeysDesc | properties_field.py:638 | `sorted(keys, reverse=True)` lists exactly the keys, strictly decreasing |
| Properties.ScanBucket | properties_field.py:639-644 | a found threshold is a key the energy reaches |
| Properties.ScanBucketIsLargest | properties_field.py:638-644 | scanning descending keys finds the largest key at or below the energy, or nothing when every key exceeds it |
| Properties.UpdateBucket | properties_field.py:638-644 | the range of an energy is the largest key at or below it, and there is none exactly when every key exceeds it |
| Properties.IsBucketUnique | properties_field.py:638-644 | an energy has at most one range |
| Properties.DefaultBucket | properties_field.py:638-644 | with the default keys, every non-negative energy has a range and a negative one has none |
| Properties.UpdateBucketFinds | properties_field.py:638-644 | the scan finds the range an energy belongs to |
| Properties.UpdateBucketDefault | properties_field.py:638-644 | on the default keys the scan agrees with the default range rule |
| Properties.BucketsAgreeIff | properties_field.py:638-640 | the opacity range and the creation colour bucket agree exactly when the energy is non-negative and equals none of the five positive thresholds |
| Opacity.EnergyOf | properties_field.py:631-635 | a missing or empty energy counts as 0, and a numeric energy is used as it is |
| Opacity.SetAlpha | properties_field.py:682 | `colors[3::4] = opacity` writes every fourth component and keeps the others and the length |
| Opacity.SetAlphaLastWins | properties_field.py:682 | of two alpha writes only the last one counts |
| Opacity.SetAlphaOfTiled | properties_field.py:682 | writing the alpha of a flat RGBA buffer is tiling the colour with the new alpha |
| Opacity.BaseWithAlpha | properties_field.py:664-668 | an RGBA base colour gets its alpha replaced, an RGB one gets the alpha appended, and any other base colour is kept |
| Opacity.UpdateSingleSphereOpacity | properties_field.py:654-706 | one sphere's update sets its opacity, its base-colour alpha and every alpha of its face colours, and changes nothing else |
| Opacity.BaseWithAlphaLastWins | properties_field.py:664-668 | of two base-colour alpha updates only the last one counts |
| Opacity.UpdateSingleLastWins | properties_field.py:654-706 | of two sphere opacity updates only the last one counts |
| Opacity.UpdateKeepsInRange | properties_field.py:624-644 | an opacity update does not move a sphere to another range |
| Opacity.UpdateIds | properties_field.py:624-644 | going through the listed ids updates exactly the listed, selected objects still in the scene, keeping order and keys |
| Opacity.UpdateSphereOpacity | properties_field.py:614-652 | an unloaded file or one without ranges changes nothing; otherwise exactly the file's event objects in the target range are updated |
| Opacity.DefaultRangeMembership | properties_field.py:624-644 | on the default ranges, an event is in the target range exactly when the default range rule gives that threshold |
| Opacity.OnRangeOpacityChanged | properties_field.py:573-612 | the table gets the stored opacity; the scene changes only for a snapped value of an existing "spheres" range, by the sphere update at value/100 |
| Opacity.BaseRgb | properties_field.py:719-722 | the base RGB is the first three base-colour components, or red when there is no base colour |
| Opacity.DataOr | properties_field.py:715-716 | `data.get(key, default)` |
| Opacity.RecreateSphereAsWritten | properties_field.py:708-748 | the recreate path as written leaves a well-formed scene |
| Opacity.RecreateLosesSphere | properties_field.py:708-748 | as written, recreating a sphere deletes it, fails to add the replacement and leaves it deleted, with every other object and the counter unchanged |
| Opacity.RebuildColor | properties_field.py:719-725 | the replacement colour is the base RGB followed by the new opacity |
| Opacity.RebuildData | properties_field.py:715-741 | the replacement's data holds the old type (default "unknown"), the old energy (default 1.0) and visualization "spheres" |
| Opacity.RebuildSphere | properties_field.py:714-741 | the replacement sphere keeps the old id, place, size and data, with the base RGB and the new alpha in every vertex colour; its base colour is the new RGBA and its current opacity the new opacity, so the renderer treats it as transparent exactly when the opacity is below 0.99; keeping the old id and size and carrying the opacity are deliberate corrections, since `add_object_event` would give a fresh id (main.py:383), recompute the size and reset the base colour to red and the opacity to 1.0 (main.py:379-380) |
| Opacity.RecreateSphere | properties_field.py:708-744 | the corrected recreate replaces the sphere under the same id, moved to the end of the order, with the new colour and alpha in its vertex colours, base colour and current opacity, and keeps every other object; it also corrects the missing `return obj` of `add_object_event` and stores the sphere once instead of also under a fresh id |

## Left out

- OpenGL, VBOs and Qt widgets are not modelled: a frame is modelled as the ordered list of draw calls with their passes and colour buffers.
- 32-bit float storage (`np.float32`) is not modelled: all numbers are `real`.
- Matrix numerics (`calculate_matrix`, `full_rotation`, `screen_pos_to_vector`, `_compute_camera`) are not modelled: the matrix is recorded as the transform it was computed from.
- The natural log, `10**x`, `float()` on a token and the sphere vertex trigonometry are uninterpreted parameters. NaN and infinities are outside `real`.
- Evp.ParseEvp: the whole-file abort on overflow is not modelled. A line whose energy falls back to `10 ** (1.5*m + 4.8)` with a magnitude above about 202.3 makes Python raise OverflowError (AppWindow.py:112). The per-line handler catches only ValueError and IndexError (AppWindow.py:132), so the outer handler returns `[]` for the whole file (AppWindow.py:139-141). The model keeps the records of the other lines.
- Evp.LineEnergy: returns a value for every positive magnitude. The source raises OverflowError once the exponent passes about 308.25, and that exception aborts the whole file.
- Evp.ParseEvpConcat: line independence holds only for files in which no line overflows in the energy fallback. One such line empties the source's result for the whole file.
- The ray/box slab test `check_collision_object` is a hit-distance parameter of `Picking.CheckCollision`. The camera distance used by the transparent sort is a parameter of `Renderer.PaintGL`.
- `str.lower`, `str.strip` and `str.split` are modelled for ASCII only.
- Properties.ParseInt: only ASCII digits and ASCII whitespace are modelled. Python's `int()` also accepts Unicode decimal digits and Unicode whitespace around the number.
- File reading is a `Reader` parameter: `ezdxf.readfile`, `open`, `csv.reader`, the encoding retries of `parse_evp_file` and JSON loading. A failure in the middle of a read is not modelled, and a file is either readable or not.
- Files.ToggleFile: takes the file kind from the dispatch, and the four `toggle_*_file` handlers are one operation over that kind. Their on/off branches are identical apart from the loader.
- Files.ToggleFileVisibility: its own contract states only the dispatch and the invariant. What each kind of toggle does is stated on `Files.ToggleFile`.
- `on_treeview_clicked` is not modelled: it only reads the checkbox and calls the toggle.
- `reload_file_with_settings` and `cleanup_mesh_vbo` are called by the property handlers but defined in no file of this model. The reload is treated as leaving the scene unchanged, and the cleanup as releasing GL buffers only.
- `create_beach_ball_hosohedron` and `create_point` are defined in no file of this model. They are a `Builder` parameter of `Viewer.AddObjectBeachBall` and `Viewer.AddObjectPoint`. The source only shows that they return a SceneObject (main.py:412). The model assumes each returns a fresh object with default fields and empty data, built from the given colour, and that it takes exactly one counter value.
- The first definition of `add_object_point` (main.py:438) is not modelled, because the second one replaces it.
- The `normalize` option of `load_dxf_vertices` is not modelled: it divides by the extent, which can be zero, and no caller sets it.
- `SceneEvent` is not modelled: it is unused and never calls its base constructor.
- `draw_outline` is not modelled: the object never has the attribute it is guarded by.
- TreeProject.py (the project tree, folder scanning and the file watcher), dialogs, menus and the properties tabs are UI or I/O. `project_data` is an input map of the model.
- `GLWidget.viewTarget` holds an object reference in the source and a copy of the object in the model, so a later change to that object is not reflected in the target.
- Viewer.EventObject: the colour fields are set before the matrix is computed, while the source sets them after `calculate_matrix`. The matrix does not read them, so the result is the same.
- Opacity.RebuildSphere: the replacement keeps the old id and size. The source's `add_object_event` would give it the fresh counter value as its id (main.py:383) and recompute the size from type and energy. This is a deliberate correction, the one the source's "keep the same ID" step intends. The replacement also records the new colour as `base_color` and the new opacity as `current_opacity`, as the in-place update does. `add_object_event` would set them to red and 1.0 (main.py:379-380), and the renderer would then draw a translucent rebuild among the opaque objects.
- Opacity.RecreateSphere: the corrected path stores the sphere once, under the old id. Fixing only the argument count would still fail, because `add_object_event` has no `return obj`. With a return added, the sphere would sit under both the old id and a fresh one.
- Properties.SaveRanges: `json.dump` writes keys in insertion order; the model writes them in descending order. The round trip does not depend on the order.

## Findings

| source | as written | input that shows it | evidently intended | confidence | as-written member | corrected member |
|---|---|---|---|---|---|---|
| properties_field.py:735-744 with main.py:352 and object_constructors.py:279 | `_recreate_sphere_with_opacity` deletes the sphere, then calls `add_object_event` with a custom colour. That path calls the five-parameter `create_event` with six arguments, so a TypeError is raised, caught and logged, and the sphere stays deleted. There is a second defect behind it: `add_object_event` (main.py:341-384) has no `return obj`, so `new_obj.data` at line 741 would raise even with the call fixed. The deletion is reached only when `cleanup_mesh_vbo` (line 729) returns normally; no file defines it, and the model assumes it does. | any event sphere reached by the recreate fallback, which runs when the in-place colour update fails | the sphere is replaced once, under its old id, with the base RGB and the new opacity in its vertex colours, base colour and current opacity. The correction also supplies the missing return and does not store the sphere under the fresh id that `add_object_event` uses (main.py:383). | not executed | Opacity.RecreateLosesSphere | Opacity.RecreateSphere |

=== FILE: camera.dfy ===
/**
 * The orbit camera of GLWidget (main.py): an arm length and two angles around the view
 * target, adjusted by the mouse wheel, drags, the perspective buttons and the arm slider.
 */
module Camera {
  import opened Common

  /** math.pi as the double the viewer computes with. */
  const Pi: real := 3.141592653589793

  const RotYMin: real := Pi * (0.1 / 360.0)
  const RotYMax: real := Pi * (359.9 / 360.0)
  const ArmMin: int := 5
  const ArmMax: int := 10000
  const SensitivityX: real := 360.0
  const SensitivityY: real := 480.0
  const SensitivityArm: real := 5.0

  datatype Camera = Camera(armLength: int, rotX: real, rotY: real)

  /** The bounds the wheel and the vertical drag keep: arm length and polar angle inside their ranges. */
  predicate CameraValid(c: Camera)
  {
    ArmMin <= c.armLength <= ArmMax && RotYMin <= c.rotY <= RotYMax
  }

  /** GLWidget.__init__: arm 20, no azimuth, the polar angle at its minimum (looking from the top). */
  function InitialCamera(): (c: Camera)
    ensures CameraValid(c)
    ensures c.armLength == 20 && c.rotX == 0.0 && c.rotY == RotYMin
  {
    Camera(20, 0.0, RotYMin)
  }

  function ClampInt(lo: int, hi: int, v: int): int
  {
    if hi < v then (if lo >= hi then lo else hi) else (if lo >= v then lo else v)
  }

  function ClampReal(lo: real, hi: real, v: real): real
  {
    if hi < v then (if lo >= hi then lo else hi) else (if lo >= v then lo else v)
  }

  /** `max(lo, min(hi, v))` lands in [lo, hi] whenever lo <= hi, and leaves in-range values alone. */
  lemma ClampIntSpec(lo: int, hi: int, v: int)
    requires lo <= hi
    ensures lo <= ClampInt(lo, hi, v) <= hi
    ensures lo <= v <= hi ==> ClampInt(lo, hi, v) == v
  {
  }

  /** The wheel delta in arm units: angle delta / 15 / 8 * SENSITIVITY_ARM. */
  function WheelDelta(angleDeltaY: int): real
  {
    angleDeltaY as real / 15.0 / 8.0 * SensitivityArm
  }

  /**
   * `max(da * 0.02 * arm, da / 5, key=fabs)`: the candidate of larger magnitude, the first
   * (proportional) one on a tie, as Python's max keeps the first maximal element.
   */
  function WheelStep(da: real, arm: int): (s: real)
    ensures s == da * 0.02 * arm as real || s == da / 5.0
    ensures Abs(s) == Max(Abs(da * 0.02 * arm as real), Abs(da / 5.0))
    ensures Abs(da / 5.0) > Abs(da * 0.02 * arm as real) <==> s == da / 5.0 && s != da * 0.02 * arm as real
  {
    var proportional := da * 0.02 * arm as real;
    var fixedStep := da / 5.0;
    if Abs(fixedStep) > Abs(proportional) then fixedStep else proportional
  }

  /** wheelEvent: shorten the arm by the step, truncate to an integer and clamp into [ARM_MIN, ARM_MAX]. */
  function WheelEvent(c: Camera, angleDeltaY: int): (r: Camera)
    ensures ArmMin <= r.armLength <= ArmMax
    ensures r.rotX == c.rotX && r.rotY == c.rotY
  {
    var da := WheelDelta(angleDeltaY);
    var arm := ClampInt(ArmMin, ArmMax, Trunc(c.armLength as real - WheelStep(da, c.armLength)));
    ClampIntSpec(ArmMin, ArmMax, Trunc(c.armLength as real - WheelStep(da, c.armLength)));
    c.(armLength := arm)
  }

  /** With a positive arm, the step has the sign of the wheel delta. */
  lemma WheelStepSign(da: real, arm: int)
    requires arm > 0
    ensures da > 0.0 ==> WheelStep(da, arm) > 0.0
    ensures da < 0.0 ==> WheelStep(da, arm) < 0.0
    ensures da == 0.0 ==> WheelStep(da, arm) == 0.0
  {
    var p := da * 0.02 * arm as real;
    if da > 0.0 {
      assert p > 0.0 by { assert 0.02 * arm as real > 0.0; }
    } else if da < 0.0 {
      assert p < 0.0 by { assert 0.02 * arm as real > 0.0; }
    }
  }

  /**
   * Rolling the wheel forward (positive delta) never lengthens an in-range arm, rolling it
   * back never shortens it, and no rotation leaves the arm as it was.
   */
  lemma {:induction false} WheelMonotone(c: Camera, angleDeltaY: int)
    requires ArmMin <= c.armLength <= ArmMax
    ensures angleDeltaY > 0 ==> WheelEvent(c, angleDeltaY).armLength <= c.armLength
    ensures angleDeltaY < 0 ==> WheelEvent(c, angleDeltaY).armLength >= c.armLength
    ensures angleDeltaY == 0 ==> WheelEvent(c, angleDeltaY) == c
  {
    var da := WheelDelta(angleDeltaY);
    WheelStepSign(da, c.armLength);
    var t := Trunc(c.armLength as real - WheelStep(da, c.armLength));
    ClampIntSpec(ArmMin, ArmMax, t);
    if angleDeltaY > 0 {
      assert da > 0.0;
      assert t <= c.armLength;
    } else if angleDeltaY < 0 {
      assert da < 0.0;
      assert t >= c.armLength;
    } else {
      assert t == c.armLength;
    }
  }

  /** addRotY: drag the polar angle by `val` pixels, clamped into [ROT_Y_MIN, ROT_Y_MAX]. */
  function AddRotY(c: Camera, val: real): (r: Camera)
    ensures RotYMin <= r.rotY <= RotYMax
    ensures RotYMin <= c.rotY - Pi * (val / SensitivityY) <= RotYMax ==> r.rotY == c.rotY - Pi * (val / SensitivityY)
    ensures r.armLength == c.armLength && r.rotX == c.rotX
  {
    c.(rotY := ClampReal(RotYMin, RotYMax, c.rotY - Pi * (val / SensitivityY)))
  }

  /** addRotX: the azimuth is unbounded and simply accumulates the drag. */
  function AddRotX(c: Camera, val: real): (r: Camera)
    ensures r.rotX - c.rotX == Pi * (val / SensitivityX)
    ensures r.(rotX := c.rotX) == c
  {
    c.(rotX := c.rotX + Pi * (val / SensitivityX))
  }

  /** setRotX: the slider value is in degrees. */
  function SetRotX(c: Camera, val: real): (r: Camera)
    ensures r.rotX * 180.0 == Pi * val
    ensures r.(rotX := c.rotX) == c
  {
    c.(rotX := Pi * (val / 180.0))
  }

  /** setRotY: the slider value is in half-degrees, and unlike addRotY it is not clamped. */
  function SetRotY(c: Camera, val: real): (r: Camera)
    ensures r.rotY * 360.0 == Pi * val
    ensures r.(rotY := c.rotY) == c
  {
    c.(rotY := Pi * (val / 360.0))
  }

  /** set_perspective_top: look straight down. */
  function SetPerspectiveTop(c: Camera): (r: Camera)
    ensures r.rotX == 0.0 && r.rotY == RotYMin && r.armLength == c.armLength
  {
    c.(rotX := 0.0, rotY := RotYMin)
  }

  /** set_perspective_side(side): a horizontal view from the quarter turn `side`. */
  function SetPerspectiveSide(c: Camera, side: int): (r: Camera)
    ensures r.rotX * 2.0 == Pi * side as real && r.rotY * 2.0 == Pi && r.armLength == c.armLength
    ensures RotYMin < r.rotY < RotYMax
  {
    c.(rotX := Pi * side as real / 2.0, rotY := Pi / 2.0)
  }

  /** set_perspective_bottom: look straight up. */
  function SetPerspectiveBottom(c: Camera): (r: Camera)
    ensures r.rotX == 0.0 && r.rotY == RotYMax && r.armLength == c.armLength
  {
    c.(rotX := 0.0, rotY := RotYMax)
  }

  /** setArm: 20 plus the slider value, without the wheel's clamp. */
  function SetArm(c: Camera, val: int): (r: Camera)
    ensures r.armLength - val == 20
    ensures r.(armLength := c.armLength) == c
  {
    c.(armLength := 20 + val)
  }

  /**
   * The wheel, the vertical drag, the horizontal drag and the perspective buttons all keep
   * a valid camera valid.
   */
  lemma BoundedOperationsKeepValid(c: Camera, angleDeltaY: int, val: real, side: int)
    requires CameraValid(c)
    ensures CameraValid(WheelEvent(c, angleDeltaY))
    ensures CameraValid(AddRotY(c, val)) && CameraValid(AddRotX(c, val))
    ensures CameraValid(SetPerspectiveTop(c)) && CameraValid(SetPerspectiveBottom(c))
    ensures CameraValid(SetPerspectiveSide(c, side))
  {
  }

  /** setArm keeps the camera valid exactly for slider values in [-15, 9980]: the arm bound is not enforced there. */
  lemma SetArmValidIff(c: Camera, val: int)
    requires CameraValid(c)
    ensures CameraValid(SetArm(c, val)) <==> -15 <= val <= 9980
  {
  }
}

=== FILE: common.dfy ===
/** Shared value types and small sequence helpers used by every other module. */
module Common {

  datatype Option<+T> = None | Some(value: T)

  /** A 3-component vector (numpy array / glm.vec3 of the viewer). */
  datatype Vec3 = Vec3(x: real, y: real, z: real)

  /**
   * The floating-point primitives the model leaves uninterpreted: natural log, 10**x,
   * Python's float() on a token, and the UV-sphere vertex position for grid cell (i, j)
   * of a sphere with the given meridians and parallels.
   */
  datatype Numerics = Numerics(
    ln: real -> real,
    pow10: real -> real,
    parseFloat: string -> Option<real>,
    spherePoint: (nat, nat, nat, nat) -> Vec3)

  /** Exchanges the second and third component: the viewer's "source Z is up" convention. */
  function SwapYZ(v: Vec3): (r: Vec3)
    ensures r.x == v.x && r.y == v.z && r.z == v.y
  {
    Vec3(v.x, v.z, v.y)
  }

  lemma SwapYZInvolution(v: Vec3)
    ensures SwapYZ(SwapYZ(v)) == v
  {
  }

  function Scale3(v: Vec3, k: real): Vec3
  {
    Vec3(v.x * k, v.y * k, v.z * k)
  }

  function Min(a: real, b: real): real { if a <= b then a else b }
  function Max(a: real, b: real): real { if a >= b then a else b }
  function Abs(a: real): real { if a < 0.0 then -a else a }

  /** Python's int() applied to a float: truncation toward zero. */
  function Trunc(a: real): (r: int)
    ensures a >= 0.0 ==> r as real <= a < r as real + 1.0
    ensures a < 0.0 ==> r as real - 1.0 < a <= r as real
  {
    if a >= 0.0 then a.Floor else -((-a).Floor)
  }

  /** numpy.tile(row, (n, 1)).flatten(): the row repeated n times. */
  function Tile(row: seq<real>, n: nat): (r: seq<real>)
    ensures |r| == n * |row|
  {
    if n == 0 then [] else Tile(row, n - 1) + row
  }

  /** Component k of a tiled RGBA row is component k % 4 of the row. */
  lemma {:induction false} TileRgba(row: seq<real>, n: nat)
    requires |row| == 4
    ensures forall k :: 0 <= k < |Tile(row, n)| ==> Tile(row, n)[k] == row[k % 4]
  {
    if n > 0 {
      TileRgba(row, n - 1);
      var t := Tile(row, n);
      assert t == Tile(row, n - 1) + row;
      forall k | 0 <= k < |t|
        ensures t[k] == row[k % 4]
      {
        if k >= 4 * (n - 1) {
          assert k % 4 == k - 4 * (n - 1);
        }
      }
    }
  }

  /** Component k of a tiled RGB row is component k % 3 of the row. */
  lemma {:induction false} TileRgb(row: seq<real>, n: nat)
    requires |row| == 3
    ensures forall k :: 0 <= k < |Tile(row, n)| ==> Tile(row, n)[k] == row[k % 3]
  {
    if n > 0 {
      TileRgb(row, n - 1);
      var t := Tile(row, n);
      assert t == Tile(row, n - 1) + row;
      forall k | 0 <= k < |t|
        ensures t[k] == row[k % 3]
      {
        if k >= 3 * (n - 1) {
          assert k % 3 == k - 3 * (n - 1);
        }
      }
    }
  }

  /** Every element of an index list is below a bound (the mesh invariant "index < vertex count"). */
  predicate AllBelow(s: seq<nat>, bound: nat)
  {
    forall k :: 0 <= k < |s| ==> s[k] < bound
  }

  predicate StrictlyIncreasing(s: seq<nat>)
  {
    forall i, j :: 0 <= i < j < |s| ==> s[i] < s[j]
  }

  /**
   * The values `f` yields on the inputs it accepts, in input order: the shape of the file
   * loaders' loops, which parse each line or row and skip the ones that fail.
   */
  function Collect<T, U>(f: T -> Option<U>, xs: seq<T>): (r: seq<U>)
    ensures |r| <= |xs|
    ensures forall y :: y in r ==> exists x :: x in xs && f(x) == Some(y)
  {
    if xs == [] then []
    else
      var rest := Collect(f, xs[1..]);
      assert forall x :: x in xs[1..] ==> x in xs;
      (if f(xs[0]).Some? then [f(xs[0]).value] else []) + rest
  }

  /** Inputs are handled independently: collecting two blocks is collecting each, concatenated. */
  lemma {:induction false} CollectConcat<T, U>(f: T -> Option<U>, a: seq<T>, b: seq<T>)
    ensures Collect(f, a + b) == Collect(f, a) + Collect(f, b)
  {
    if a == [] {
      assert a + b == b;
    } else {
      assert (a + b)[0] == a[0];
      assert (a + b)[1..] == a[1..] + b;
      CollectConcat(f, a[1..], b);
    }
  }

  /** When every input is rejected nothing is collected; when every input is accepted each gives its value, in place. */
  lemma {:induction false} CollectAll<T, U>(f: T -> Option<U>, xs: seq<T>)
    ensures (forall i :: 0 <= i < |xs| ==> f(xs[i]).None?) ==> Collect(f, xs) == []
    ensures (forall i :: 0 <= i < |xs| ==> f(xs[i]).Some?) ==>
      |Collect(f, xs)| == |xs| && forall i :: 0 <= i < |xs| ==> Collect(f, xs)[i] == f(xs[i]).value
  {
    if xs != [] {
      CollectAll(f, xs[1..]);
      assert forall i :: 1 <= i < |xs| ==> xs[1..][i - 1] == xs[i];
    }
  }

  /** Lower-cases ASCII letters (Python str.lower() restricted to ASCII). */
  function LowerChar(c: char): (r: char)
    ensures 'A' <= c <= 'Z' ==> r as int == c as int + 32
    ensures !('A' <= c <= 'Z') ==> r == c
  {
    if 'A' <= c <= 'Z' then (c as int + 32) as char else c
  }

  function Lower(s: string): (r: string)
    ensures |r| == |s|
    ensures forall k :: 0 <= k < |s| ==> r[k] == LowerChar(s[k])
  {
    if s == [] then [] else [LowerChar(s[0])] + Lower(s[1..])
  }

  predicate EndsWith(s: string, suffix: string)
  {
    |suffix| <= |s| && s[|s| - |suffix|..] == suffix
  }

  predicate StartsWith(s: string, prefix: string)
  {
    |prefix| <= |s| && s[..|prefix|] == prefix
  }
}

=== FILE: dict.dfy ===
/**
 * An insertion-ordered dictionary from object ids to values, the semantics of a Python
 * dict: assigning an existing key keeps its position, a new key goes to the end, and
 * deleting a key removes it from the order. The viewer relies on this order for the
 * "last key" lookup after an add, for the draw order and for pick tie-breaks.
 */
module Dict {

  datatype Dict<V> = Dict(order: seq<nat>, entries: map<nat, V>)

  predicate Distinct(s: seq<nat>)
  {
    forall i, j :: 0 <= i < j < |s| ==> s[i] != s[j]
  }

  /** The order lists exactly the keys of the map, each once. */
  predicate Valid<V>(d: Dict<V>)
  {
    && Distinct(d.order)
    && (forall k :: k in d.entries ==> k in d.order)
    && (forall i :: 0 <= i < |d.order| ==> d.order[i] in d.entries)
  }

  function Empty<V>(): (d: Dict<V>)
    ensures Valid(d) && d.entries == map[]
  {
    Dict([], map[])
  }

  /** `d[k] = v`. */
  function Put<V>(d: Dict<V>, k: nat, v: V): (r: Dict<V>)
    requires Valid(d)
    ensures Valid(r)
    ensures r.entries.Keys == d.entries.Keys + {k}
    ensures k in r.entries && r.entries[k] == v
    ensures forall j :: j in d.entries && j != k ==> j in r.entries && r.entries[j] == d.entries[j]
    ensures k in d.entries ==> r.order == d.order
    ensures k !in d.entries ==> r.order == d.order + [k]
  {
    if k in d.entries then Dict(d.order, d.entries[k := v])
    else Dict(d.order + [k], d.entries[k := v])
  }

  /** The sequence `s` with every occurrence of `k` dropped, other elements in order. */
  function Without(s: seq<nat>, k: nat): (r: seq<nat>)
    ensures forall j :: j in r <==> j in s && j != k
    ensures |r| <= |s|
    ensures Distinct(s) ==> Distinct(r)
  {
    if s == [] then []
    else if s[0] == k then Without(s[1..], k)
    else
      var rest := Without(s[1..], k);
      assert Distinct(s) ==> s[0] !in s[1..];
      [s[0]] + rest
  }

  /** Dropping `k` keeps the order of what remains: it acts on each part of a concatenation separately. */
  lemma {:induction false} WithoutConcat(a: seq<nat>, b: seq<nat>, k: nat)
    ensures Without(a + b, k) == Without(a, k) + Without(b, k)
  {
    if a != [] {
      assert (a + b)[1..] == a[1..] + b;
      WithoutConcat(a[1..], b, k);
    } else {
      assert a + b == b;
    }
  }

  /** On one element, `Without` drops exactly `k` and keeps anything else. */
  lemma WithoutSingle(x: nat, k: nat)
    ensures Without([x], k) == if x == k then [] else [x]
  {
  }

  /** A key that does not occur is not removed from anything: the order comes back unchanged. */
  lemma {:induction false} WithoutAbsent(s: seq<nat>, k: nat)
    requires k !in s
    ensures Without(s, k) == s
  {
    if s != [] {
      assert s[0] != k && k !in s[1..];
      WithoutAbsent(s[1..], k);
      assert s == [s[0]] + s[1..];
    }
  }

  /** The sequence `s` with every element of `out` dropped, the others in their order. */
  function Omit(s: seq<nat>, out: set<nat>): (r: seq<nat>)
    ensures forall j :: j in r <==> j in s && j !in out
    ensures Distinct(s) ==> Distinct(r)
  {
    if s == [] then []
    else if s[0] in out then Omit(s[1..], out)
    else
      var rest := Omit(s[1..], out);
      assert Distinct(s) ==> s[0] !in s[1..];
      [s[0]] + rest
  }

  /** Removing one key is omitting the set of that key. */
  lemma {:induction false} WithoutIsOmit(s: seq<nat>, k: nat)
    ensures Without(s, k) == Omit(s, {k})
  {
    if s != [] {
      WithoutIsOmit(s[1..], k);
    }
  }

  /** Omitting two sets one after the other is omitting their union. */
  lemma {:induction false} OmitOmit(s: seq<nat>, a: set<nat>, b: set<nat>)
    ensures Omit(Omit(s, a), b) == Omit(s, a + b)
  {
    if s != [] {
      OmitOmit(s[1..], a, b);
      if s[0] !in a {
        assert Omit(s, a) == [s[0]] + Omit(s[1..], a);
        assert Omit(s, a)[1..] == Omit(s[1..], a);
      }
    }
  }

  /** Omitting keys that do not occur changes nothing more. */
  lemma {:induction false} OmitAbsent(s: seq<nat>, a: set<nat>, b: set<nat>)
    requires forall j :: j in b ==> j !in s
    ensures Omit(s, a + b) == Omit(s, a)
  {
    if s != [] {
      assert s[0] !in b;
      OmitAbsent(s[1..], a, b);
    }
  }

  /** Omitting nothing keeps the sequence. */
  lemma {:induction false} OmitNone(s: seq<nat>)
    ensures Omit(s, {}) == s
  {
    if s != [] {
      OmitNone(s[1..]);
      assert s == [s[0]] + s[1..];
    }
  }

  /** `del d[k]` when `k` is present; nothing when it is not. */
  function Remove<V>(d: Dict<V>, k: nat): (r: Dict<V>)
    requires Valid(d)
    ensures Valid(r)
    ensures r.entries.Keys == d.entries.Keys - {k}
    ensures forall j :: j in r.entries ==> r.entries[j] == d.entries[j]
    ensures k !in d.entries ==> r == d
    ensures k in d.entries ==> r.order == Without(d.order, k)
  {
    if k in d.entries then
      var o := Without(d.order, k);
      assert forall i :: 0 <= i < |o| ==> o[i] in o;
      Dict(o, d.entries - {k})
    else d
  }

  /** `list(d.keys())[-1]`. */
  function LastKey<V>(d: Dict<V>): (k: nat)
    requires Valid(d) && |d.order| > 0
    ensures k in d.entries
  {
    d.order[|d.order| - 1]
  }

  /** `d.values()`, in insertion order. */
  function Values<V>(d: Dict<V>): (r: seq<V>)
    requires Valid(d)
    ensures |r| == |d.order|
    ensures forall i :: 0 <= i < |r| ==> r[i] == d.entries[d.order[i]]
  {
    seq(|d.order|, i requires 0 <= i < |d.order| => d.entries[d.order[i]])
  }

  /** Replaces the value of a present key, keeping the order. */
  function Update<V>(d: Dict<V>, k: nat, v: V): (r: Dict<V>)
    requires Valid(d) && k in d.entries
    ensures Valid(r) && r.order == d.order
    ensures r.entries == d.entries[k := v]
  {
    Put(d, k, v)
  }

  /** The `n` consecutive counter values from `first`. */
  function Span(first: nat, n: nat): (r: seq<nat>)
    ensures |r| == n && forall i :: 0 <= i < n ==> r[i] == first + i
    decreases n
  {
    if n == 0 then [] else [first] + Span(first + 1, n - 1)
  }

  /** One more counter value at the end. */
  lemma SpanSnoc(first: nat, n: nat)
    ensures Span(first, n + 1) == Span(first, n) + [first + n]
  {
    var s, t := Span(first, n + 1), Span(first, n) + [first + n];
    forall i | 0 <= i < n + 1
      ensures s[i] == t[i]
    {
      if i < n {
        assert t[i] == Span(first, n)[i];
      }
    }
  }

  /**
   * For each key of `ks` in turn that is present, `d[k] = f(d[k])`. With an idempotent `f`
   * a repeated key changes nothing more: each present key of `ks` ends up holding `f` of
   * its old value and every other entry is untouched.
   */
  function ApplyEach<V(!new)>(d: Dict<V>, ks: seq<nat>, f: V -> V): (r: Dict<V>)
    requires forall x :: f(f(x)) == f(x)
    ensures r.order == d.order && r.entries.Keys == d.entries.Keys
    ensures forall k :: k in d.entries && k in ks ==> r.entries[k] == f(d.entries[k])
    ensures forall k :: k in d.entries && k !in ks ==> r.entries[k] == d.entries[k]
    decreases |ks|
  {
    if ks == [] then d
    else
      var d' := if ks[0] in d.entries then Dict(d.order, d.entries[ks[0] := f(d.entries[ks[0]])]) else d;
      ApplyEach(d', ks[1..], f)
  }

  /** Keeping the order and the key set keeps a dictionary well formed. */
  lemma SameShapeValid<V>(d: Dict<V>, e: Dict<V>)
    requires Valid(d) && e.order == d.order && e.entries.Keys == d.entries.Keys
    ensures Valid(e)
  {
    assert forall k :: k in e.entries <==> k in d.entries;
  }

  /** `del d[k]` for each key of `ks` in turn that is still present. */
  function RemoveEach<V>(d: Dict<V>, ks: seq<nat>): (r: Dict<V>)
    requires Valid(d)
    ensures Valid(r)
    ensures forall k :: k in r.entries <==> k in d.entries && k !in ks
    ensures forall k :: k in r.entries ==> r.entries[k] == d.entries[k]
    decreases |ks|
  {
    if ks == [] then d
    else
      var r := RemoveEach(Remove(d, ks[0]), ks[1..]);
      assert forall k :: k in ks <==> k == ks[0] || k in ks[1..];
      r
  }

  /** The keys listed in `ks`, as a set. */
  function KeySet(ks: seq<nat>): (r: set<nat>)
    ensures forall k :: k in r <==> k in ks
  {
    if ks == [] then {} else {ks[0]} + KeySet(ks[1..])
  }

  /** The `del` loop keeps the surviving keys in their order: the listed keys are omitted from it. */
  lemma {:induction false} RemoveEachOrder<V>(d: Dict<V>, ks: seq<nat>)
    requires Valid(d)
    ensures RemoveEach(d, ks).order == Omit(d.order, KeySet(ks))
    decreases |ks|
  {
    if ks == [] {
      OmitNone(d.order);
    } else {
      RemoveEachOrder(Remove(d, ks[0]), ks[1..]);
      RemoveOmit(d, ks[0], KeySet(ks[1..]));
    }
  }

  /** Omitting keys after a `del` is omitting the deleted key with them. */
  lemma RemoveOmit<V>(d: Dict<V>, k: nat, rest: set<nat>)
    requires Valid(d)
    ensures Omit(Remove(d, k).order, rest) == Omit(d.order, {k} + rest)
  {
    if k in d.entries {
      WithoutIsOmit(d.order, k);
      OmitOmit(d.order, {k}, rest);
    } else {
      OmitAbsent(d.order, rest, {k});
      assert rest + {k} == {k} + rest;
    }
  }

  lemma PutFreshIsLast<V>(d: Dict<V>, k: nat, v: V)
    requires Valid(d) && k !in d.entries
    ensures LastKey(Put(d, k, v)) == k
  {
  }

  /** `del d[k]; d[k] = v`: the key keeps a value, now `v`, and moves to the end of the order. */
  lemma ReplaceMovesLast<V>(d: Dict<V>, k: nat, v: V)
    requires Valid(d) && k in d.entries
    ensures Put(Remove(d, k), k, v).entries == d.entries[k := v]
    ensures Put(Remove(d, k), k, v).entries.Keys == d.entries.Keys
    ensures Put(Remove(d, k), k, v).order == Without(d.order, k) + [k]
  {
    assert Put(Remove(d, k), k, v).entries.Keys == d.entries[k := v].Keys;
  }
}

=== FILE: dxf.dfy ===
/**
 * Import of DXF 3DFACE entities (object_constructors.py, load_dxf_vertices and
 * create_dxf_object). The file reading is left out: the input is the list of faces, each
 * the list of its world-coordinate vertices as ezdxf returns them.
 */
module Dxf {
  import opened Common
  import opened Meshes
  import opened SceneObjects

  /** The four arrays load_dxf_vertices returns. */
  datatype DxfBuffers = DxfBuffers(vertices: seq<Vec3>, tris: seq<nat>, quads: seq<nat>, edges: seq<nat>)

  /** Total number of source points over all faces. */
  function TotalPoints(faces: seq<seq<Vec3>>): nat
  {
    if faces == [] then 0 else TotalPoints(faces[..|faces| - 1]) + |faces[|faces| - 1]|
  }

  /** All source points, face after face. */
  function AllPoints(faces: seq<seq<Vec3>>): (r: seq<Vec3>)
    ensures |r| == TotalPoints(faces)
  {
    if faces == [] then [] else AllPoints(faces[..|faces| - 1]) + faces[|faces| - 1]
  }

  /** Number of faces with exactly n vertices. */
  function CountFaces(faces: seq<seq<Vec3>>, n: nat): nat
  {
    if faces == [] then 0
    else CountFaces(faces[..|faces| - 1], n) + (if |faces[|faces| - 1]| == n then 1 else 0)
  }

  /** How one source point is stored: Y and Z exchanged, then scaled. */
  function StoredPoint(p: Vec3, scale: real): Vec3
  {
    Scale3(SwapYZ(p), scale)
  }

  function StoredPoints(pts: seq<Vec3>, scale: real): (r: seq<Vec3>)
    ensures |r| == |pts|
    ensures forall k :: 0 <= k < |pts| ==> r[k] == StoredPoint(pts[k], scale)
  {
    if pts == [] then [] else [StoredPoint(pts[0], scale)] + StoredPoints(pts[1..], scale)
  }

  /** The face index block of an n-gon whose first vertex has index o. */
  function FaceBlock(o: nat, n: nat): (r: seq<nat>)
    ensures |r| == n
    ensures forall i :: 0 <= i < n ==> r[i] == o + i
  {
    if n == 0 then [] else FaceBlock(o, n - 1) + [o + n - 1]
  }

  /** The closed edge loop of an n-gon whose first vertex has index o: pairs (o+i, o+(i+1) mod n). */
  function EdgeLoop(o: nat, n: nat): (r: seq<nat>)
    requires n == 3 || n == 4
    ensures |r| == 2 * n
    ensures forall i :: 0 <= i < n ==> r[2 * i] == o + i && r[2 * i + 1] == o + (i + 1) % n
  {
    if n == 3 then [o, o + 1, o + 1, o + 2, o + 2, o]
    else [o, o + 1, o + 1, o + 2, o + 2, o + 3, o + 3, o]
  }

  /**
   * One pass of the face loop: the face's points are appended; a triangle or quad also
   * appends its index block and closed edge loop at offset o = number of points so far;
   * any other vertex count appends points only.
   */
  function AddFace(b: DxfBuffers, face: seq<Vec3>, scale: real): (r: DxfBuffers)
    ensures r.vertices == b.vertices + StoredPoints(face, scale)
    ensures |face| == 3 ==> r.tris == b.tris + FaceBlock(|b.vertices|, 3) && r.quads == b.quads
                            && r.edges == b.edges + EdgeLoop(|b.vertices|, 3)
    ensures |face| == 4 ==> r.quads == b.quads + FaceBlock(|b.vertices|, 4) && r.tris == b.tris
                            && r.edges == b.edges + EdgeLoop(|b.vertices|, 4)
    ensures |face| != 3 && |face| != 4 ==> r.tris == b.tris && r.quads == b.quads && r.edges == b.edges
  {
    var o := |b.vertices|;
    var vs := b.vertices + StoredPoints(face, scale);
    if |face| == 3 then DxfBuffers(vs, b.tris + FaceBlock(o, 3), b.quads, b.edges + EdgeLoop(o, 3))
    else if |face| == 4 then DxfBuffers(vs, b.tris, b.quads + FaceBlock(o, 4), b.edges + EdgeLoop(o, 4))
    else DxfBuffers(vs, b.tris, b.quads, b.edges)
  }

  /** The buffers of a whole face list. Every emitted index names a stored vertex. */
  function Merge(faces: seq<seq<Vec3>>, scale: real): (r: DxfBuffers)
    ensures |r.vertices| == TotalPoints(faces)
    ensures AllBelow(r.tris, |r.vertices|) && AllBelow(r.quads, |r.vertices|) && AllBelow(r.edges, |r.vertices|)
  {
    if faces == [] then DxfBuffers([], [], [], [])
    else AddFace(Merge(faces[..|faces| - 1], scale), faces[|faces| - 1], scale)
  }

  /** The stored vertices are the source points, face after face, each swapped and scaled. */
  lemma {:induction false} MergeVertices(faces: seq<seq<Vec3>>, scale: real)
    ensures var vs := Merge(faces, scale).vertices;
      forall k :: 0 <= k < |vs| ==> vs[k] == StoredPoint(AllPoints(faces)[k], scale)
  {
    if faces != [] {
      var init := faces[..|faces| - 1];
      MergeVertices(init, scale);
      assert AllPoints(faces) == AllPoints(init) + faces[|faces| - 1];
    }
  }

  /** Three indices and a six-index edge loop per triangle, four and eight per quad. */
  lemma {:induction false} MergeCounts(faces: seq<seq<Vec3>>, scale: real)
    ensures var r := Merge(faces, scale);
      && |r.tris| == 3 * CountFaces(faces, 3)
      && |r.quads| == 4 * CountFaces(faces, 4)
      && |r.edges| == 6 * CountFaces(faces, 3) + 8 * CountFaces(faces, 4)
  {
    if faces != [] {
      MergeCounts(faces[..|faces| - 1], scale);
    }
  }

  /** AddFace with the index blocks written out, as the loop of load_dxf_vertices appends them. */
  lemma AddFaceLiteral(b: DxfBuffers, face: seq<Vec3>, scale: real)
    ensures var o, r := |b.vertices|, AddFace(b, face, scale);
      && r.vertices == b.vertices + StoredPoints(face, scale)
      && (|face| == 3 ==> r == DxfBuffers(r.vertices, b.tris + [o, o + 1, o + 2], b.quads,
                                          b.edges + [o, o + 1, o + 1, o + 2, o + 2, o]))
      && (|face| == 4 ==> r == DxfBuffers(r.vertices, b.tris, b.quads + [o, o + 1, o + 2, o + 3],
                                          b.edges + [o, o + 1, o + 1, o + 2, o + 2, o + 3, o + 3, o]))
      && (|face| != 3 && |face| != 4 ==> r == DxfBuffers(r.vertices, b.tris, b.quads, b.edges))
  {
    var o := |b.vertices|;
    assert FaceBlock(o, 3) == [o, o + 1, o + 2];
    assert FaceBlock(o, 4) == [o, o + 1, o + 2, o + 3];
  }

  /** The buffers of one more face of the list are the previous buffers with that face added. */
  lemma MergePrefix(faces: seq<seq<Vec3>>, i: nat, scale: real)
    requires i < |faces|
    ensures Merge(faces[..i + 1], scale) == AddFace(Merge(faces[..i], scale), faces[i], scale)
  {
    assert faces[..i + 1][..i] == faces[..i];
    assert faces[..i + 1][i] == faces[i];
  }

  /**
   * One pass of the loop of load_dxf_vertices: append the face's stored points, then its
   * triangle or quad indices and its edge loop, offset by the points stored before it.
   */
  method AppendFace(vertices: seq<Vec3>, tris: seq<nat>, quads: seq<nat>, edges: seq<nat>, offset: nat,
                    face: seq<Vec3>, scale: real)
    returns (vertices': seq<Vec3>, tris': seq<nat>, quads': seq<nat>, edges': seq<nat>, offset': nat)
    requires offset == |vertices|
    ensures DxfBuffers(vertices', tris', quads', edges') == AddFace(DxfBuffers(vertices, tris, quads, edges), face, scale)
    ensures offset' == |vertices'|
  {
    AddFaceLiteral(DxfBuffers(vertices, tris, quads, edges), face, scale);
    var pts := StoredPoints(face, scale);
    vertices', tris', quads', edges' := vertices + pts, tris, quads, edges;
    var n := |pts|;
    if n == 3 {
      tris' := tris + [offset, offset + 1, offset + 2];
      edges' := edges + [offset, offset + 1, offset + 1, offset + 2, offset + 2, offset];
    } else if n == 4 {
      quads' := quads + [offset, offset + 1, offset + 2, offset + 3];
      edges' := edges + [offset, offset + 1, offset + 1, offset + 2, offset + 2, offset + 3, offset + 3, offset];
    }
    offset' := offset + n;
  }

  /**
   * load_dxf_vertices on an already-read face list: the loop keeps index_offset equal to
   * the number of stored points and produces exactly the merged buffers.
   */
  method LoadDxfVertices(faces: seq<seq<Vec3>>, scale: real) returns (b: DxfBuffers)
    ensures b == Merge(faces, scale)
    ensures |b.vertices| == TotalPoints(faces)
    ensures AllBelow(b.tris, |b.vertices|) && AllBelow(b.quads, |b.vertices|) && AllBelow(b.edges, |b.vertices|)
  {
    var vertices: seq<Vec3> := [];
    var tris: seq<nat> := [];
    var quads: seq<nat> := [];
    var edges: seq<nat> := [];
    var offset: nat := 0;
    var i := 0;
    while i < |faces|
      invariant 0 <= i <= |faces|
      invariant offset == |vertices|
      invariant DxfBuffers(vertices, tris, quads, edges) == Merge(faces[..i], scale)
    {
      vertices, tris, quads, edges, offset := AppendFace(vertices, tris, quads, edges, offset, faces[i], scale);
      MergePrefix(faces, i, scale);
      i := i + 1;
    }
    assert faces[..i] == faces;
    b := DxfBuffers(vertices, tris, quads, edges);
  }

  /** Componentwise minimum of a non-empty point list (numpy min(axis=0)). */
  function MinCorner(vs: seq<Vec3>): (r: Vec3)
    requires |vs| > 0
    ensures forall k :: 0 <= k < |vs| ==> r.x <= vs[k].x && r.y <= vs[k].y && r.z <= vs[k].z
    ensures exists k :: 0 <= k < |vs| && r.x == vs[k].x
    ensures exists k :: 0 <= k < |vs| && r.y == vs[k].y
    ensures exists k :: 0 <= k < |vs| && r.z == vs[k].z
  {
    if |vs| == 1 then vs[0]
    else
      var m := MinCorner(vs[..|vs| - 1]);
      var v := vs[|vs| - 1];
      Vec3(Min(m.x, v.x), Min(m.y, v.y), Min(m.z, v.z))
  }

  /** Componentwise maximum of a non-empty point list (numpy max(axis=0)). */
  function MaxCorner(vs: seq<Vec3>): (r: Vec3)
    requires |vs| > 0
    ensures forall k :: 0 <= k < |vs| ==> vs[k].x <= r.x && vs[k].y <= r.y && vs[k].z <= r.z
    ensures exists k :: 0 <= k < |vs| && r.x == vs[k].x
    ensures exists k :: 0 <= k < |vs| && r.y == vs[k].y
    ensures exists k :: 0 <= k < |vs| && r.z == vs[k].z
  {
    if |vs| == 1 then vs[0]
    else
      var m := MaxCorner(vs[..|vs| - 1]);
      var v := vs[|vs| - 1];
      Vec3(Max(m.x, v.x), Max(m.y, v.y), Max(m.z, v.z))
  }

  function Midpoint(a: Vec3, b: Vec3): Vec3
  {
    Vec3((a.x + b.x) / 2.0, (a.y + b.y) / 2.0, (a.z + b.z) / 2.0)
  }

  /** The point lies inside the box (componentwise). */
  predicate InBox(p: Vec3, lo: Vec3, hi: Vec3)
  {
    lo.x <= p.x <= hi.x && lo.y <= p.y <= hi.y && lo.z <= p.z <= hi.z
  }

  const DxfFaceColor: seq<real> := [0.3, 0.3, 0.3, 0.1]
  const WhiteRgb: seq<real> := [1.0, 1.0, 1.0]
  const HoverRgb: seq<real> := [1.0, 0.5, 0.0]

  /**
   * create_dxf_object on a face list, with the counter value `next`. A file without any
   * vertex makes `vertices.min` raise, so the result is None and no id is consumed;
   * otherwise the collision box is the vertices' bounding box, the origin its midpoint,
   * and every colour buffer holds one entry per vertex.
   */
  function CreateDxfObject(next: nat, faces: seq<seq<Vec3>>): (r: Option<(SceneObject, nat)>)
    ensures r.None? <==> TotalPoints(faces) == 0
    ensures r.Some? ==>
      var (o, next') := r.value;
      var vs := o.mesh.vertices;
      && o.id == next && next' == next + 1
      && |vs| == TotalPoints(faces)
      && WellFormed(o.mesh)
      && (forall k :: 0 <= k < |vs| ==> InBox(vs[k], o.collision.pointBegin, o.collision.pointEnd))
      && o.origin == Midpoint(o.collision.pointBegin, o.collision.pointEnd)
      && o.collision.enabled
      && |o.mesh.colorsFaces| == 4 * |vs| && |o.mesh.colorsEdges| == 3 * |vs|
      && |o.mesh.colorsHovered| == 3 * |vs| && o.mesh.colorsEdgesActive == o.mesh.colorsEdges
      && o.mesh.enableFaces && o.mesh.enableEdges
      && o.objType == DefaultObjType && MatrixCurrent(o)
  {
    var b := Merge(faces, 1.0);
    var n := |b.vertices|;
    if n == 0 then None
    else
      var colors := Tile(DxfFaceColor, n);
      var colorsEdges := Tile(WhiteRgb, n);
      var colorsHovered := Tile(HoverRgb, n);
      var mesh := NewMesh(b.vertices, colors, Some(b.tris), Some(b.quads), Some(b.edges));
      var mesh := mesh.(colorsEdges := colorsEdges, colorsHovered := colorsHovered,
                        colorsSelected := colorsHovered, colorsEdgesActive := colorsEdges,
                        enableFaces := true);
      var lo := MinCorner(b.vertices);
      var hi := MaxCorner(b.vertices);
      var collision := NewCollisionBox(lo, hi);
      Some(NewSceneObject(next, mesh, collision, Midpoint(lo, hi), DefaultObjType, map[]))
  }

  /** The bounding box is tight: on each axis some vertex touches each face of the box. */
  lemma DxfBoxTight(next: nat, faces: seq<seq<Vec3>>)
    requires TotalPoints(faces) > 0
    ensures var o := CreateDxfObject(next, faces).value.0;
            var vs := o.mesh.vertices;
            && (exists k :: 0 <= k < |vs| && vs[k].x == o.collision.pointBegin.x)
            && (exists k :: 0 <= k < |vs| && vs[k].y == o.collision.pointBegin.y)
            && (exists k :: 0 <= k < |vs| && vs[k].z == o.collision.pointBegin.z)
            && (exists k :: 0 <= k < |vs| && vs[k].x == o.collision.pointEnd.x)
            && (exists k :: 0 <= k < |vs| && vs[k].y == o.collision.pointEnd.y)
            && (exists k :: 0 <= k < |vs| && vs[k].z == o.collision.pointEnd.z)
  {
    var b := Merge(faces, 1.0);
    var lo := MinCorner(b.vertices);
    var hi := MaxCorner(b.vertices);
  }
}

=== FILE: evp.dfy ===
/**
 * The line logic of MainWindow.parse_evp_file (AppWindow.py): from the lines of a seismic
 * event file to event records. Decoding the file is left out; `num.parseFloat` stands for
 * Python's float() on a token (None where it raises ValueError) and `num.pow10` for 10**x.
 */
module Evp {
  import opened Common
  import opened Text

  datatype EventRecord = EventRecord(x: real, y: real, z: real, eventType: string, energy: real, magnitude: real)

  /** The tokens the energy scan passes over without trying float(). */
  const ZeroLiterals: seq<string> := ["0.000000e+00", "NaN", "0.0", "0"]

  /** The first column after the six fixed ones, and the bound the scan stops before. */
  const EnergyFirst: nat := 6
  const EnergyLimit: nat := 20

  /** A column the scan takes as the energy: not a listed zero literal, and float() gives a positive value. */
  predicate EnergyToken(num: Numerics, t: string)
  {
    t !in ZeroLiterals && num.parseFloat(t).Some? && num.parseFloat(t).value > 0.0
  }

  /** Columns i .. end-1 scanned for the energy, the first acceptable one winning. */
  function ScanEnergy(num: Numerics, parts: seq<string>, i: nat, end: nat): (r: Option<real>)
    requires end <= |parts|
    decreases end - i
  {
    if i >= end then None
    else if EnergyToken(num, parts[i]) then Some(num.parseFloat(parts[i]).value)
    else ScanEnergy(num, parts, i + 1, end)
  }

  /**
   * The scan finds nothing exactly when no column in range is acceptable, and otherwise
   * returns the value of the first acceptable one.
   */
  lemma {:induction false} ScanEnergyFirst(num: Numerics, parts: seq<string>, i: nat, end: nat)
    requires end <= |parts|
    ensures ScanEnergy(num, parts, i, end).None? <==> forall j :: i <= j < end ==> !EnergyToken(num, parts[j])
    ensures ScanEnergy(num, parts, i, end).Some? ==>
      exists j :: i <= j < end && EnergyToken(num, parts[j])
        && ScanEnergy(num, parts, i, end).value == num.parseFloat(parts[j]).value
        && forall l :: i <= l < j ==> !EnergyToken(num, parts[l])
    decreases end - i
  {
    if i < end {
      if EnergyToken(num, parts[i]) {
        assert i <= i < end && EnergyToken(num, parts[i]);
      } else {
        ScanEnergyFirst(num, parts, i + 1, end);
        if ScanEnergy(num, parts, i + 1, end).Some? {
          var j :| i + 1 <= j < end && EnergyToken(num, parts[j])
            && ScanEnergy(num, parts, i + 1, end).value == num.parseFloat(parts[j]).value
            && forall l :: i + 1 <= l < j ==> !EnergyToken(num, parts[l]);
          assert forall l :: i <= l < j ==> !EnergyToken(num, parts[l]);
        }
      }
    }
  }

  /**
   * The energy of a line: the scanned column if there is one, else the magnitude estimate
   * 10**(1.5 m + 4.8) for a positive magnitude, else 1.0.
   */
  function LineEnergy(num: Numerics, scanned: Option<real>, magnitude: real): (e: real)
    ensures scanned.Some? ==> e == scanned.value
    ensures scanned.None? && magnitude > 0.0 ==> e == num.pow10(1.5 * magnitude + 4.8)
    ensures scanned.None? && magnitude <= 0.0 ==> e == 1.0
  {
    if scanned.Some? then scanned.value
    else if magnitude > 0.0 then num.pow10(1.5 * magnitude + 4.8)
    else 1.0
  }

  /** The event type by magnitude. */
  function EventType(magnitude: real): (t: string)
    ensures t in {"explosion", "earthquake", "microseismic"}
    ensures t == "explosion" <==> magnitude > 2.0
    ensures t == "earthquake" <==> 0.5 < magnitude <= 2.0
    ensures t == "microseismic" <==> magnitude <= 0.5
  {
    if magnitude > 2.0 then "explosion"
    else if magnitude > 0.5 then "earthquake"
    else "microseismic"
  }

  /** A larger magnitude never gives a weaker type. */
  lemma EventTypeMonotone(m1: real, m2: real)
    requires m1 <= m2
    ensures EventType(m1) == "explosion" ==> EventType(m2) == "explosion"
    ensures EventType(m2) == "microseismic" ==> EventType(m1) == "microseismic"
  {
  }

  /** A line the parser skips before reading numbers: empty after stripping, a comment, or fewer than six tokens. */
  predicate Skipped(line: string)
  {
    var t := Strip(line);
    t == [] || t[0] == '#' || |Split(t)| < 6
  }

  /**
   * One line: None where it is skipped, or where the magnitude (unless the literal NaN,
   * read as 0.0) or a coordinate fails to parse; otherwise the record of columns 2-5 and
   * the energy.
   */
  function ParseLine(num: Numerics, line: string): (r: Option<EventRecord>)
  {
    var t := Strip(line);
    if t == [] || t[0] == '#' then None
    else
      var parts := Split(t);
      if |parts| < 6 then None
      else
        var magnitude := if parts[2] == "NaN" then Some(0.0) else num.parseFloat(parts[2]);
        var x, y, z := num.parseFloat(parts[3]), num.parseFloat(parts[4]), num.parseFloat(parts[5]);
        if magnitude.None? || x.None? || y.None? || z.None? then None
        else
          var scanned := ScanEnergy(num, parts, EnergyFirst, if |parts| < EnergyLimit then |parts| else EnergyLimit);
          Some(EventRecord(x.value, y.value, z.value, EventType(magnitude.value),
                           LineEnergy(num, scanned, magnitude.value), magnitude.value))
  }

  /**
   * What a parsed line holds: the line is not skipped, its coordinates are columns 3-5,
   * the type follows the magnitude, and the energy is the first acceptable column among
   * 6 .. min(20, n)-1, or the magnitude fallback when there is none.
   */
  lemma ParseLineSpec(num: Numerics, line: string)
    ensures Skipped(line) ==> ParseLine(num, line).None?
    ensures ParseLine(num, line).Some? ==>
      var e, parts := ParseLine(num, line).value, Split(Strip(line));
      var end := if |parts| < EnergyLimit then |parts| else EnergyLimit;
      && |parts| >= 6
      && num.parseFloat(parts[3]) == Some(e.x) && num.parseFloat(parts[4]) == Some(e.y)
      && num.parseFloat(parts[5]) == Some(e.z)
      && (parts[2] == "NaN" ==> e.magnitude == 0.0)
      && (parts[2] != "NaN" ==> num.parseFloat(parts[2]) == Some(e.magnitude))
      && e.eventType == EventType(e.magnitude)
      && ((forall j :: EnergyFirst <= j < end ==> !EnergyToken(num, parts[j])) ==>
            e.energy == LineEnergy(num, None, e.magnitude))
      && ((exists j :: EnergyFirst <= j < end && EnergyToken(num, parts[j])) ==>
            exists j :: EnergyFirst <= j < end && EnergyToken(num, parts[j])
              && e.energy == num.parseFloat(parts[j]).value
              && forall l :: EnergyFirst <= l < j ==> !EnergyToken(num, parts[l]))
  {
    var parts := Split(Strip(line));
    if ParseLine(num, line).Some? {
      var end := if |parts| < EnergyLimit then |parts| else EnergyLimit;
      ScanEnergyFirst(num, parts, EnergyFirst, end);
    }
  }

  /** Only when a line has at least six tokens and its numbers parse does it yield a record. */
  lemma ParseLineAccepts(num: Numerics, line: string)
    requires !Skipped(line)
    ensures var parts := Split(Strip(line));
      ParseLine(num, line).Some? <==>
        (parts[2] == "NaN" || num.parseFloat(parts[2]).Some?)
        && num.parseFloat(parts[3]).Some? && num.parseFloat(parts[4]).Some? && num.parseFloat(parts[5]).Some?
  {
  }

  /** parse_evp_file over the decoded lines: the records of the lines that parse, in file order. */
  function ParseEvp(num: Numerics, lines: seq<string>): (r: seq<EventRecord>)
    ensures |r| <= |lines|
    ensures forall e :: e in r ==> exists l :: l in lines && ParseLine(num, l) == Some(e)
  {
    Collect((l: string) => ParseLine(num, l), lines)
  }

  /** Lines are parsed independently: the records of two blocks of lines are the records of each, concatenated. */
  lemma ParseEvpConcat(num: Numerics, a: seq<string>, b: seq<string>)
    ensures ParseEvp(num, a + b) == ParseEvp(num, a) + ParseEvp(num, b)
  {
    CollectConcat((l: string) => ParseLine(num, l), a, b);
  }

  /** Every record's type agrees with its magnitude. */
  lemma ParseEvpTypes(num: Numerics, lines: seq<string>)
    ensures forall e :: e in ParseEvp(num, lines) ==> e.eventType == EventType(e.magnitude)
  {
    forall e | e in ParseEvp(num, lines)
      ensures e.eventType == EventType(e.magnitude)
    {
      var l :| l in lines && ParseLine(num, l) == Some(e);
      ParseLineSpec(num, l);
    }
  }

  /** A comment line adds no record. */
  lemma ParseEvpComment(num: Numerics, lines: seq<string>, comment: string)
    requires Strip(comment) != [] && Strip(comment)[0] == '#'
    ensures ParseEvp(num, [comment] + lines) == ParseEvp(num, lines)
  {
    assert ([comment] + lines)[0] == comment;
    assert ([comment] + lines)[1..] == lines;
    assert ParseLine(num, comment).None?;
  }
}

=== FILE: files.dfy ===
/**
 * The file-visibility registry of MainWindow (AppWindow.py): `loaded_files`, from a file's
 * path to the ids of the scene objects it produced; the checkbox toggle that dispatches on
 * the file's name and loads, hides or shows a file's objects; and closing a project, which
 * deletes the objects of its loaded files. Reading files is a parameter (`Reader`).
 */
module Files {
  import opened Common
  import opened Text
  import opened Dict
  import opened SceneObjects
  import Viewer
  import Dxf
  import Evp
  import Properties

  // ---------------------------------------------------------------- file names

  /** The index of the last `c` in `s`, or -1 (str.rfind). */
  function LastIndexOf(s: string, c: char): (i: int)
    ensures -1 <= i < |s|
    ensures i >= 0 ==> s[i] == c
    ensures forall j :: i < j < |s| ==> s[j] != c
  {
    if s == [] then -1
    else if s[|s| - 1] == c then |s| - 1
    else LastIndexOf(s[..|s| - 1], c)
  }

  /** os.path.basename: the part after the last '/'. */
  function Basename(path: string): (b: string)
    ensures '/' !in b && EndsWith(path, b)
    ensures b == path || path[|path| - |b| - 1] == '/'
  {
    path[LastIndexOf(path, '/') + 1..]
  }

  /** The final component of a path that ends in a slash-free name is that name. */
  lemma BasenameOfJoin(dir: string, name: string)
    requires '/' !in name
    ensures Basename(dir + "/" + name) == name
  {
    var p := dir + "/" + name;
    assert p[|dir|] == '/';
    assert forall j :: |dir| < j < |p| ==> p[j] == name[j - |dir| - 1];
    LastIndexOfIs(p, '/', |dir|);
    assert p[|dir| + 1..] == name;
  }

  /** The last occurrence is the one with no occurrence after it. */
  lemma LastIndexOfIs(s: string, c: char, i: nat)
    requires i < |s| && s[i] == c
    requires forall j :: i < j < |s| ==> s[j] != c
    ensures LastIndexOf(s, c) == i
  {
  }

  predicate AllDots(s: string)
  {
    forall j :: 0 <= j < |s| ==> s[j] == '.'
  }

  /** A dot followed by dot-free text: the shape of every non-empty extension. */
  predicate DotSuffix(e: string)
  {
    e != [] && e[0] == '.' && forall j :: 1 <= j < |e| ==> e[j] != '.'
  }

  /**
   * os.path.splitext(p)[1]: the final component's suffix from its last dot, except when
   * nothing but dots precedes that dot (".dxf" and "..evp" have no extension).
   */
  function Ext(p: string): (e: string)
    ensures e == [] || (DotSuffix(e) && EndsWith(p, e) && forall j :: 0 <= j < |e| ==> e[j] != '/')
  {
    var b := Basename(p);
    var d := LastIndexOf(b, '.');
    if d >= 0 && !AllDots(b[..d]) then
      DotTail(p, b, d);
      b[d..]
    else []
  }

  /** The text of a slash-free final component from its last dot is a dot suffix of the path. */
  lemma DotTail(p: string, b: string, d: nat)
    requires '/' !in b && EndsWith(p, b)
    requires d < |b| && b[d] == '.' && forall j :: d < j < |b| ==> b[j] != '.'
    ensures var e := b[d..];
      DotSuffix(e) && EndsWith(p, e) && forall j :: 0 <= j < |e| ==> e[j] != '/'
  {
    var e := b[d..];
    assert forall j :: 1 <= j < |e| ==> e[j] == b[d + j];
    assert forall j :: 0 <= j < |e| ==> e[j] in b;
    assert p[|p| - |e|..] == b[d..];
  }

  /** The extensions is_supported_file accepts, compared after lower-casing. */
  const SupportedExtensions: seq<string> := [".dxf", ".evp", ".evg", ".csv"]

  /** is_supported_file. */
  predicate IsSupportedFile(filename: string)
  {
    Lower(Ext(filename)) in SupportedExtensions
  }

  /** A name with a real stem has the text from its last dot as extension. */
  lemma ExtOfName(dir: string, stem: string, ext: string)
    requires '/' !in stem && '/' !in ext && '.' !in ext
    requires !AllDots(stem)
    ensures Ext(dir + "/" + stem + "." + ext) == "." + ext
  {
    var name := stem + "." + ext;
    assert dir + "/" + stem + "." + ext == dir + "/" + name;
    BasenameOfJoin(dir, name);
    assert forall j :: |stem| < j < |name| ==> name[j] == ext[j - |stem| - 1];
    LastIndexOfIs(name, '.', |stem|);
    assert name[..|stem|] == stem;
    assert name[|stem|..] == "." + ext;
  }

  /** So such a file is supported exactly when that text, lower-cased, is one of the four. */
  lemma SupportedByExtension(dir: string, stem: string, ext: string)
    requires '/' !in stem && '/' !in ext && '.' !in ext
    requires !AllDots(stem)
    ensures IsSupportedFile(dir + "/" + stem + "." + ext) <==> Lower("." + ext) in SupportedExtensions
  {
    ExtOfName(dir, stem, ext);
  }

  /**
   * A file whose whole name is a dot and an extension (".dxf", ".EVP") has no extension for
   * is_supported_file, yet toggle_file_visibility still dispatches it on that name, so a
   * file named ".dxf" reaches the DXF loader.
   */
  lemma DotNameUnsupported(dir: string, ext: string)
    requires '/' !in ext && '.' !in ext
    ensures Ext(dir + "/." + ext) == []
    ensures !IsSupportedFile(dir + "/." + ext)
    ensures Dispatch(dir + "/." + ext) == DispatchName(Lower("." + ext))
    ensures Lower("." + ext) == ".dxf" ==> Dispatch(dir + "/." + ext) == DxfFile
  {
    var name := "." + ext;
    assert dir + "/." + ext == dir + "/" + name;
    BasenameOfJoin(dir, name);
    assert forall j :: 0 < j < |name| ==> name[j] == ext[j - 1];
    LastIndexOfIs(name, '.', 0);
    assert AllDots(name[..0]);
    assert Lower([]) == [];
  }

  /** Two extensions: a name ends with one exactly when its extension is that one. */
  lemma EndsWithDotSuffix(stem: string, e: string, suffix: string)
    requires DotSuffix(e) && DotSuffix(suffix)
    ensures EndsWith(stem + e, suffix) <==> e == suffix
  {
    var s := stem + e;
    if |suffix| <= |s| {
      var t := s[|s| - |suffix|..];
      if |e| > |suffix| {
        assert t[0] == e[|e| - |suffix|];
      } else if |e| < |suffix| {
        assert t[|suffix| - |e|] == e[0];
      } else {
        assert t == e;
      }
    }
  }

  /** The loader toggle_file_visibility picks for a path. */
  datatype FileKind = DxfFile | EvpFile | DetectorsCsv | EventsCsv | OtherFile

  /** toggle_file_visibility's dispatch on the lower-cased base name. */
  function Dispatch(path: string): (k: FileKind)
  {
    DispatchName(Lower(Basename(path)))
  }

  function DispatchName(name: string): (k: FileKind)
  {
    if EndsWith(name, ".dxf") then DxfFile
    else if EndsWith(name, ".evp") || EndsWith(name, ".evg") then EvpFile
    else if name == "detectors.csv" then DetectorsCsv
    else if name == "events.csv" then EventsCsv
    else OtherFile
  }

  /** Lower-casing works character by character, so it distributes over concatenation. */
  lemma LowerConcat(a: string, b: string)
    ensures Lower(a + b) == Lower(a) + Lower(b)
  {
    assert forall k :: 0 <= k < |a + b| ==> Lower(a + b)[k] == (Lower(a) + Lower(b))[k];
  }

  /** The lower-cased base name of dir/stem.ext splits at the extension's dot. */
  lemma LoweredName(dir: string, stem: string, ext: string)
    requires '/' !in stem && '/' !in ext
    ensures Lower(Basename(dir + "/" + stem + "." + ext)) == Lower(stem) + Lower("." + ext)
  {
    var name := stem + ("." + ext);
    assert dir + "/" + stem + "." + ext == dir + "/" + name;
    BasenameOfJoin(dir, name);
    LowerConcat(stem, "." + ext);
  }

  /** Lower-casing keeps an extension's shape: dots stay dots and nothing else becomes one. */
  lemma LoweredExt(ext: string)
    requires '.' !in ext
    ensures DotSuffix(Lower("." + ext))
  {
    var e := "." + ext;
    assert forall j :: 1 <= j < |e| ==> e[j] == ext[j - 1];
  }

  /** Dispatch on a lower-cased name that ends in the extension `e`. */
  lemma DispatchNameByExtension(l: string, e: string)
    requires DotSuffix(e)
    ensures e == ".dxf" <==> DispatchName(l + e) == DxfFile
    ensures e in {".evp", ".evg"} <==> DispatchName(l + e) == EvpFile
    ensures DispatchName(l + e) in {DetectorsCsv, EventsCsv} ==> e == ".csv"
    ensures DispatchName(l + e) != OtherFile ==> e in SupportedExtensions
  {
    EndsWithDotSuffix(l, e, ".dxf");
    EndsWithDotSuffix(l, e, ".evp");
    EndsWithDotSuffix(l, e, ".evg");
    EndsWithDotSuffix(l, e, ".csv");
    var name := l + e;
    if name == "detectors.csv" || name == "events.csv" {
      assert EndsWith(name, ".csv");
    }
  }

  /**
   * For a name with a real stem the dispatch follows the extension: .dxf reaches the DXF
   * loader and .evp/.evg the EVP loader exactly, the two CSV loaders only see .csv, and a
   * file is_supported_file rejects never reaches a loader.
   */
  lemma DispatchByExtension(dir: string, stem: string, ext: string)
    requires '/' !in stem && '/' !in ext && '.' !in ext
    requires !AllDots(stem)
    ensures var p := dir + "/" + stem + "." + ext;
      && (Lower("." + ext) == ".dxf" <==> Dispatch(p) == DxfFile)
      && (Lower("." + ext) in {".evp", ".evg"} <==> Dispatch(p) == EvpFile)
      && (Dispatch(p) in {DetectorsCsv, EventsCsv} ==> Lower("." + ext) == ".csv")
      && (!IsSupportedFile(p) ==> Dispatch(p) == OtherFile)
  {
    LoweredName(dir, stem, ext);
    LoweredExt(ext);
    ExtOfName(dir, stem, ext);
    DispatchNameByExtension(Lower(stem), Lower("." + ext));
  }

  // ---------------------------------------------------------------- rows and events

  /** transform_event_coordinates: y and z exchanged, so applying the exchange again gives the input back. */
  function TransformEventCoordinates(x: real, y: real, z: real): (r: Vec3)
    ensures SwapYZ(r) == Vec3(x, y, z)
  {
    Vec3(x, z, y)
  }

  /** fx in the CSV loaders: float() after turning decimal commas into points. */
  function Fx(num: Numerics, s: string): Option<real>
  {
    num.parseFloat(ReplaceChar(s, ',', '.'))
  }

  /** Where and what to add as an event sphere. */
  datatype Placement = Placement(at: Vec3, eventType: string, energy: real)

  /** A parsed EVP event, placed with its y and z exchanged. */
  function EvpPlacement(e: Evp.EventRecord): (p: Placement)
    ensures SwapYZ(p.at) == Vec3(e.x, e.y, e.z)
    ensures p.eventType == e.eventType && p.energy == e.energy
  {
    Placement(TransformEventCoordinates(e.x, e.y, e.z), e.eventType, e.energy)
  }

  /**
   * One events.csv row: at least six cells, x, y, z from cells 1, 3 and 2, the energy from
   * cell 5 and the type from the last cell, "unknown" when that is empty. None when a
   * number fails to parse, which skips the row.
   */
  function EventRow(num: Numerics, row: seq<string>): (r: Option<Placement>)
    ensures r.Some? <==> |row| >= 6 && Fx(num, row[1]).Some? && Fx(num, row[2]).Some?
                         && Fx(num, row[3]).Some? && Fx(num, row[5]).Some?
    ensures r.Some? ==> r.value.eventType != []
  {
    if |row| < 6 then None
    else
      var x, y, z, energy := Fx(num, row[1]), Fx(num, row[3]), Fx(num, row[2]), Fx(num, row[5]);
      if x.None? || y.None? || z.None? || energy.None? then None
      else
        var last := row[|row| - 1];
        Some(Placement(Vec3(x.value, y.value, z.value), if last != [] then last else "unknown", energy.value))
  }

  /** Writing an event as a row x;z;y;_;energy;type (type non-empty) and reading it back gives the event. */
  lemma EventRowRoundTrip(num: Numerics, xs: string, ys: string, zs: string, es: string, other: string, p: Placement)
    requires Fx(num, xs) == Some(p.at.x) && Fx(num, ys) == Some(p.at.y) && Fx(num, zs) == Some(p.at.z)
    requires Fx(num, es) == Some(p.energy) && p.eventType != []
    ensures EventRow(num, [other, xs, zs, ys, other, es, p.eventType]) == Some(p)
  {
  }

  /** A detector as detectors.csv describes it. */
  datatype DetectorRecord = DetectorRecord(detId: int, at: Vec3)

  /**
   * One detectors.csv row: at least four cells, the id int() of cell 0, x, y, z from
   * cells 2, 3 and 1. None when a number fails to parse, which skips the row.
   */
  function DetectorRow(num: Numerics, row: seq<string>): (r: Option<DetectorRecord>)
    ensures r.Some? <==> |row| >= 4 && Properties.ParseInt(row[0]).Some? && Fx(num, row[1]).Some?
                         && Fx(num, row[2]).Some? && Fx(num, row[3]).Some?
  {
    if |row| < 4 then None
    else
      var id, x, y, z := Properties.ParseInt(row[0]), Fx(num, row[2]), Fx(num, row[3]), Fx(num, row[1]);
      if id.None? || x.None? || y.None? || z.None? then None
      else Some(DetectorRecord(id.value, Vec3(x.value, y.value, z.value)))
  }

  /** Writing a detector as a row id;z;x;y with its id in decimal and reading it back gives the detector. */
  lemma DetectorRowRoundTrip(num: Numerics, xs: string, ys: string, zs: string, d: DetectorRecord)
    requires Fx(num, xs) == Some(d.at.x) && Fx(num, ys) == Some(d.at.y) && Fx(num, zs) == Some(d.at.z)
    ensures DetectorRow(num, [Properties.IntToDecimal(d.detId), zs, xs, ys]) == Some(d)
  {
    var key := Properties.IntToDecimal(d.detId);
    Properties.ParseIntRoundTrip(d.detId);
    var row := [key, zs, xs, ys];
    assert |row| == 4 && row[0] == key && row[1] == zs && row[2] == xs && row[3] == ys;
    assert DetectorRow(num, row) == Some(DetectorRecord(d.detId, Vec3(d.at.x, d.at.y, d.at.z)));
  }

  // ---------------------------------------------------------------- adding objects

  /** The records of the rows of events.csv that parse, in row order; the rest are skipped. */
  function EventRows(num: Numerics, rows: seq<seq<string>>): seq<Placement>
  {
    Collect((row: seq<string>) => EventRow(num, row), rows)
  }

  /** The records of the rows of detectors.csv that parse, in row order; the rest are skipped. */
  function DetectorRows(num: Numerics, rows: seq<seq<string>>): seq<DetectorRecord>
  {
    Collect((row: seq<string>) => DetectorRow(num, row), rows)
  }

  /** The event sphere a placement becomes under counter value `id`. */
  function PlacementObject(num: Numerics, id: nat, it: Placement): (o: SceneObject)
    ensures o.id == id && o.objType == "event" && o.location == it.at
    ensures o.data == map["type" := VStr(it.eventType), "energy" := VReal(it.energy)]
  {
    Viewer.EventObject(num, id, it.at.x, it.at.y, it.at.z, it.eventType, it.energy)
  }

  /** The detector pyramid a detectors.csv record becomes under counter value `id`. */
  function RecordObject(id: nat, d: DetectorRecord): (o: SceneObject)
    ensures o.id == id && o.objType == "detector" && o.location == d.at
    ensures o.data == map["id" := VInt(d.detId)]
  {
    Viewer.DetectorObject(id, d.detId, d.at.x, d.at.y, d.at.z)
  }

  /** What the event loops build for a placement under a counter value: its sphere. */
  function EventMaker(num: Numerics): (make: (nat, Placement) -> SceneObject)
    ensures forall id: nat, it: Placement :: make(id, it).id == id
  {
    (id: nat, it: Placement) => PlacementObject(num, id, it)
  }

  /** What the detectors loop builds for a record under a counter value: its pyramid. */
  const DetectorMaker: (nat, DetectorRecord) -> SceneObject := (id: nat, d: DetectorRecord) => RecordObject(id, d)

  /** The event loops' maker builds the sphere add_object_event stores. */
  lemma EventMakerIs(num: Numerics, id: nat, it: Placement)
    ensures EventMaker(num)(id, it) == PlacementObject(num, id, it)
  {
  }

  /** Each step of the EVP and events.csv loops is add_object_event with no custom colour: it adds the placement's sphere. */
  lemma PlacementIsEventAdd(num: Numerics, v: Viewer.Viewer, it: Placement)
    requires Viewer.ViewerValid(v)
    ensures Viewer.AddObjectEvent(num, v, it.at.x, it.at.y, it.at.z, it.eventType, it.energy, None)
      == Some(Viewer.AddNew(v, PlacementObject(num, v.nextId, it), v.nextId + 1))
  {
    Viewer.AddObjectEventAdds(num, v, it.at.x, it.at.y, it.at.z, it.eventType, it.energy);
  }

  /** Each step of the detectors.csv loop is add_object_detector: it adds the record's pyramid. */
  lemma RecordIsDetectorAdd(v: Viewer.Viewer, d: DetectorRecord)
    requires Viewer.ViewerValid(v)
    ensures Viewer.AddObjectDetector(v, d.detId, d.at.x, d.at.y, d.at.z) == Viewer.AddNew(v, RecordObject(v.nextId, d), v.nextId + 1)
  {
  }

  // ---------------------------------------------------------------- visibility

  /**
   * The toggles' enable and disable loops: every id of the list still in the scene gets
   * its own and its mesh's enabled flag set to `b`; ids no longer in the scene are skipped
   * and nothing is added or removed.
   */
  function SetEnabledIds(v: Viewer.Viewer, ids: seq<nat>, b: bool): (r: Viewer.Viewer)
    requires Viewer.ViewerValid(v)
    ensures Viewer.ViewerValid(r)
    ensures r.objects.order == v.objects.order && r.objects.entries.Keys == v.objects.entries.Keys
    ensures forall k :: k in v.objects.entries && k in ids ==> r.objects.entries[k] == SetEnabled(v.objects.entries[k], b)
    ensures forall k :: k in v.objects.entries && k !in ids ==> r.objects.entries[k] == v.objects.entries[k]
    ensures r.nextId == v.nextId && r.hovered == v.hovered && r.camera == v.camera && r.viewTarget == v.viewTarget
  {
    var f := (o: SceneObject) => SetEnabled(o, b);
    assert forall o :: f(f(o)) == f(o) by {
      forall o: SceneObject ensures f(f(o)) == f(o) {
        var once := SetEnabled(o, b);
        assert SetEnabled(once, b) == once;
      }
    }
    var d := ApplyEach(v.objects, ids, f);
    SameShapeValid(v.objects, d);
    v.(objects := d)
  }

  /** Only the last of two toggles of the same ids counts: hiding and then showing is showing. */
  lemma SetEnabledIdsLastWins(v: Viewer.Viewer, ids: seq<nat>, b1: bool, b2: bool)
    requires Viewer.ViewerValid(v)
    ensures SetEnabledIds(SetEnabledIds(v, ids, b1), ids, b2) == SetEnabledIds(v, ids, b2)
  {
    var w1 := SetEnabledIds(v, ids, b1);
    var w2 := SetEnabledIds(w1, ids, b2);
    var w := SetEnabledIds(v, ids, b2);
    forall k | k in v.objects.entries
      ensures w2.objects.entries[k] == w.objects.entries[k]
    {
      if k in ids {
        SetEnabledLastWins(v.objects.entries[k], b1, b2);
      }
    }
    assert w2.objects.entries == w.objects.entries;
  }

  /** After the loop every listed object still in the scene is shown exactly when `b` holds. */
  lemma SetEnabledIdsVisible(v: Viewer.Viewer, ids: seq<nat>, b: bool)
    requires Viewer.ViewerValid(v)
    ensures var r := SetEnabledIds(v, ids, b);
      forall k :: k in ids && k in r.objects.entries ==> Visible(r.objects.entries[k]) == b
  {
  }

  // ---------------------------------------------------------------- the registry

  /**
   * The MainWindow state the toggles work on: the viewer, `loaded_files` (path to the ids
   * its objects received) and `project_data` (project folder to its lists of file paths,
   * the values of the per-project dict in order).
   */
  datatype App = App(viewer: Viewer.Viewer, loaded: map<string, seq<nat>>, projects: map<string, seq<seq<string>>>)

  /** The viewer is valid and every recorded id was handed out by its counter. */
  predicate AppValid(a: App)
  {
    && Viewer.ViewerValid(a.viewer)
    && forall p :: p in a.loaded ==> forall i :: 0 <= i < |a.loaded[p]| ==> a.loaded[p][i] < a.viewer.nextId
  }

  /**
   * What reading a file yields, None where the source's read fails: the DXF faces, the
   * decoded lines of an event file, and the rows csv.reader produces with ';' as delimiter.
   */
  datatype Reader = Reader(
    dxf: string -> Option<seq<seq<Vec3>>>,
    evp: string -> Option<seq<string>>,
    csv: string -> Option<seq<seq<string>>>)

  /** The placements of parsed events, in order. */
  function EvpPlacements(events: seq<Evp.EventRecord>): (r: seq<Placement>)
    ensures |r| == |events| && forall i :: 0 <= i < |events| ==> r[i] == EvpPlacement(events[i])
  {
    seq(|events|, i requires 0 <= i < |events| => EvpPlacement(events[i]))
  }

  /**
   * `w` grew from `v` by objects under the next counter values only: they follow the
   * earlier objects in the map's order, every earlier object is untouched, and the hover
   * state and camera are kept.
   */
  ghost predicate Grown(v: Viewer.Viewer, w: Viewer.Viewer)
  {
    && w.nextId >= v.nextId
    && w.objects.order == v.objects.order + Span(v.nextId, w.nextId - v.nextId)
    && (forall k :: k in w.objects.entries <==> k in v.objects.entries || v.nextId <= k < w.nextId)
    && (forall k :: k in v.objects.entries ==> w.objects.entries[k] == v.objects.entries[k])
    && w.hovered == v.hovered && w.camera == v.camera
  }

  /** Records the objects of a freshly loaded file. */
  function Record(a: App, path: string, w: Viewer.Viewer, ids: seq<nat>): App
  {
    a.(viewer := w, loaded := a.loaded[path := ids])
  }

  /** A recorded single add keeps the registry valid and grows the scene by one object, the map's last key. */
  lemma RecordOne(a: App, path: string, w: Viewer.Viewer)
    requires AppValid(a) && Viewer.AddedOne(a.viewer, w)
    ensures LastKey(w.objects) == a.viewer.nextId
    ensures var r := Record(a, path, w, [a.viewer.nextId]);
      AppValid(r) && Grown(a.viewer, r.viewer)
      && r.loaded == a.loaded[path := Span(a.viewer.nextId, r.viewer.nextId - a.viewer.nextId)]
  {
    assert Span(a.viewer.nextId, 1) == [a.viewer.nextId];
  }

  /** Recording a batch's ids keeps the registry valid and grows the scene by exactly the batch. */
  lemma RecordEach(a: App, path: string, w: Viewer.Viewer, ids: seq<nat>)
    requires AppValid(a) && Viewer.ViewerValid(w) && w.nextId >= a.viewer.nextId
    requires ids == Span(a.viewer.nextId, w.nextId - a.viewer.nextId)
    requires w.objects.order == a.viewer.objects.order + ids
    requires forall k :: k in w.objects.entries <==> k in a.viewer.objects.entries || a.viewer.nextId <= k < w.nextId
    requires forall k :: k in a.viewer.objects.entries ==> w.objects.entries[k] == a.viewer.objects.entries[k]
    requires w.hovered == a.viewer.hovered && w.camera == a.viewer.camera
    ensures var r := Record(a, path, w, ids); AppValid(r) && Grown(a.viewer, r.viewer)
  {
  }

  /**
   * The shared shape of the batch loaders: each item's object added under the next counter
   * value, in item order, and the path recorded with the new ids.
   */
  method LoadBatch<T(!new)>(a: App, path: string, items: seq<T>, make: (nat, T) -> SceneObject) returns (r: App)
    requires AppValid(a)
    requires forall id: nat, t: T :: make(id, t).id == id
    ensures AppValid(r) && r.projects == a.projects && Grown(a.viewer, r.viewer)
    ensures r.viewer.nextId == a.viewer.nextId + |items|
    ensures r.loaded == a.loaded[path := Span(a.viewer.nextId, |items|)]
    ensures forall i :: 0 <= i < |items| ==> r.viewer.objects.entries[a.viewer.nextId + i] == make(a.viewer.nextId + i, items[i])
  {
    var w, ids := Viewer.AddEach(a.viewer, items, make);
    RecordEach(a, path, w, ids);
    r := Record(a, path, w, ids);
  }

  /**
   * toggle_dxf_file's load: add_object_dxf and the map's last key recorded. Nothing happens
   * when the file cannot be read or has no points (add_object_dxf raises and the handler
   * only warns).
   */
  method LoadDxf(rd: Reader, a: App, path: string) returns (r: App)
    requires AppValid(a) && path !in a.loaded
    ensures AppValid(r) && r.projects == a.projects && Grown(a.viewer, r.viewer)
    ensures path in r.loaded <==> rd.dxf(path).Some? && Dxf.TotalPoints(rd.dxf(path).value) > 0
    ensures path in r.loaded ==>
      && r.loaded == a.loaded[path := [a.viewer.nextId]]
      && r.viewer.nextId == a.viewer.nextId + 1
      && r.viewer.viewTarget == Some(r.viewer.objects.entries[a.viewer.nextId])
    ensures path !in r.loaded ==> r == a
  {
    var faces := rd.dxf(path);
    if faces.None? {
      return a;
    }
    var w := Viewer.AddObjectDxf(a.viewer, faces.value);
    if w.None? {
      return a;
    }
    RecordOne(a, path, w.value);
    r := Record(a, path, w.value, [LastKey(w.value.objects)]);
  }

  /** The events parse_evp_file yields for a path: none when the file cannot be read. */
  function EvpEvents(num: Numerics, rd: Reader, path: string): seq<Evp.EventRecord>
  {
    if rd.evp(path).None? then [] else Evp.ParseEvp(num, rd.evp(path).value)
  }

  /**
   * toggle_evp_file's load: one event sphere per parsed event, in file order, under
   * consecutive fresh ids; the path is always recorded, with no ids when nothing parsed.
   */
  method LoadEvp(num: Numerics, rd: Reader, a: App, path: string) returns (r: App)
    requires AppValid(a) && path !in a.loaded
    ensures AppValid(r) && r.projects == a.projects && Grown(a.viewer, r.viewer)
    ensures r.viewer.nextId == a.viewer.nextId + |EvpEvents(num, rd, path)|
    ensures r.loaded == a.loaded[path := Span(a.viewer.nextId, |EvpEvents(num, rd, path)|)]
    ensures forall i :: 0 <= i < |EvpEvents(num, rd, path)| ==>
      r.viewer.objects.entries[a.viewer.nextId + i] == EventMaker(num)(a.viewer.nextId + i, EvpPlacement(EvpEvents(num, rd, path)[i]))
  {
    var events := EvpEvents(num, rd, path);
    var items := EvpPlacements(events);
    r := LoadBatch(a, path, items, EventMaker(num));
  }

  /**
   * toggle_detectors_file's load: one detector per row that parses, in row order, under
   * consecutive fresh ids, and the ids recorded; nothing when the file cannot be read.
   */
  method LoadDetectors(num: Numerics, rd: Reader, a: App, path: string) returns (r: App)
    requires AppValid(a) && path !in a.loaded
    ensures AppValid(r) && r.projects == a.projects && Grown(a.viewer, r.viewer)
    ensures path in r.loaded <==> rd.csv(path).Some?
    ensures path !in r.loaded ==> r == a
    ensures path in r.loaded ==>
      var ds := DetectorRows(num, rd.csv(path).value);
      && r.viewer.nextId == a.viewer.nextId + |ds|
      && r.loaded == a.loaded[path := Span(a.viewer.nextId, |ds|)]
      && forall i :: 0 <= i < |ds| ==> r.viewer.objects.entries[a.viewer.nextId + i] == DetectorMaker(a.viewer.nextId + i, ds[i])
  {
    var rows := rd.csv(path);
    if rows.None? {
      return a;
    }
    var items := DetectorRows(num, rows.value);
    r := LoadBatch(a, path, items, DetectorMaker);
  }

  /** toggle_events_csv_file's load: likewise, one event sphere per event row that parses. */
  method LoadEventsCsv(num: Numerics, rd: Reader, a: App, path: string) returns (r: App)
    requires AppValid(a) && path !in a.loaded
    ensures AppValid(r) && r.projects == a.projects && Grown(a.viewer, r.viewer)
    ensures path in r.loaded <==> rd.csv(path).Some?
    ensures path !in r.loaded ==> r == a
    ensures path in r.loaded ==>
      var ps := EventRows(num, rd.csv(path).value);
      && r.viewer.nextId == a.viewer.nextId + |ps|
      && r.loaded == a.loaded[path := Span(a.viewer.nextId, |ps|)]
      && forall i :: 0 <= i < |ps| ==> r.viewer.objects.entries[a.viewer.nextId + i] == EventMaker(num)(a.viewer.nextId + i, ps[i])
  {
    var rows := rd.csv(path);
    if rows.None? {
      return a;
    }
    var items := EventRows(num, rows.value);
    r := LoadBatch(a, path, items, EventMaker(num));
  }

  // ---------------------------------------------------------------- toggles

  /**
   * The toggle for a file of the given kind. The four toggles of the known kinds
   * (toggle_dxf_file, toggle_evp_file, toggle_detectors_file, toggle_events_csv_file) share
   * one shape: a loaded path has its objects' flags set to `visible` and nothing else
   * changes; an unloaded path is loaded when shown and left alone when hidden. A file of no
   * known kind (toggle_generic_csv_file) changes nothing. Whatever happens, the registry
   * stays valid, the projects are kept, no object is removed and no other path's record
   * changes.
   */
  method ToggleFile(num: Numerics, rd: Reader, a: App, path: string, kind: FileKind, visible: bool) returns (r: App)
    requires AppValid(a)
    ensures AppValid(r) && r.projects == a.projects
    ensures kind == OtherFile ==> r == a
    ensures kind != OtherFile && path in a.loaded ==>
      && r.loaded == a.loaded && r.viewer == SetEnabledIds(a.viewer, a.loaded[path], visible)
      && r.viewer.nextId == a.viewer.nextId
    ensures kind != OtherFile && path in a.loaded ==>
      forall k :: k in a.loaded[path] && k in r.viewer.objects.entries ==> Visible(r.viewer.objects.entries[k]) == visible
    ensures path !in a.loaded && !visible ==> r == a
    ensures kind != OtherFile && path !in a.loaded && visible ==> Grown(a.viewer, r.viewer)
    ensures path !in a.loaded && path in r.loaded ==>
      r.loaded == a.loaded[path := Span(a.viewer.nextId, r.viewer.nextId - a.viewer.nextId)]
    ensures path !in r.loaded ==> r == a
    ensures forall k :: k in a.viewer.objects.entries ==> k in r.viewer.objects.entries
    ensures forall p :: p != path ==> (p in r.loaded <==> p in a.loaded)
    ensures forall p :: p != path && p in a.loaded ==> r.loaded[p] == a.loaded[p]
    ensures kind == DxfFile && path !in a.loaded && visible ==>
      && (path in r.loaded <==> rd.dxf(path).Some? && Dxf.TotalPoints(rd.dxf(path).value) > 0)
      && (path in r.loaded ==>
            && r.loaded == a.loaded[path := [a.viewer.nextId]]
            && r.viewer.nextId == a.viewer.nextId + 1
            && r.viewer.viewTarget == Some(r.viewer.objects.entries[a.viewer.nextId]))
    ensures kind == EvpFile && path !in a.loaded && visible ==>
      var es := EvpEvents(num, rd, path);
      && r.viewer.nextId == a.viewer.nextId + |es|
      && r.loaded == a.loaded[path := Span(a.viewer.nextId, |es|)]
      && forall i :: 0 <= i < |es| ==>
           r.viewer.objects.entries[a.viewer.nextId + i] == EventMaker(num)(a.viewer.nextId + i, EvpPlacement(es[i]))
    ensures kind == DetectorsCsv && path !in a.loaded && visible ==>
      && (path in r.loaded <==> rd.csv(path).Some?)
      && (path in r.loaded ==>
            var ds := DetectorRows(num, rd.csv(path).value);
            && r.viewer.nextId == a.viewer.nextId + |ds|
            && r.loaded == a.loaded[path := Span(a.viewer.nextId, |ds|)]
            && forall i :: 0 <= i < |ds| ==> r.viewer.objects.entries[a.viewer.nextId + i] == DetectorMaker(a.viewer.nextId + i, ds[i]))
    ensures kind == EventsCsv && path !in a.loaded && visible ==>
      && (path in r.loaded <==> rd.csv(path).Some?)
      && (path in r.loaded ==>
            var ps := EventRows(num, rd.csv(path).value);
            && r.viewer.nextId == a.viewer.nextId + |ps|
            && r.loaded == a.loaded[path := Span(a.viewer.nextId, |ps|)]
            && forall i :: 0 <= i < |ps| ==> r.viewer.objects.entries[a.viewer.nextId + i] == EventMaker(num)(a.viewer.nextId + i, ps[i]))
  {
    if kind == OtherFile {
      r := a;
    } else if path in a.loaded {
      r := a.(viewer := SetEnabledIds(a.viewer, a.loaded[path], visible));
      SetEnabledIdsVisible(a.viewer, a.loaded[path], visible);
    } else if !visible {
      r := a;
    } else {
      match kind
      case DxfFile =>
        r := LoadDxf(rd, a, path);
        assert Span(a.viewer.nextId, 1) == [a.viewer.nextId];
      case EvpFile => r := LoadEvp(num, rd, a, path);
      case DetectorsCsv => r := LoadDetectors(num, rd, a, path);
      case EventsCsv => r := LoadEventsCsv(num, rd, a, path);
    }
  }

  /** toggle_file_visibility: the toggle of the kind read off the lower-cased file name. */
  method ToggleFileVisibility(num: Numerics, rd: Reader, a: App, path: string, visible: bool) returns (r: App)
    requires AppValid(a)
    ensures AppValid(r) && r.projects == a.projects
    ensures Dispatch(path) == OtherFile ==> r == a
  {
    r := ToggleFile(num, rd, a, path, Dispatch(path), visible);
  }

  // ---------------------------------------------------------------- closing a project

  /** The file paths of a project's lists, in list order. */
  function Flatten(ls: seq<seq<string>>): (r: seq<string>)
    ensures forall p :: p in r <==> exists i :: 0 <= i < |ls| && p in ls[i]
  {
    if ls == [] then [] else ls[0] + Flatten(ls[1..])
  }

  /** The ids recorded for those of `paths` that are loaded. */
  function IdsOf(loaded: map<string, seq<nat>>, paths: seq<string>): set<nat>
  {
    set p, k | p in paths && p in loaded && k in loaded[p] :: k
  }

  /** Dropping a path's record: its ids and those of the remaining paths are what all of them had. */
  lemma IdsOfCons(loaded: map<string, seq<nat>>, paths: seq<string>)
    requires paths != []
    ensures var p := paths[0];
      IdsOf(loaded, paths) == (if p in loaded then set k | k in loaded[p] else {}) + IdsOf(loaded - {p}, paths[1..])
  {
    var p := paths[0];
    var lhs := IdsOf(loaded, paths);
    var rhs := (if p in loaded then set k | k in loaded[p] else {}) + IdsOf(loaded - {p}, paths[1..]);
    forall k | k in lhs
      ensures k in rhs
    {
      var q :| q in paths && q in loaded && k in loaded[q];
      if q != p {
        assert q in paths[1..] && q in loaded - {p} && k in (loaded - {p})[q];
      } else {
        assert k in set j | j in loaded[p];
      }
    }
    forall k | k in rhs
      ensures k in lhs
    {
      if !(p in loaded && k in loaded[p]) {
        var q :| q in paths[1..] && q in loaded - {p} && k in (loaded - {p})[q];
        assert q in paths;
      }
    }
  }

  /**
   * The inner loops of remove_project_objects: for each path in turn that is still loaded,
   * its objects still in the scene are deleted and its record dropped. Afterwards no given
   * path is recorded, every other record is kept, exactly the objects recorded for the
   * given loaded paths are gone, and the rest of the scene and the counter are untouched.
   */
  function RemoveFiles(a: App, paths: seq<string>): (r: App)
    requires AppValid(a)
    ensures AppValid(r) && r.projects == a.projects
    ensures r.viewer.nextId == a.viewer.nextId && r.viewer.hovered == a.viewer.hovered
    ensures r.viewer.camera == a.viewer.camera && r.viewer.viewTarget == a.viewer.viewTarget
    ensures forall p :: p in r.loaded <==> p in a.loaded && p !in paths
    ensures forall p :: p in r.loaded ==> r.loaded[p] == a.loaded[p]
    ensures forall k :: k in r.viewer.objects.entries <==> k in a.viewer.objects.entries && k !in IdsOf(a.loaded, paths)
    ensures forall k :: k in r.viewer.objects.entries ==> r.viewer.objects.entries[k] == a.viewer.objects.entries[k]
    decreases |paths|
  {
    if paths == [] then a
    else
      var p := paths[0];
      var a' := if p in a.loaded
        then a.(viewer := a.viewer.(objects := RemoveEach(a.viewer.objects, a.loaded[p])), loaded := a.loaded - {p})
        else a;
      IdsOfCons(a.loaded, paths);
      assert forall q :: q in paths <==> q == p || q in paths[1..];
      RemoveFiles(a', paths[1..])
  }

  /**
   * The objects that survive the removal keep their order in the scene: the draw order and
   * the pick order are the old ones with the removed ids left out.
   */
  lemma {:induction false} RemoveFilesOrder(a: App, paths: seq<string>)
    requires AppValid(a)
    ensures RemoveFiles(a, paths).viewer.objects.order == Omit(a.viewer.objects.order, IdsOf(a.loaded, paths))
    decreases |paths|
  {
    if paths == [] {
      OmitNone(a.viewer.objects.order);
      assert IdsOf(a.loaded, paths) == {};
    } else {
      var p := paths[0];
      IdsOfCons(a.loaded, paths);
      if p in a.loaded {
        var a' := a.(viewer := a.viewer.(objects := RemoveEach(a.viewer.objects, a.loaded[p])), loaded := a.loaded - {p});
        assert AppValid(a');
        assert RemoveFiles(a, paths) == RemoveFiles(a', paths[1..]);
        RemoveFilesOrder(a', paths[1..]);
        RemoveEachOrder(a.viewer.objects, a.loaded[p]);
        OmitOmit(a.viewer.objects.order, KeySet(a.loaded[p]), IdsOf(a.loaded - {p}, paths[1..]));
        assert KeySet(a.loaded[p]) == set k | k in a.loaded[p];
        assert IdsOf(a.loaded, paths) == KeySet(a.loaded[p]) + IdsOf(a.loaded - {p}, paths[1..]);
      } else {
        RemoveFilesOrder(a, paths[1..]);
        assert a.loaded - {p} == a.loaded;
        assert IdsOf(a.loaded, paths) == IdsOf(a.loaded, paths[1..]);
        assert RemoveFiles(a, paths) == RemoveFiles(a, paths[1..]);
      }
    }
  }

  /**
   * remove_project_objects: for a known project, every file of its lists that is loaded
   * loses its objects and its record, and the project is forgotten; an unknown project
   * changes nothing.
   */
  function RemoveProjectObjects(a: App, project: string): (r: App)
    requires AppValid(a)
    ensures AppValid(r)
    ensures project !in a.projects ==> r == a
    ensures r.projects == a.projects - {project}
    ensures project in a.projects ==>
      var files := Flatten(a.projects[project]);
      && (forall p :: p in r.loaded <==> p in a.loaded && p !in files)
      && (forall k :: k in r.viewer.objects.entries <==> k in a.viewer.objects.entries && k !in IdsOf(a.loaded, files))
    ensures forall p :: p in r.loaded ==> r.loaded[p] == a.loaded[p]
    ensures forall k :: k in r.viewer.objects.entries ==> r.viewer.objects.entries[k] == a.viewer.objects.entries[k]
    ensures r.viewer.nextId == a.viewer.nextId && r.viewer.hovered == a.viewer.hovered
    ensures r.viewer.camera == a.viewer.camera && r.viewer.viewTarget == a.viewer.viewTarget
    ensures project in a.projects ==>
      r.viewer.objects.order == Omit(a.viewer.objects.order, IdsOf(a.loaded, Flatten(a.projects[project])))
  {
    if project in a.projects then
      RemoveFilesOrder(a, Flatten(a.projects[project]));
      var r := RemoveFiles(a, Flatten(a.projects[project]));
      r.(projects := r.projects - {project})
    else a
  }
}

=== FILE: meshes.dfy ===
/**
 * ObjectMesh (object_meshes.py) and CollisionBox (collisions.py).
 *
 * A vertex buffer object is modelled by the data it holds: `vertices` is the list of
 * points, colour buffers are the flattened float arrays (4 floats per vertex for face
 * colours, 3 per vertex for edge/hover colours). The mesh holds five colour "references";
 * a hover swap makes the active edge reference point at another buffer, which in this
 * value model is the assignment of that buffer's contents.
 */
module Meshes {
  import opened Common

  datatype ObjectMesh = ObjectMesh(
    enableFaces: bool,
    enableEdges: bool,
    vertices: seq<Vec3>,
    colorsFaces: seq<real>,
    colorsEdges: seq<real>,
    colorsHovered: seq<real>,
    colorsSelected: seq<real>,
    colorsEdgesActive: seq<real>,
    facesQuads: Option<seq<nat>>,
    facesTriangles: Option<seq<nat>>,
    edges: Option<seq<nat>>,
    enabled: bool)

  /** An axis-aligned box in object space, used by picking. */
  datatype CollisionBox = CollisionBox(enabled: bool, pointBegin: Vec3, pointEnd: Vec3)

  function NewCollisionBox(b: Vec3, e: Vec3): (c: CollisionBox)
    ensures c.enabled && c.pointBegin == b && c.pointEnd == e
  {
    CollisionBox(true, b, e)
  }

  /** An index list that is absent or whose every index names a vertex. */
  predicate IndicesInRange(l: Option<seq<nat>>, vertexCount: nat)
  {
    l.None? || AllBelow(l.value, vertexCount)
  }

  /** The mesh invariant: every index of every topology list is below the vertex count. */
  predicate WellFormed(m: ObjectMesh)
  {
    && IndicesInRange(m.facesTriangles, |m.vertices|)
    && IndicesInRange(m.facesQuads, |m.vertices|)
    && IndicesInRange(m.edges, |m.vertices|)
  }

  /**
   * ObjectMesh.__init__: all three flags on, and every colour reference is the face
   * colour buffer passed in until a builder overrides them.
   */
  function NewMesh(vertices: seq<Vec3>, colors: seq<real>, facesT: Option<seq<nat>>,
                   facesQ: Option<seq<nat>>, edges: Option<seq<nat>>): (m: ObjectMesh)
    ensures m.enableFaces && m.enableEdges && m.enabled
    ensures m.colorsFaces == colors && m.colorsEdges == colors && m.colorsHovered == colors
    ensures m.colorsSelected == colors && m.colorsEdgesActive == colors
    ensures m.vertices == vertices
    ensures m.facesTriangles == facesT && m.facesQuads == facesQ && m.edges == edges
  {
    ObjectMesh(true, true, vertices, colors, colors, colors, colors, colors, facesQ, facesT, edges, true)
  }

  /** on_hover: the active edge colours become the hovered tint; nothing else changes. */
  function OnHover(m: ObjectMesh): (r: ObjectMesh)
    ensures r.colorsEdgesActive == m.colorsHovered
    ensures r.(colorsEdgesActive := m.colorsEdgesActive) == m
  {
    m.(colorsEdgesActive := m.colorsHovered)
  }

  /** on_unhover: the active edge colours become the baseline edge colours; nothing else changes. */
  function OnUnhover(m: ObjectMesh): (r: ObjectMesh)
    ensures r.colorsEdgesActive == m.colorsEdges
    ensures r.(colorsEdgesActive := m.colorsEdgesActive) == m
  {
    m.(colorsEdgesActive := m.colorsEdges)
  }

  lemma HoverIdempotent(m: ObjectMesh)
    ensures OnHover(OnHover(m)) == OnHover(m)
    ensures OnUnhover(OnUnhover(m)) == OnUnhover(m)
  {
  }

  /** Unhover undoes hover whenever the mesh was showing its baseline edge colours. */
  lemma UnhoverUndoesHover(m: ObjectMesh)
    requires m.colorsEdgesActive == m.colorsEdges
    ensures OnUnhover(OnHover(m)) == m
  {
  }

  /** The reference swap never touches geometry or topology, so the index invariant survives it. */
  lemma HoverKeepsWellFormed(m: ObjectMesh)
    requires WellFormed(m)
    ensures WellFormed(OnHover(m)) && WellFormed(OnUnhover(m))
  {
  }
}

=== FILE: opacity.dfy ===
/**
 * The scene side of a range-opacity change in PropertiesField (properties_field.py): finding
 * the event spheres of one energy range and rewriting their alpha in place, and the
 * fallback that rebuilds a sphere in a new colour.
 *
 * A sphere's face colour buffer always exists in this model, so the in-place path is the
 * one update_sphere_opacity takes; the rebuild path is modelled on its own.
 */
module Opacity {
  import opened Common
  import opened Meshes
  import opened SceneObjects
  import opened Dict
  import opened Shapes
  import opened Properties
  import Viewer
  import Renderer

  /**
   * The energy update_sphere_opacity reads from an object: `data.get("energy", 0)`, then
   * `float(energy) if energy else 0.0`, with 0.0 where float() raises. A string goes
   * through `parse`, None standing for the ValueError.
   */
  function EnergyOf(o: SceneObject, parse: string -> Option<real>): (e: real)
    ensures "energy" !in o.data ==> e == 0.0
    ensures "energy" in o.data && o.data["energy"].VReal? ==> e == o.data["energy"].r
    ensures "energy" in o.data && o.data["energy"].VInt? ==> e == o.data["energy"].i as real
    ensures "energy" in o.data && o.data["energy"] == VStr("") ==> e == 0.0
  {
    if "energy" !in o.data then 0.0
    else match o.data["energy"]
      case VReal(r) => r
      case VInt(i) => i as real
      case VStr(s) => if s == "" then 0.0 else (match parse(s) case Some(r) => r case None => 0.0)
  }

  // ---------------------------------------------------------------- one sphere

  /** `colors[3::4] = a` on a flat RGBA buffer, one four-component group at a time. */
  function SetAlpha(c: seq<real>, a: real): (r: seq<real>)
    ensures |r| == |c|
    ensures forall k :: 0 <= k < |r| && k % 4 == 3 ==> r[k] == a
    ensures forall k :: 0 <= k < |r| && k % 4 != 3 ==> r[k] == c[k]
  {
    if |c| < 4 then c
    else
      var rest := SetAlpha(c[4..], a);
      var r := c[..3] + [a] + rest;
      assert forall k :: 4 <= k < |r| ==> r[k] == rest[k - 4] && c[k] == c[4..][k - 4] && k % 4 == (k - 4) % 4;
      r
  }

  /** Writing the alpha twice is writing it once, with the second value. */
  lemma SetAlphaLastWins(c: seq<real>, a: real, b: real)
    ensures SetAlpha(SetAlpha(c, a), b) == SetAlpha(c, b)
  {
  }

  /** A sphere's colour buffer is the tiled RGBA colour; rewriting the alpha gives the colour with the new alpha, tiled. */
  lemma SetAlphaOfTiled(color: seq<real>, n: nat, a: real)
    requires |color| == 4
    ensures SetAlpha(Tile(color, n), a) == Tile(color[3 := a], n)
  {
    TileRgba(color, n);
    TileRgba(color[3 := a], n);
  }

  /** The base colour after an opacity update: RGBA gets its alpha replaced, RGB gets it appended, anything else is kept. */
  function BaseWithAlpha(base: Option<seq<real>>, opacity: real): (r: Option<seq<real>>)
    ensures r.Some? == base.Some?
    ensures base.Some? && |base.value| == 4 ==> |r.value| == 4 && r.value[..3] == base.value[..3] && r.value[3] == opacity
    ensures base.Some? && |base.value| == 3 ==> |r.value| == 4 && r.value[..3] == base.value && r.value[3] == opacity
    ensures base.Some? && |base.value| != 3 && |base.value| != 4 ==> r == base
  {
    if base.None? then base
    else if |base.value| == 4 then Some(base.value[3 := opacity])
    else if |base.value| == 3 then Some(base.value + [opacity])
    else base
  }

  /**
   * _update_single_sphere_opacity along its buffer path: the object's current opacity
   * becomes `opacity`, its base colour carries it as alpha, and the face colour buffer gets
   * it as every fourth component; nothing else about the object changes.
   */
  function UpdateSingleSphereOpacity(o: SceneObject, opacity: real): (r: SceneObject)
    ensures r.currentOpacity == opacity
    ensures r.baseColor == BaseWithAlpha(o.baseColor, opacity)
    ensures |r.mesh.colorsFaces| == |o.mesh.colorsFaces|
    ensures forall k :: 0 <= k < |r.mesh.colorsFaces| ==>
      r.mesh.colorsFaces[k] == if k % 4 == 3 then opacity else o.mesh.colorsFaces[k]
    ensures r.mesh.(colorsFaces := o.mesh.colorsFaces) == o.mesh
    ensures r.(currentOpacity := o.currentOpacity, baseColor := o.baseColor, mesh := o.mesh) == o
  {
    o.(currentOpacity := opacity,
       baseColor := BaseWithAlpha(o.baseColor, opacity),
       mesh := o.mesh.(colorsFaces := SetAlpha(o.mesh.colorsFaces, opacity)))
  }

  /** The base colour's alpha, too, is the last one written. */
  lemma BaseWithAlphaLastWins(base: Option<seq<real>>, a: real, b: real)
    ensures BaseWithAlpha(BaseWithAlpha(base, a), b) == BaseWithAlpha(base, b)
  {
    if base.Some? && |base.value| == 3 {
      assert (base.value + [a])[3 := b] == base.value + [b];
    } else if base.Some? && |base.value| == 4 {
      assert base.value[3 := a][3 := b] == base.value[3 := b];
    }
  }

  /** The last opacity written wins, so a repeated update changes nothing. */
  lemma UpdateSingleLastWins(o: SceneObject, a: real, b: real)
    ensures UpdateSingleSphereOpacity(UpdateSingleSphereOpacity(o, a), b) == UpdateSingleSphereOpacity(o, b)
  {
    SetAlphaLastWins(o.mesh.colorsFaces, a, b);
    BaseWithAlphaLastWins(o.baseColor, a, b);
  }

  // ---------------------------------------------------------------- a range of spheres

  /** The objects update_sphere_opacity rewrites: events whose bucket under `keys` is `threshold`. */
  predicate InRange(o: SceneObject, keys: set<int>, threshold: int, parse: string -> Option<real>)
  {
    o.objType == "event" && UpdateBucket(keys, EnergyOf(o, parse)) == Some(threshold)
  }

  /** An update leaves the object's type and data, so whether it is in range, alone. */
  lemma UpdateKeepsInRange(o: SceneObject, opacity: real, keys: set<int>, threshold: int, parse: string -> Option<real>)
    ensures InRange(UpdateSingleSphereOpacity(o, opacity), keys, threshold, parse) == InRange(o, keys, threshold, parse)
  {
    var r := UpdateSingleSphereOpacity(o, opacity);
    assert r.objType == o.objType && r.data == o.data;
  }

  /**
   * The loop of update_sphere_opacity over a file's ids, in order: an id no longer in the
   * scene is skipped, a selected object is updated in place, any other is left alone.
   */
  function UpdateIds(scene: Dict<SceneObject>, ids: seq<nat>, selected: SceneObject -> bool, opacity: real): (r: Dict<SceneObject>)
    requires Valid(scene)
    ensures Valid(r) && r.order == scene.order && r.entries.Keys == scene.entries.Keys
    ensures forall k :: k in scene.entries ==>
      r.entries[k] == if k in ids && selected(scene.entries[k])
                      then UpdateSingleSphereOpacity(scene.entries[k], opacity) else scene.entries[k]
    decreases |ids|
  {
    if ids == [] then scene
    else
      var id := ids[0];
      var s1 := if id in scene.entries && selected(scene.entries[id])
        then Update(scene, id, UpdateSingleSphereOpacity(scene.entries[id], opacity)) else scene;
      var r := UpdateIds(s1, ids[1..], selected, opacity);
      UpdateIdsStep(scene.entries, s1.entries, r.entries, ids, selected, opacity);
      r
  }

  /**
   * One step of the loop, on the entry maps: the head id's update and the tail's compose
   * into the stated result. An object updated at the head and again later ends the same,
   * the update being idempotent.
   */
  lemma UpdateIdsStep(e: map<nat, SceneObject>, e1: map<nat, SceneObject>, er: map<nat, SceneObject>, ids: seq<nat>,
                      selected: SceneObject -> bool, opacity: real)
    requires ids != []
    requires e1 == if ids[0] in e && selected(e[ids[0]])
      then e[ids[0] := UpdateSingleSphereOpacity(e[ids[0]], opacity)] else e
    requires forall k :: k in e1 ==>
      k in er && er[k] == if k in ids[1..] && selected(e1[k]) then UpdateSingleSphereOpacity(e1[k], opacity) else e1[k]
    ensures forall k :: k in e ==>
      er[k] == if k in ids && selected(e[k]) then UpdateSingleSphereOpacity(e[k], opacity) else e[k]
  {
    assert ids == [ids[0]] + ids[1..];
    forall k | k in e
      ensures er[k] == if k in ids && selected(e[k]) then UpdateSingleSphereOpacity(e[k], opacity) else e[k]
    {
      var o := e[k];
      assert k in ids <==> k == ids[0] || k in ids[1..];
      assert e1[k] == if k == ids[0] && selected(o) then UpdateSingleSphereOpacity(o, opacity) else o;
      StepEntry(o, e1[k], er[k], k == ids[0], k in ids[1..], selected, opacity);
    }
  }

  /** One object through one step: updated at the head, in the tail, in both, or in neither. */
  lemma StepEntry(o: SceneObject, o1: SceneObject, o2: SceneObject, head: bool, rest: bool,
                  selected: SceneObject -> bool, opacity: real)
    requires o1 == if head && selected(o) then UpdateSingleSphereOpacity(o, opacity) else o
    requires o2 == if rest && selected(o1) then UpdateSingleSphereOpacity(o1, opacity) else o1
    ensures o2 == if (head || rest) && selected(o) then UpdateSingleSphereOpacity(o, opacity) else o
  {
    if head && selected(o) {
      UpdateSingleLastWins(o, opacity, opacity);
    }
  }

  /**
   * update_sphere_opacity: nothing happens for a file that is not loaded, or whose
   * properties have no range table (the lookup raises before any object is touched);
   * otherwise every loaded object of the file in the range gets the new opacity and
   * every other object is left as it was.
   */
  function UpdateSphereOpacity(t: Table, loaded: map<string, seq<nat>>, scene: Dict<SceneObject>, path: string,
                               threshold: int, opacity: real, parse: string -> Option<real>): (r: Dict<SceneObject>)
    requires Valid(scene)
    ensures Valid(r) && r.order == scene.order && r.entries.Keys == scene.entries.Keys
    ensures !(path in loaded && path in t && t[path].ranges.Some?) ==> r == scene
    ensures path in loaded && path in t && t[path].ranges.Some? ==>
      forall k :: k in scene.entries ==>
        r.entries[k] == if k in loaded[path] && InRange(scene.entries[k], t[path].ranges.value.Keys, threshold, parse)
                        then UpdateSingleSphereOpacity(scene.entries[k], opacity) else scene.entries[k]
  {
    if path !in loaded || path !in t || t[path].ranges.None? then scene
    else UpdateIds(scene, loaded[path], o => InRange(o, t[path].ranges.value.Keys, threshold, parse), opacity)
  }

  /**
   * Under a file's default thresholds an event is rewritten for range `threshold` exactly
   * when its energy is at least `threshold` and below the next larger default threshold.
   */
  lemma DefaultRangeMembership(o: SceneObject, viz: string, threshold: int, parse: string -> Option<real>)
    requires o.objType == "event"
    ensures InRange(o, DefaultRanges(viz).Keys, threshold, parse) <==> DefaultBucket(EnergyOf(o, parse)) == Some(threshold)
  {
    UpdateBucketDefault(EnergyOf(o, parse));
  }

  /**
   * on_range_opacity_changed on the table and the scene: the opacity is stored (or nothing
   * happens, for a value off the ten-step grid or an unknown range); when the range is
   * drawn as spheres, their alpha is rewritten in place with value / 100. Other
   * visualizations go through the owner's reload, which is not part of this model, so the
   * scene is returned as it was.
   */
  function OnRangeOpacityChanged(t: Table, loaded: map<string, seq<nat>>, scene: Dict<SceneObject>, path: string,
                                 threshold: int, value: int, parse: string -> Option<real>): (r: (Table, Dict<SceneObject>))
    requires Valid(scene)
    ensures r.0 == StoreOpacity(t, path, threshold, value)
    ensures Valid(r.1) && r.1.order == scene.order
    ensures value % 10 != 0 ==> r == (t, scene)
    ensures !(path in t && t[path].ranges.Some? && threshold in t[path].ranges.value) ==> r == (t, scene)
    ensures value % 10 == 0 && path in t && t[path].ranges.Some? && threshold in t[path].ranges.value ==>
      r.1 == if RangeVisualization(t[path].ranges.value[threshold]) == "spheres"
             then UpdateSphereOpacity(r.0, loaded, scene, path, threshold, value as real / 100.0, parse)
             else scene
  {
    var t' := StoreOpacity(t, path, threshold, value);
    if value % 10 != 0 || !(path in t && t[path].ranges.Some? && threshold in t[path].ranges.value) then (t', scene)
    else
      var viz := RangeVisualization(t'[path].ranges.value[threshold]);
      if viz == "spheres" then (t', UpdateSphereOpacity(t', loaded, scene, path, threshold, value as real / 100.0, parse))
      else (t', scene)
  }

  // ---------------------------------------------------------------- rebuilding a sphere

  /** `obj.base_color[:3]`, or red for an object without one. */
  function BaseRgb(o: SceneObject): (c: seq<real>)
    ensures o.baseColor.None? ==> c == [1.0, 0.0, 0.0]
    ensures o.baseColor.Some? && |o.baseColor.value| >= 3 ==> c == o.baseColor.value[..3]
    ensures o.baseColor.Some? && |o.baseColor.value| < 3 ==> c == o.baseColor.value
  {
    if o.baseColor.None? then [1.0, 0.0, 0.0]
    else if |o.baseColor.value| < 3 then o.baseColor.value
    else o.baseColor.value[..3]
  }

  /** `data.get(key, default)` on the object's attribute map. */
  function DataOr(o: SceneObject, key: string, default: Value): (v: Value)
    ensures key in o.data ==> v == o.data[key]
    ensures key !in o.data ==> v == default
  {
    if key in o.data then o.data[key] else default
  }

  /** The energy add_object_event receives from a rebuild: a number as it is; a string is not a number there. */
  function EnergyArg(v: Value): Option<real>
  {
    match v
    case VReal(r) => Some(r)
    case VInt(i) => Some(i as real)
    case VStr(_) => None
  }

  /**
   * _recreate_sphere_with_opacity as written: the old object is deleted from the scene,
   * then add_object_event is called with a custom colour, which raises before anything
   * is built (create_event takes five arguments and is given six); the exception is
   * caught, so the rest of the rebuild never runs. The owner's cleanup_mesh_vbo, called
   * just before the `del`, is defined in no file of the program modelled here; it is taken to
   * return normally after releasing GPU buffers, without which the `del` is not reached.
   */
  function RecreateSphereAsWritten(num: Numerics, v: Viewer.Viewer, id: nat, opacity: real): (w: Viewer.Viewer)
    requires Viewer.ViewerValid(v) && id in v.objects.entries
    ensures Viewer.ViewerValid(w)
  {
    var o := v.objects.entries[id];
    var rgba := BaseRgb(o) + [opacity];
    var removed := v.(objects := Remove(v.objects, id));
    var energy := EnergyArg(DataOr(o, "energy", VReal(1.0)));
    var eventType := DataOr(o, "type", VStr("unknown"));
    var attempt := if energy.Some? && eventType.VStr?
      then Viewer.AddObjectEvent(num, removed, o.location.x, o.location.y, o.location.z, eventType.s, energy.value, Some(rgba))
      else None;
    // add_object_event with a custom colour always raises, so the attempt is never Some.
    if attempt.None? then removed
    else assert false; removed
  }

  /** The rebuild as written loses the sphere: its id leaves the scene and every other object stays. */
  lemma RecreateLosesSphere(num: Numerics, v: Viewer.Viewer, id: nat, opacity: real)
    requires Viewer.ViewerValid(v) && id in v.objects.entries
    ensures var w := RecreateSphereAsWritten(num, v, id, opacity);
      && id !in w.objects.entries
      && w.objects.entries.Keys == v.objects.entries.Keys - {id}
      && (forall k :: k in w.objects.entries ==> w.objects.entries[k] == v.objects.entries[k])
      && w.nextId == v.nextId
  {
  }

  /** The colour a rebuild asks for: the base RGB with the new opacity as alpha. */
  function RebuildColor(o: SceneObject, opacity: real): (c: seq<real>)
    requires o.baseColor.None? || |o.baseColor.value| >= 3
    ensures |c| == 4 && c[..3] == BaseRgb(o) && c[3] == opacity
  {
    BaseRgb(o) + [opacity]
  }

  /** The attribute map of a rebuilt sphere: the old type and energy, visualization 'spheres'. */
  function RebuildData(o: SceneObject): (d: map<string, Value>)
    ensures d.Keys == {"type", "energy", "visualization"} && d["visualization"] == VStr("spheres")
    ensures d["type"] == DataOr(o, "type", VStr("unknown")) && d["energy"] == DataOr(o, "energy", VReal(1.0))
  {
    map["type" := DataOr(o, "type", VStr("unknown")), "energy" := DataOr(o, "energy", VReal(1.0)),
        "visualization" := VStr("spheres")]
  }

  /**
   * The replacement sphere for `o`: a 32x32 sphere built at counter `next` in the base RGB
   * with the new opacity as alpha, carrying `o`'s id, place, size, type and energy, and
   * marked 'spheres'. Every alpha is the new opacity, every colour component the old RGB.
   * Keeping the old id and size is a deliberate correction: add_object_event would give the
   * new sphere the fresh counter value as its id and recompute its size from type and energy.
   * So is recording the new colour as the base colour and the new opacity as the current
   * opacity, as the in-place update does: add_object_event would reset them to red and 1.0,
   * and the renderer would then draw a translucent rebuild among the opaque objects.
   */
  method RebuildSphere(num: Numerics, o: SceneObject, next: nat, opacity: real) returns (n: SceneObject, next': nat)
    requires o.baseColor.None? || |o.baseColor.value| >= 3
    ensures next' == next + 1
    ensures n.id == o.id && n.objType == "event" && n.location == o.location && n.scale == o.scale
    ensures n.data == RebuildData(o) && MatrixCurrent(n)
    ensures n.baseColor == Some(RebuildColor(o, opacity)) && n.currentOpacity == opacity
    ensures Renderer.IsTransparent(n) <==> opacity < Renderer.OpaqueCutoff
    ensures |n.mesh.vertices| == 33 * 32 && |n.mesh.colorsFaces| == 4 * |n.mesh.vertices|
    ensures forall k :: 0 <= k < |n.mesh.colorsFaces| && k % 4 == 3 ==> n.mesh.colorsFaces[k] == opacity
    ensures forall k :: 0 <= k < |n.mesh.colorsFaces| && k % 4 < 3 ==> n.mesh.colorsFaces[k] == BaseRgb(o)[k % 4]
  {
    var rgba := RebuildColor(o, opacity);
    var (s, after) := CreateSphere(num, next, 32, 32, rgba);
    n := CalculateMatrix(s.(id := o.id, location := o.location, scale := o.scale, objType := "event", data := RebuildData(o),
                            baseColor := Some(rgba), currentOpacity := opacity));
    next' := after;
    assert n.mesh == s.mesh;
    SplitRgba(n.mesh.colorsFaces, rgba, BaseRgb(o), opacity);
  }

  /** A buffer tiled with an RGBA colour has that colour's alpha at every fourth place and its RGB elsewhere. */
  lemma SplitRgba(c: seq<real>, rgba: seq<real>, rgb: seq<real>, a: real)
    requires |rgba| == 4 && rgba[..3] == rgb && rgba[3] == a
    requires forall k :: 0 <= k < |c| ==> c[k] == rgba[k % 4]
    ensures forall k :: 0 <= k < |c| && k % 4 == 3 ==> c[k] == a
    ensures forall k :: 0 <= k < |c| && k % 4 < 3 ==> c[k] == rgb[k % 4]
  {
    forall k | 0 <= k < |c| && k % 4 < 3
      ensures c[k] == rgb[k % 4]
    {
      assert rgba[k % 4] == rgba[..3][k % 4];
    }
  }

  /**
   * The rebuild as evidently intended, which keeps the sphere: the replacement sphere takes
   * the old object's place under the same id, every other object is untouched, and the
   * scene keeps its ids. Like `del` followed by a store, the id moves to the end of the
   * map's order; building the sphere consumes one counter value.
   *
   * This corrects more than the argument count of the create_event call. add_object_event
   * returns nothing, so `new_obj.data` would fail next even with five arguments. It also
   * stores the sphere under the fresh counter value, so even with a returned object the
   * scene would hold it under two keys. Here the sphere is stored once, under the old id,
   * as the source's "keep the same ID" step intends. Its base colour and current opacity
   * carry the new opacity, so the renderer sorts it by that opacity.
   */
  method RecreateSphere(num: Numerics, v: Viewer.Viewer, id: nat, opacity: real) returns (w: Viewer.Viewer)
    requires Viewer.ViewerValid(v) && id in v.objects.entries
    requires v.objects.entries[id].baseColor.None? || |v.objects.entries[id].baseColor.value| >= 3
    ensures Viewer.ViewerValid(w) && w.nextId == v.nextId + 1
    ensures w.objects.entries.Keys == v.objects.entries.Keys
    ensures w.objects.order == Without(v.objects.order, id) + [id]
    ensures forall k :: k in v.objects.entries && k != id ==> w.objects.entries[k] == v.objects.entries[k]
    ensures var o, n := v.objects.entries[id], w.objects.entries[id];
      && n.id == id && n.objType == "event" && n.location == o.location && n.scale == o.scale
      && n.data == RebuildData(o) && n.data["visualization"] == VStr("spheres")
      && n.baseColor == Some(RebuildColor(o, opacity)) && n.currentOpacity == opacity
      && (Renderer.IsTransparent(n) <==> opacity < Renderer.OpaqueCutoff)
      && (forall k :: 0 <= k < |n.mesh.colorsFaces| && k % 4 == 3 ==> n.mesh.colorsFaces[k] == opacity)
      && (forall k :: 0 <= k < |n.mesh.colorsFaces| && k % 4 < 3 ==> n.mesh.colorsFaces[k] == BaseRgb(o)[k % 4])
  {
    var n, _ := RebuildSphere(num, v.objects.entries[id], v.nextId, opacity);
    ReplaceMovesLast(v.objects, id, n);
    Viewer.ReplaceKeepsValid(v, n, v.nextId + 1);
    w := v.(objects := Put(Remove(v.objects, id), id, n), nextId := v.nextId + 1);
  }
}

=== FILE: picking.dfy ===
/**
 * Mouse picking of GLWidget.check_collision (main.py): the closest hit along the mouse ray,
 * then the hover transitions that follow it. The ray/box slab test is left abstract: `hit`
 * gives the distance at which the current mouse ray enters an object's collision box
 * (zero or negative when it misses).
 */
module Picking {
  import opened Common
  import opened Meshes
  import opened SceneObjects
  import opened Dict

  const RenderDistanceFar: real := 1000000.0
  /** The initial best distance: twice the far plane. */
  const PickLimit: real := 2.0 * RenderDistanceFar
  /** hoveredObject's "nothing hovered" value; also check_collision's "nothing picked". */
  const NoObject: int := -1

  /** An object the selection loop accepts: enabled, pickable, and hit in front of the camera within the limit. */
  predicate Candidate(o: SceneObject, hit: SceneObject -> real)
  {
    o.enabled && o.collision.enabled && 0.0 < hit(o) < PickLimit
  }

  /**
   * Position p of the scene order holds the pick: a candidate no farther than any other
   * candidate, and strictly nearer than every candidate before it (the first one wins a tie).
   */
  predicate BestAt(scene: Dict<SceneObject>, hit: SceneObject -> real, p: nat)
    requires Valid(scene)
  {
    && p < |scene.order|
    && Candidate(scene.entries[scene.order[p]], hit)
    && (forall j :: 0 <= j < |scene.order| && Candidate(scene.entries[scene.order[j]], hit) ==>
          hit(scene.entries[scene.order[p]]) <= hit(scene.entries[scene.order[j]]))
    && (forall j :: 0 <= j < p && Candidate(scene.entries[scene.order[j]], hit) ==>
          hit(scene.entries[scene.order[p]]) < hit(scene.entries[scene.order[j]]))
  }

  /** check_collision's selection loop: the id of the nearest candidate, or -1 when there is none. */
  method CheckCollision(scene: Dict<SceneObject>, hit: SceneObject -> real) returns (picked: int)
    requires Valid(scene)
    ensures picked == NoObject <==> forall j :: 0 <= j < |scene.order| ==> !Candidate(scene.entries[scene.order[j]], hit)
    ensures picked != NoObject ==> exists p :: 0 <= p < |scene.order| && scene.order[p] == picked && BestAt(scene, hit, p)
  {
    picked := NoObject;
    var dist := PickLimit;
    ghost var pos := 0;
    var i := 0;
    while i < |scene.order|
      invariant 0 <= i <= |scene.order|
      invariant picked == NoObject ==> dist == PickLimit && forall j :: 0 <= j < i ==> !Candidate(scene.entries[scene.order[j]], hit)
      invariant picked != NoObject ==>
        && pos < i && scene.order[pos] == picked
        && Candidate(scene.entries[scene.order[pos]], hit)
        && dist == hit(scene.entries[scene.order[pos]])
        && (forall j :: 0 <= j < i && Candidate(scene.entries[scene.order[j]], hit) ==> dist <= hit(scene.entries[scene.order[j]]))
        && (forall j :: 0 <= j < pos && Candidate(scene.entries[scene.order[j]], hit) ==> dist < hit(scene.entries[scene.order[j]]))
    {
      var o := scene.entries[scene.order[i]];
      if o.enabled && o.collision.enabled {
        var cur := hit(o);
        if 0.0 < cur < dist {
          picked := scene.order[i];
          dist := cur;
          pos := i;
        }
      }
      i := i + 1;
    }
    if picked != NoObject {
      assert BestAt(scene, hit, pos);
    }
  }

  /**
   * The hover transition after a pick. Returns None where the source raises KeyError: the
   * remembered hovered id is no longer in the scene and has to be unhovered.
   */
  function HoverUpdate(scene: Dict<SceneObject>, hovered: int, picked: int): (r: Option<(Dict<SceneObject>, int)>)
    requires Valid(scene)
    requires picked == NoObject || (picked >= 0 && picked in scene.entries)
    ensures r.Some? ==> Valid(r.value.0) && r.value.0.order == scene.order && r.value.1 == picked
    ensures r.None? <==> picked != hovered && hovered != NoObject && (hovered < 0 || hovered !in scene.entries)
    ensures r.Some? && picked == hovered ==> r.value.0 == scene
    ensures r.Some? && picked != hovered ==>
      var s := r.value.0;
      && (hovered != NoObject ==> s.entries[hovered] == SceneObjects.OnUnhover(scene.entries[hovered]))
      && (picked != NoObject ==> s.entries[picked] == SceneObjects.OnHover(scene.entries[picked]))
      && (forall k :: k in scene.entries && k != hovered && k != picked ==> s.entries[k] == scene.entries[k])
  {
    if picked == hovered then Some((scene, hovered))
    else if hovered != NoObject && (hovered < 0 || hovered !in scene.entries) then None
    else
      var s1 := if hovered != NoObject then Update(scene, hovered, SceneObjects.OnUnhover(scene.entries[hovered])) else scene;
      var s2 := if picked != NoObject then Update(s1, picked, SceneObjects.OnHover(s1.entries[picked])) else s1;
      Some((s2, picked))
  }

  /** The hover flags agree with hoveredObject: exactly the remembered object, if any, is hovered. */
  predicate HoverConsistent(scene: Dict<SceneObject>, hovered: int)
  {
    && (hovered == NoObject || (hovered >= 0 && hovered in scene.entries))
    && (forall k :: k in scene.entries ==> (scene.entries[k].hover <==> k == hovered))
  }

  /** From a consistent state the transition never fails and leaves a consistent state whose hovered id is the pick. */
  lemma HoverUpdateKeepsConsistent(scene: Dict<SceneObject>, hovered: int, picked: int)
    requires Valid(scene) && HoverConsistent(scene, hovered)
    requires picked == NoObject || (picked >= 0 && picked in scene.entries)
    ensures HoverUpdate(scene, hovered, picked).Some?
    ensures HoverConsistent(HoverUpdate(scene, hovered, picked).value.0, picked)
  {
  }

  /** Picking the hovered object again changes nothing, so the transition is idempotent. */
  lemma HoverUpdateIdempotent(scene: Dict<SceneObject>, hovered: int, picked: int)
    requires Valid(scene)
    requires picked == NoObject || (picked >= 0 && picked in scene.entries)
    requires HoverUpdate(scene, hovered, picked).Some?
    ensures var (s, h) := HoverUpdate(scene, hovered, picked).value;
            HoverUpdate(s, h, picked) == Some((s, h))
  {
  }
}

=== FILE: properties.dfy ===
/**
 * The per-file property table of PropertiesField (properties_field.py): for each data file a
 * visualization type and a map from energy threshold to {colour, opacity, visualization},
 * plus the key conversion applied when the table is read back from its JSON settings file.
 */
module Properties {
  import opened Common
  import opened Shapes
  import opened Text

  /** One energy range. `opacity` and `visualization` may be absent in settings read from disk. */
  datatype RangeProps = RangeProps(color: seq<real>, opacity: Option<real>, visualization: Option<string>)

  /** One file's settings: the 'type' entry and the 'energy_ranges' entry, either of which may be absent. */
  datatype FileProps = FileProps(vizType: Option<string>, ranges: Option<map<int, RangeProps>>)

  /** A file's settings as they come out of the JSON file: range keys are strings, in file order. */
  datatype RawFileProps = RawFileProps(vizType: Option<string>, ranges: Option<seq<(string, RangeProps)>>)

  type Table = map<string, FileProps>

  /** The six thresholds as a set of keys. */
  const ThresholdKeys: set<int> := set i | 0 <= i < |Thresholds| :: Thresholds[i]

  /** The keys written out. */
  lemma ThresholdKeysListed()
    ensures ThresholdKeys == {100000000000, 1000000000, 100000000, 1000000, 1000, 0}
  {
    assert Thresholds[0] in ThresholdKeys && Thresholds[1] in ThresholdKeys && Thresholds[2] in ThresholdKeys;
    assert Thresholds[3] in ThresholdKeys && Thresholds[4] in ThresholdKeys && Thresholds[5] in ThresholdKeys;
  }

  // ---------------------------------------------------------------- int() on a key

  /**
   * The value of a decimal digit string in which single underscores may separate digits,
   * as int() accepts them ("1_000"); None for anything else.
   */
  function DigitsValue(s: string): (r: Option<nat>)
    ensures r.Some? ==> s != [] && IsDigit(s[0]) && IsDigit(s[|s| - 1])
    ensures r.Some? ==> forall i :: 0 <= i < |s| ==> IsDigit(s[i]) || s[i] == '_'
  {
    if s == [] || !IsDigit(s[|s| - 1]) then None
    else
      var d := (s[|s| - 1] as int - '0' as int) as nat;
      if |s| == 1 then Some(d)
      else
        var init := if s[|s| - 2] == '_' then s[..|s| - 2] else s[..|s| - 1];
        match DigitsValue(init)
        case None => None
        case Some(v) => Some(v * 10 + d)
  }

  /** int(key) on a string: surrounding whitespace, an optional sign, then digits. None where int() raises ValueError. */
  function ParseInt(s: string): (r: Option<int>)
    ensures r.Some? ==> Strip(s) != []
  {
    ParseSigned(Strip(s))
  }

  /**
   * What int() accepts, both ways: after stripping, a minus or plus sign followed by a digit
   * string, or a digit string alone; the value is the digits' value, negated after a minus.
   */
  lemma ParseIntAccepts(s: string)
    ensures var t, r := Strip(s), ParseInt(s);
      && (t == [] ==> r.None?)
      && (t != [] && t[0] == '-' ==> (r.Some? <==> DigitsValue(t[1..]).Some?))
      && (t != [] && t[0] == '-' && r.Some? ==> r.value == -(DigitsValue(t[1..]).value as int))
      && (t != [] && t[0] == '+' ==> (r.Some? <==> DigitsValue(t[1..]).Some?))
      && (t != [] && t[0] == '+' && r.Some? ==> r.value == DigitsValue(t[1..]).value as int)
      && (t != [] && t[0] !in "+-" ==> (r.Some? <==> DigitsValue(t).Some?))
      && (t != [] && t[0] !in "+-" && r.Some? ==> r.value == DigitsValue(t).value as int)
  {
  }

  /** int() on a stripped string: an optional sign, then digits. */
  function ParseSigned(t: string): (r: Option<int>)
    ensures r.Some? ==> t != []
  {
    if t != [] && t[0] == '-' then Negated(DigitsValue(t[1..]))
    else if t != [] && t[0] == '+' then Widened(DigitsValue(t[1..]))
    else Widened(DigitsValue(t))
  }

  function Negated(v: Option<nat>): Option<int>
  {
    match v case None => None case Some(n) => Some(-(n as int))
  }

  function Widened(v: Option<nat>): Option<int>
  {
    match v case None => None case Some(n) => Some(n as int)
  }

  function DigitChar(d: nat): (c: char)
    requires d < 10
    ensures IsDigit(c) && c as int - '0' as int == d
  {
    (('0' as int) + d) as char
  }

  /** str(n) for a natural number. */
  function NatToDecimal(n: nat): (s: string)
    ensures s != [] && IsDigit(s[0]) && IsDigit(s[|s| - 1])
    ensures forall i :: 0 <= i < |s| ==> IsDigit(s[i])
  {
    if n < 10 then [DigitChar(n)] else NatToDecimal(n / 10) + [DigitChar(n % 10)]
  }

  /** str(k): how json.dump writes an int key. */
  function IntToDecimal(k: int): string
  {
    if k < 0 then "-" + NatToDecimal(-k) else NatToDecimal(k)
  }

  lemma {:induction false} DigitsRoundTrip(n: nat)
    ensures DigitsValue(NatToDecimal(n)) == Some(n)
  {
    if n >= 10 {
      DigitsRoundTrip(n / 10);
      var s := NatToDecimal(n);
      assert s[..|s| - 1] == NatToDecimal(n / 10);
      assert s[|s| - 2] == NatToDecimal(n / 10)[|NatToDecimal(n / 10)| - 1];
    }
  }

  /** A minus sign before a digit string that reads as n reads as -n. */
  lemma SignedDigits(d: string, n: nat)
    requires DigitsValue(d) == Some(n)
    ensures ParseInt("-" + d) == Some(-(n as int))
  {
    var s := "-" + d;
    assert s[0] == '-' && s[1..] == d;
    assert s[|s| - 1] == d[|d| - 1];
    StripNoSpace(s);
    ParseSignedMinus(s);
  }

  lemma ParseSignedMinus(t: string)
    requires t != [] && t[0] == '-'
    ensures ParseSigned(t) == Negated(DigitsValue(t[1..]))
  {
  }

  /** A written negative key reads back: the sign, then the digits of its magnitude. */
  lemma NegativeRoundTrip(k: int)
    requires k < 0
    ensures ParseInt(IntToDecimal(k)) == Some(k)
  {
    DigitsRoundTrip(-k);
    SignedDigits(NatToDecimal(-k), -k);
  }

  /** A written non-negative key reads back: its digits, with no sign. */
  lemma NonNegativeRoundTrip(k: int)
    requires k >= 0
    ensures ParseInt(IntToDecimal(k)) == Some(k)
  {
    var s := NatToDecimal(k);
    StripNoSpace(s);
    DigitsRoundTrip(k);
    assert ParseSigned(s) == Widened(DigitsValue(s));
  }

  /** Reading back a key the settings file wrote gives the key: int(str(k)) == k. */
  lemma ParseIntRoundTrip(k: int)
    ensures ParseInt(IntToDecimal(k)) == Some(k)
  {
    if k < 0 {
      NegativeRoundTrip(k);
    } else {
      NonNegativeRoundTrip(k);
    }
  }

  // ---------------------------------------------------------------- loading

  /**
   * The energy_ranges conversion of load_properties_settings, over the JSON object's entries
   * in file order: a key int() accepts is stored under its integer, a later entry
   * overriding an earlier one with the same integer; any other key is dropped.
   */
  function ConvertKeys(raw: seq<(string, RangeProps)>): (r: map<int, RangeProps>)
  {
    if raw == [] then map[]
    else
      var m := ConvertKeys(raw[..|raw| - 1]);
      var last := raw[|raw| - 1];
      match ParseInt(last.0)
      case None => m
      case Some(k) => m[k := last.1]
  }

  /** Every key of the converted map came from an entry int() accepts. */
  lemma {:induction false} ConvertKeysFrom(raw: seq<(string, RangeProps)>, k: int) returns (i: nat)
    requires k in ConvertKeys(raw)
    ensures i < |raw| && ParseInt(raw[i].0) == Some(k)
  {
    var init := raw[..|raw| - 1];
    if ParseInt(raw[|raw| - 1].0) == Some(k) {
      i := |raw| - 1;
    } else {
      assert k in ConvertKeys(init);
      i := ConvertKeysFrom(init, k);
      assert init[i] == raw[i];
    }
  }

  /** Every entry int() accepts leaves its integer among the converted keys. */
  lemma {:induction false} ConvertKeysTo(raw: seq<(string, RangeProps)>, i: nat)
    requires i < |raw| && ParseInt(raw[i].0).Some?
    ensures ParseInt(raw[i].0).value in ConvertKeys(raw)
  {
    if i < |raw| - 1 {
      var init := raw[..|raw| - 1];
      assert init[i] == raw[i];
      ConvertKeysTo(init, i);
    }
  }

  /** An accepted entry that no later entry overrides supplies the value under its integer. */
  lemma {:induction false} ConvertKeysValue(raw: seq<(string, RangeProps)>, i: nat)
    requires i < |raw| && ParseInt(raw[i].0).Some?
    requires forall j :: i < j < |raw| ==> ParseInt(raw[j].0) != ParseInt(raw[i].0)
    ensures ParseInt(raw[i].0).value in ConvertKeys(raw)
    ensures ConvertKeys(raw)[ParseInt(raw[i].0).value] == raw[i].1
  {
    if i < |raw| - 1 {
      var init := raw[..|raw| - 1];
      assert init[i] == raw[i];
      forall j | i < j < |init|
        ensures ParseInt(init[j].0) != ParseInt(init[i].0)
      {
        assert init[j] == raw[j];
      }
      ConvertKeysValue(init, i);
      assert ParseInt(raw[|raw| - 1].0) != ParseInt(raw[i].0);
    }
  }

  /** How save_properties_settings writes a range map: str() keys, here in descending key order. */
  function SaveRanges(m: map<int, RangeProps>): (raw: seq<(string, RangeProps)>)
    ensures |raw| == |SortedKeysDesc(m.Keys)|
  {
    var keys := SortedKeysDesc(m.Keys);
    seq(|keys|, i requires 0 <= i < |keys| => (IntToDecimal(keys[i]), m[keys[i]]))
  }

  /** Entry i of the written map holds the i-th largest key, readable back, and its range. */
  lemma SavedEntry(m: map<int, RangeProps>, i: nat)
    requires i < |SortedKeysDesc(m.Keys)|
    ensures var keys := SortedKeysDesc(m.Keys);
      && keys[i] in m
      && ParseInt(SaveRanges(m)[i].0) == Some(keys[i])
      && SaveRanges(m)[i].1 == m[keys[i]]
  {
    ParseIntRoundTrip(SortedKeysDesc(m.Keys)[i]);
  }

  /** Reading back a written range map yields no key it did not have. */
  lemma SavedKeysOnly(m: map<int, RangeProps>, k: int)
    requires k in ConvertKeys(SaveRanges(m))
    ensures k in m
  {
    var i := ConvertKeysFrom(SaveRanges(m), k);
    SavedEntry(m, i);
  }

  /** Reading back a written range map yields each of its keys with its range. */
  lemma SavedKeyRestored(m: map<int, RangeProps>, k: int)
    requires k in m
    ensures k in ConvertKeys(SaveRanges(m)) && ConvertKeys(SaveRanges(m))[k] == m[k]
  {
    var keys := SortedKeysDesc(m.Keys);
    var raw := SaveRanges(m);
    var i :| 0 <= i < |keys| && keys[i] == k;
    SavedEntry(m, i);
    forall j | i < j < |raw|
      ensures ParseInt(raw[j].0) != ParseInt(raw[i].0)
    {
      SavedEntry(m, j);
      assert keys[i] > keys[j];
    }
    ConvertKeysValue(raw, i);
  }

  /** Writing a range map and reading it back restores the map. */
  lemma SaveLoadRangesRoundTrip(m: map<int, RangeProps>)
    ensures ConvertKeys(SaveRanges(m)) == m
  {
    var r := ConvertKeys(SaveRanges(m));
    forall k | k in r
      ensures k in m
    {
      SavedKeysOnly(m, k);
    }
    forall k | k in m
      ensures k in r && r[k] == m[k]
    {
      SavedKeyRestored(m, k);
    }
    SameEntries(r, m);
  }

  lemma SameEntries(r: map<int, RangeProps>, m: map<int, RangeProps>)
    requires forall k :: k in r ==> k in m
    requires forall k :: k in m ==> k in r && r[k] == m[k]
    ensures r == m
  {
    assert forall k :: k in r.Keys ==> k in m.Keys;
    assert forall k :: k in m.Keys ==> k in r.Keys;
    assert r.Keys == m.Keys;
    forall k | k in r.Keys
      ensures r[k] == m[k]
    {
      assert k in m;
    }
  }

  function ConvertFile(raw: RawFileProps): (f: FileProps)
    ensures f.vizType == raw.vizType && f.ranges.Some? == raw.ranges.Some?
    ensures f.ranges.Some? ==> f.ranges.value == ConvertKeys(raw.ranges.value)
  {
    FileProps(raw.vizType, if raw.ranges.Some? then Some(ConvertKeys(raw.ranges.value)) else None)
  }

  /**
   * load_properties_settings over the saved JSON object (one entry per file): the settings
   * of each saved file that still exists replace that file's settings, converted; saved
   * entries of missing files are skipped; every other file keeps its settings.
   */
  function LoadPropertiesSettings(current: Table, saved: map<string, RawFileProps>, fileExists: string -> bool): (r: Table)
    ensures forall p :: p in r <==> p in current || (p in saved && fileExists(p))
    ensures forall p :: p in saved && fileExists(p) ==> r[p] == ConvertFile(saved[p])
    ensures forall p :: p in current && !(p in saved && fileExists(p)) ==> r[p] == current[p]
  {
    map p | p in current.Keys + (set q | q in saved && fileExists(q)) ::
      if p in saved && fileExists(p) then ConvertFile(saved[p]) else current[p]
  }

  /** save_properties_settings: the settings of every file that still exists, range keys written with str(). */
  function SavePropertiesSettings(t: Table, fileExists: string -> bool): (saved: map<string, RawFileProps>)
    ensures forall p :: p in saved <==> p in t && fileExists(p)
  {
    map p | p in t && fileExists(p) ::
      RawFileProps(t[p].vizType, if t[p].ranges.Some? then Some(SaveRanges(t[p].ranges.value)) else None)
  }

  /** Saving and loading again restores the settings of every file that still exists, integer keys included. */
  lemma SaveLoadRoundTrip(t: Table, current: Table, fileExists: string -> bool)
    ensures var r := LoadPropertiesSettings(current, SavePropertiesSettings(t, fileExists), fileExists);
            forall p :: p in t && fileExists(p) ==> p in r && r[p] == t[p]
  {
    var saved := SavePropertiesSettings(t, fileExists);
    forall p | p in t && fileExists(p) && t[p].ranges.Some?
      ensures ConvertFile(saved[p]) == t[p]
    {
      SaveLoadRangesRoundTrip(t[p].ranges.value);
    }
  }

  // ---------------------------------------------------------------- editing

  /** The default colour of each threshold: the RGB part of create_event's colour for that bucket. */
  function DefaultRanges(viz: string): (r: map<int, RangeProps>)
    ensures r.Keys == ThresholdKeys
    ensures forall i :: 0 <= i < 6 ==> Thresholds[i] in r && r[Thresholds[i]].color == BucketColors[i][..3]
    ensures forall k :: k in r ==> r[k].opacity == Some(1.0) && r[k].visualization == Some(viz)
  {
    ThresholdKeysListed();
    map[
      100000000000 := RangeProps([1.0, 0.0, 0.0], Some(1.0), Some(viz)),
      1000000000 := RangeProps([1.0, 0.5, 0.0], Some(1.0), Some(viz)),
      100000000 := RangeProps([1.0, 1.0, 0.0], Some(1.0), Some(viz)),
      1000000 := RangeProps([0.0, 1.0, 0.0], Some(1.0), Some(viz)),
      1000 := RangeProps([0.0, 0.0, 1.0], Some(1.0), Some(viz)),
      0 := RangeProps([0.5, 0.5, 0.5], Some(1.0), Some(viz))]
  }

  /** initialize_file_properties: a known file keeps its settings; a new one gets the six default ranges. */
  function InitializeFileProperties(t: Table, path: string, viz: string): (r: Table)
    ensures path in t ==> r == t
    ensures path !in t ==> r == t[path := FileProps(Some(viz), Some(DefaultRanges(viz)))]
    ensures r.Keys == t.Keys + {path}
  {
    if path in t then t else t[path := FileProps(Some(viz), Some(DefaultRanges(viz)))]
  }

  /** range_props.get('opacity', 1.0). */
  function OpacityOr1(p: RangeProps): real
  {
    if p.opacity.Some? then p.opacity.value else 1.0
  }

  /**
   * change_visualization: the file's type and every range's visualization become the new
   * one; each range's colour stays and its opacity is written back as it was (1.0 where
   * there was none). Unknown files are left alone.
   */
  function ChangeVisualization(t: Table, path: string, viz: string): (r: Table)
    ensures path !in t ==> r == t
    ensures path in t ==>
      && r.Keys == t.Keys && r[path].vizType == Some(viz)
      && (forall p :: p in t && p != path ==> r[p] == t[p])
      && r[path].ranges.Some? == t[path].ranges.Some?
      && (t[path].ranges.Some? ==>
            var before, after := t[path].ranges.value, r[path].ranges.value;
            && after.Keys == before.Keys
            && (forall k :: k in before ==>
                  && after[k].visualization == Some(viz)
                  && after[k].color == before[k].color
                  && after[k].opacity == Some(OpacityOr1(before[k]))))
  {
    if path !in t then t
    else
      var f := t[path];
      var ranges := if f.ranges.Some? then
          Some(map k | k in f.ranges.value :: f.ranges.value[k].(visualization := Some(viz), opacity := Some(OpacityOr1(f.ranges.value[k]))))
        else None;
      t[path := FileProps(Some(viz), ranges)]
  }

  /** on_range_visualization_changed: only the named range of a known file changes, and only its visualization. */
  function OnRangeVisualizationChanged(t: Table, path: string, threshold: int, viz: string): (r: Table)
    ensures r.Keys == t.Keys
    ensures !(path in t && t[path].ranges.Some? && threshold in t[path].ranges.value) ==> r == t
    ensures path in t && t[path].ranges.Some? && threshold in t[path].ranges.value ==>
      && (forall p :: p in t && p != path ==> r[p] == t[p])
      && r[path].vizType == t[path].vizType
      && r[path].ranges == Some(t[path].ranges.value[threshold := t[path].ranges.value[threshold].(visualization := Some(viz))])
  {
    if path in t && t[path].ranges.Some? && threshold in t[path].ranges.value then
      var f := t[path];
      var rs := f.ranges.value;
      t[path := f.(ranges := Some(rs[threshold := rs[threshold].(visualization := Some(viz))]))]
    else t
  }

  /** Two changes to the same range: the second one wins. */
  lemma OnRangeVisualizationLastWins(t: Table, path: string, threshold: int, a: string, b: string)
    ensures OnRangeVisualizationChanged(OnRangeVisualizationChanged(t, path, threshold, a), path, threshold, b)
         == OnRangeVisualizationChanged(t, path, threshold, b)
  {
    if path in t && t[path].ranges.Some? && threshold in t[path].ranges.value {
      var rs := t[path].ranges.value;
      assert rs[threshold := rs[threshold].(visualization := Some(a))][threshold := rs[threshold].(visualization := Some(b))]
          == rs[threshold := rs[threshold].(visualization := Some(b))];
    }
  }

  /** Changes to two different ranges are independent: their order does not matter. */
  lemma OnRangeVisualizationCommute(t: Table, path: string, k1: int, k2: int, a: string, b: string)
    requires k1 != k2
    ensures OnRangeVisualizationChanged(OnRangeVisualizationChanged(t, path, k1, a), path, k2, b)
         == OnRangeVisualizationChanged(OnRangeVisualizationChanged(t, path, k2, b), path, k1, a)
  {
    if path in t && t[path].ranges.Some? {
      var rs := t[path].ranges.value;
      if k1 in rs && k2 in rs {
        var x := rs[k1 := rs[k1].(visualization := Some(a))][k2 := rs[k2].(visualization := Some(b))];
        var y := rs[k2 := rs[k2].(visualization := Some(b))][k1 := rs[k1].(visualization := Some(a))];
        assert x == y;
      }
    }
  }

  /** Changing visualization twice is the same as changing it once, to the second value. */
  lemma ChangeVisualizationLastWins(t: Table, path: string, a: string, b: string)
    ensures ChangeVisualization(ChangeVisualization(t, path, a), path, b) == ChangeVisualization(t, path, b)
  {
    if path in t && t[path].ranges.Some? {
      var r1 := ChangeVisualization(ChangeVisualization(t, path, a), path, b);
      var r2 := ChangeVisualization(t, path, b);
      assert r1[path].ranges.value == r2[path].ranges.value;
    }
  }

  /** The slider snaps to multiples of ten: `(value // 10) * 10`. */
  function Discrete(value: int): (d: int)
    ensures d <= value < d + 10 && d % 10 == 0
    ensures value == d <==> value % 10 == 0
  {
    (value / 10) * 10
  }

  /**
   * The table part of on_range_opacity_changed: a value off the ten-step grid stores
   * nothing; a value on it stores value / 100 as the range's opacity when the file and
   * range exist.
   */
  function StoreOpacity(t: Table, path: string, threshold: int, value: int): (r: Table)
    ensures r.Keys == t.Keys
    ensures value % 10 != 0 ==> r == t
    ensures !(path in t && t[path].ranges.Some? && threshold in t[path].ranges.value) ==> r == t
    ensures value % 10 == 0 && path in t && t[path].ranges.Some? && threshold in t[path].ranges.value ==>
      && (forall p :: p in t && p != path ==> r[p] == t[p])
      && r[path].vizType == t[path].vizType
      && r[path].ranges.Some? && r[path].ranges.value.Keys == t[path].ranges.value.Keys
      && r[path].ranges.value[threshold].opacity == Some(value as real / 100.0)
      && r[path].ranges.value[threshold].(opacity := t[path].ranges.value[threshold].opacity) == t[path].ranges.value[threshold]
      && (forall k :: k in t[path].ranges.value && k != threshold ==> r[path].ranges.value[k] == t[path].ranges.value[k])
  {
    var d := Discrete(value);
    if value != d then t
    else if path in t && t[path].ranges.Some? && threshold in t[path].ranges.value then
      var f := t[path];
      var rs := f.ranges.value;
      t[path := f.(ranges := Some(rs[threshold := rs[threshold].(opacity := Some(d as real / 100.0))]))]
    else t
  }

  /** The visualization the opacity handler dispatches on: the range's, 'spheres' when it has none. */
  function RangeVisualization(p: RangeProps): string
  {
    if p.visualization.Some? then p.visualization.value else "spheres"
  }

  // ---------------------------------------------------------------- bucket lookup

  /** Keys in strictly descending order: sorted(keys, reverse=True) of distinct keys. */
  predicate StrictlyDesc(s: seq<int>)
  {
    forall i, j :: 0 <= i < j < |s| ==> s[i] > s[j]
  }

  /** A set with no elements is the empty set. */
  lemma NoElementEmpty(s: set<int>)
    requires forall y :: y !in s
    ensures s == {}
  {
    assert forall y :: y in s <==> y in {};
  }

  /** Some element of a non-empty set. */
  lemma ElementOf(s: set<int>) returns (x: int)
    requires s != {}
    ensures x in s
  {
    if forall y :: y !in s {
      NoElementEmpty(s);
      assert false;
    }
    x :| x in s;
  }

  lemma {:induction false} MaxExists(keys: set<int>)
    requires keys != {}
    ensures exists m :: m in keys && forall k :: k in keys ==> k <= m
    decreases |keys|
  {
    var x := ElementOf(keys);
    var rest := keys - {x};
    if rest != {} {
      MaxExists(rest);
      var m :| m in rest && forall k :: k in rest ==> k <= m;
      var top := if x > m then x else m;
      forall k | k in keys
        ensures k <= top
      {
        if k != x {
          assert k in rest;
        }
      }
      assert top in keys;
    } else {
      forall k | k in keys
        ensures k <= x
      {
        assert k == x || k in rest;
      }
    }
  }

  function MaxKey(keys: set<int>): (m: int)
    requires keys != {}
    ensures m in keys && forall k :: k in keys ==> k <= m
  {
    MaxExists(keys);
    var m :| m in keys && forall k :: k in keys ==> k <= m;
    m
  }

  /** sorted(keys, reverse=True). */
  function SortedKeysDesc(keys: set<int>): (s: seq<int>)
    ensures StrictlyDesc(s)
    ensures forall k :: k in s <==> k in keys
    decreases |keys|
  {
    if keys == {} then []
    else
      var m := MaxKey(keys);
      [m] + SortedKeysDesc(keys - {m})
  }

  /** update_sphere_opacity's scan: the first threshold in the list the energy reaches (>=). */
  function ScanBucket(s: seq<int>, energy: real): (r: Option<int>)
    ensures r.Some? ==> r.value in s && energy >= r.value as real
  {
    if s == [] then None
    else if energy >= s[0] as real then Some(s[0])
    else ScanBucket(s[1..], energy)
  }

  /** The bucket of an energy: the largest threshold not above it. */
  predicate IsBucket(keys: set<int>, energy: real, b: int)
  {
    b in keys && b as real <= energy && forall k :: k in keys && k as real <= energy ==> k <= b
  }

  /** The same, over the thresholds listed in a sequence. */
  predicate IsBucketOf(s: seq<int>, energy: real, b: int)
  {
    b in s && b as real <= energy && forall k :: k in s && k as real <= energy ==> k <= b
  }

  /** Over a descending list, the first threshold reached is the largest one not above the energy. */
  lemma {:induction false} ScanBucketIsLargest(s: seq<int>, energy: real)
    requires StrictlyDesc(s)
    ensures ScanBucket(s, energy).Some? ==> IsBucketOf(s, energy, ScanBucket(s, energy).value)
    ensures ScanBucket(s, energy).None? ==> forall k :: k in s ==> k as real > energy
  {
    if s != [] {
      if energy >= s[0] as real {
        forall k | k in s
          ensures k <= s[0]
        {
          var i :| 0 <= i < |s| && s[i] == k;
          assert i == 0 || s[0] > s[i];
        }
      } else {
        var tail := s[1..];
        assert StrictlyDesc(tail) by {
          forall i, j | 0 <= i < j < |tail|
            ensures tail[i] > tail[j]
          {
            assert tail[i] == s[i + 1] && tail[j] == s[j + 1];
          }
        }
        ScanBucketIsLargest(tail, energy);
        assert ScanBucket(s, energy) == ScanBucket(tail, energy);
        forall k | k in s && k != s[0]
          ensures k in tail
        {
          var i :| 0 <= i < |s| && s[i] == k;
          assert tail[i - 1] == k;
        }
      }
    }
  }

  /** The bucket update_sphere_opacity assigns to an energy under a file's thresholds. */
  function UpdateBucket(keys: set<int>, energy: real): (r: Option<int>)
    ensures r.Some? ==> IsBucket(keys, energy, r.value)
    ensures r.None? <==> forall k :: k in keys ==> k as real > energy
  {
    var sorted := SortedKeysDesc(keys);
    ScanBucketIsLargest(sorted, energy);
    ScanBucket(sorted, energy)
  }

  /** An energy has at most one bucket. */
  lemma IsBucketUnique(keys: set<int>, energy: real, a: int, b: int)
    requires IsBucket(keys, energy, a) && IsBucket(keys, energy, b)
    ensures a == b
  {
  }

  /** The bucket under the six default thresholds, written out. */
  function DefaultBucket(energy: real): (r: Option<int>)
    ensures r.Some? ==> IsBucket(ThresholdKeys, energy, r.value)
    ensures r.None? <==> energy < 0.0
  {
    ThresholdKeysListed();
    if energy >= 100000000000.0 then Some(100000000000)
    else if energy >= 1000000000.0 then Some(1000000000)
    else if energy >= 100000000.0 then Some(100000000)
    else if energy >= 1000000.0 then Some(1000000)
    else if energy >= 1000.0 then Some(1000)
    else if energy >= 0.0 then Some(0)
    else None
  }

  /** Whatever the thresholds, the scan finds the energy's bucket whenever it has one. */
  lemma UpdateBucketFinds(keys: set<int>, energy: real, b: int)
    requires IsBucket(keys, energy, b)
    ensures UpdateBucket(keys, energy) == Some(b)
  {
    var u := UpdateBucket(keys, energy);
    assert u.Some?;
    IsBucketUnique(keys, energy, u.value, b);
  }

  lemma UpdateBucketDefault(energy: real)
    ensures UpdateBucket(ThresholdKeys, energy) == DefaultBucket(energy)
  {
    var d := DefaultBucket(energy);
    if d.Some? {
      UpdateBucketFinds(ThresholdKeys, energy, d.value);
    }
  }

  /**
   * Under the default thresholds, create_event's strict bucket and update_sphere_opacity's
   * non-strict bucket name the same threshold exactly when the energy is non-negative and
   * not itself one of the five positive thresholds.
   */
  lemma BucketsAgreeIff(energy: real)
    ensures (UpdateBucket(ThresholdKeys, energy) == Some(Thresholds[CreateBucket(energy)])) <==>
            (energy >= 0.0 && forall i :: 0 <= i < 5 ==> energy != Thresholds[i] as real)
  {
    UpdateBucketDefault(energy);
  }
}

=== FILE: renderer.dfy ===
/**
 * One frame of GLWidget.paintGL and draw_object (main.py), with OpenGL replaced by the list
 * of draw calls it would issue: which objects are drawn, in which order, and which index
 * lists each object submits with which colour buffer.
 */
module Renderer {
  import opened Common
  import opened Meshes
  import opened SceneObjects
  import opened Dict
  import opened StableSort

  const EnableEdges: bool := true
  const EnableFaces: bool := true
  /** paintGL only runs check_collision when this is set; it is not. */
  const EnableHover: bool := false
  /** An object is drawn in the blended pass when its opacity is below this. */
  const OpaqueCutoff: real := 0.99

  /** One glDrawElements call: the primitive, the index list and the colour buffer bound for it. */
  datatype Pass =
    | Triangles(indices: seq<nat>, colors: seq<real>)
    | Quads(indices: seq<nat>, colors: seq<real>)
    | Lines(indices: seq<nat>, colors: seq<real>)

  datatype DrawCall = DrawCall(id: nat, passes: seq<Pass>)

  /** The face passes run for a mesh whose faces are on. */
  predicate FacesOn(o: SceneObject)
  {
    EnableFaces && o.mesh.enableFaces
  }

  /** The edge pass runs only for non-event objects whose edges are on and present. */
  predicate EdgesOn(o: SceneObject)
  {
    EnableEdges && o.mesh.enableEdges && o.mesh.edges.Some? && o.objType != "event"
  }

  /**
   * draw_object: triangles then quads with the face colours when faces are on and the
   * list is not None, then the edge lines with the active edge colours.
   */
  function DrawPasses(o: SceneObject): (r: seq<Pass>)
    ensures |r| <= 3
    ensures (exists i :: 0 <= i < |r| && r[i].Triangles?) <==> FacesOn(o) && o.mesh.facesTriangles.Some?
    ensures (exists i :: 0 <= i < |r| && r[i].Quads?) <==> FacesOn(o) && o.mesh.facesQuads.Some?
    ensures (exists i :: 0 <= i < |r| && r[i].Lines?) <==> EdgesOn(o)
    ensures forall i :: 0 <= i < |r| && r[i].Lines? ==> i == |r| - 1 && r[i].colors == o.mesh.colorsEdgesActive
    ensures forall i :: 0 <= i < |r| && !r[i].Lines? ==> r[i].colors == o.mesh.colorsFaces
    ensures WellFormed(o.mesh) ==> forall i :: 0 <= i < |r| ==> AllBelow(r[i].indices, |o.mesh.vertices|)
  {
    var m := o.mesh;
    var tris := if FacesOn(o) && m.facesTriangles.Some? then [Triangles(m.facesTriangles.value, m.colorsFaces)] else [];
    var quads := if FacesOn(o) && m.facesQuads.Some? then [Quads(m.facesQuads.value, m.colorsFaces)] else [];
    var lines := if EdgesOn(o) then [Lines(m.edges.value, m.colorsEdgesActive)] else [];
    PassOrder(tris, quads, lines);
    tris + quads + lines
  }

  /** At most one pass of each kind, in the order triangles, quads, lines. */
  lemma PassOrder(tris: seq<Pass>, quads: seq<Pass>, lines: seq<Pass>)
    requires |tris| <= 1 && |quads| <= 1 && |lines| <= 1
    requires forall p :: p in tris ==> p.Triangles?
    requires forall p :: p in quads ==> p.Quads?
    requires forall p :: p in lines ==> p.Lines?
    ensures var r := tris + quads + lines;
      && |r| <= 3
      && ((exists i :: 0 <= i < |r| && r[i].Triangles?) <==> tris != [])
      && ((exists i :: 0 <= i < |r| && r[i].Quads?) <==> quads != [])
      && ((exists i :: 0 <= i < |r| && r[i].Lines?) <==> lines != [])
      && (forall i :: 0 <= i < |r| && r[i].Lines? ==> i == |r| - 1 && r[i] in lines)
      && (forall i :: 0 <= i < |r| && !r[i].Lines? ==> r[i] in tris || r[i] in quads)
      && (forall i :: 0 <= i < |r| ==> r[i] in tris || r[i] in quads || r[i] in lines)
  {
    var r := tris + quads + lines;
    assert forall i :: 0 <= i < |r| ==> r[i] in tris || r[i] in quads || r[i] in lines;
    assert tris != [] ==> r[0] == tris[0];
    assert quads != [] ==> r[|tris|] == quads[0];
    assert lines != [] ==> r[|tris| + |quads|] == lines[0];
  }

  /** Events never draw edges, whatever their mesh says. */
  lemma EventsHaveNoEdgePass(o: SceneObject)
    requires o.objType == "event"
    ensures forall i :: 0 <= i < |DrawPasses(o)| ==> !DrawPasses(o)[i].Lines?
  {
  }

  /**
   * Hovering changes what an object draws only in the colour of its edge lines, which
   * become the hovered tint; unhovering restores the baseline edge colours.
   */
  lemma HoverRecoloursEdgesOnly(o: SceneObject)
    ensures |DrawPasses(SceneObjects.OnHover(o))| == |DrawPasses(o)|
    ensures forall i :: 0 <= i < |DrawPasses(o)| ==>
      var p, q := DrawPasses(o)[i], DrawPasses(SceneObjects.OnHover(o))[i];
      && p.indices == q.indices
      && (p.Lines? <==> q.Lines?)
      && (p.Lines? ==> q.colors == o.mesh.colorsHovered)
      && (!p.Lines? ==> q.colors == p.colors)
  {
  }

  predicate IsTransparent(o: SceneObject)
  {
    o.currentOpacity < OpaqueCutoff
  }

  /** The objects of the scene that the draw loops consider at all. */
  function VisibleOf(objs: seq<SceneObject>): (r: seq<SceneObject>)
    ensures forall o :: o in r <==> o in objs && Visible(o)
  {
    if objs == [] then []
    else (if Visible(objs[0]) then [objs[0]] else []) + VisibleOf(objs[1..])
  }

  /** `opaque_objects`: visible objects at or above the cutoff, in scene order. */
  function Opaque(objs: seq<SceneObject>): (r: seq<SceneObject>)
    ensures forall o :: o in r <==> o in objs && Visible(o) && !IsTransparent(o)
  {
    if objs == [] then []
    else (if Visible(objs[0]) && !IsTransparent(objs[0]) then [objs[0]] else []) + Opaque(objs[1..])
  }

  /** `transparent_objects` before sorting: visible objects below the cutoff, in scene order. */
  function Transparent(objs: seq<SceneObject>): (r: seq<SceneObject>)
    ensures forall o :: o in r <==> o in objs && Visible(o) && IsTransparent(o)
  {
    if objs == [] then []
    else (if Visible(objs[0]) && IsTransparent(objs[0]) then [objs[0]] else []) + Transparent(objs[1..])
  }

  /** Every visible object goes to exactly one of the two lists, as often as it occurs in the scene. */
  lemma {:induction false} PartitionExact(objs: seq<SceneObject>)
    ensures multiset(Opaque(objs)) + multiset(Transparent(objs)) == multiset(VisibleOf(objs))
  {
    if objs != [] {
      PartitionExact(objs[1..]);
    }
  }

  /**
   * The order in which paintGL draws the scene's objects: the opaque ones in scene order,
   * then the transparent ones sorted far-to-near by `dist`, the camera distance of the
   * object's world position.
   */
  function FrameOrder(objs: seq<SceneObject>, dist: SceneObject -> real): seq<SceneObject>
  {
    Opaque(objs) + SortDesc(Transparent(objs), dist)
  }

  /** paintGL with ENABLE_HOVER off: one draw call per object, in frame order. */
  function PaintGL(scene: Dict<SceneObject>, dist: SceneObject -> real): (r: seq<DrawCall>)
    requires Valid(scene)
    ensures var f := FrameOrder(Values(scene), dist);
      |r| == |f| && forall i :: 0 <= i < |r| ==> r[i].id == f[i].id && r[i].passes == DrawPasses(f[i])
  {
    var f := FrameOrder(Values(scene), dist);
    seq(|f|, i requires 0 <= i < |f| => DrawCall(f[i].id, DrawPasses(f[i])))
  }

  /** The frame's tail after the opaque objects is the sorted transparent list. */
  lemma FrameTail(objs: seq<SceneObject>, dist: SceneObject -> real)
    ensures FrameOrder(objs, dist)[|Opaque(objs)|..] == SortDesc(Transparent(objs), dist)
  {
  }

  /** Every object in the frame's tail is visible and transparent. */
  lemma FrameTailTransparent(objs: seq<SceneObject>, dist: SceneObject -> real)
    ensures var f, k := FrameOrder(objs, dist), |Opaque(objs)|;
      forall i :: k <= i < |f| ==> Visible(f[i]) && IsTransparent(f[i])
  {
    var tr := Transparent(objs);
    var t := SortDesc(tr, dist);
    SameMembers(t, tr);
    TailMembers(Opaque(objs), t, tr);
  }

  /** Sequences with the same multiset have the same members. */
  lemma SameMembers(t: seq<SceneObject>, tr: seq<SceneObject>)
    requires multiset(t) == multiset(tr)
    ensures forall o :: o in t ==> o in tr
  {
    forall o | o in t
      ensures o in tr
    {
      assert o in multiset(t);
    }
  }

  /** The positions of h + t past h hold members of t, and so of any list holding t's members. */
  lemma TailMembers(h: seq<SceneObject>, t: seq<SceneObject>, tr: seq<SceneObject>)
    requires forall o :: o in t ==> o in tr
    requires forall o :: o in tr ==> Visible(o) && IsTransparent(o)
    ensures forall i :: |h| <= i < |h + t| ==> Visible((h + t)[i]) && IsTransparent((h + t)[i])
  {
    forall i | |h| <= i < |h + t|
      ensures Visible((h + t)[i]) && IsTransparent((h + t)[i])
    {
      assert (h + t)[i] == t[i - |h|];
      assert t[i - |h|] in t;
    }
  }

  /** Every object in the frame's head is visible and opaque. */
  lemma FrameHeadOpaque(objs: seq<SceneObject>, dist: SceneObject -> real)
    ensures var f, k := FrameOrder(objs, dist), |Opaque(objs)|;
      forall i :: 0 <= i < k ==> Visible(f[i]) && !IsTransparent(f[i])
  {
    var f, k := FrameOrder(objs, dist), |Opaque(objs)|;
    forall i | 0 <= i < k
      ensures Visible(f[i]) && !IsTransparent(f[i])
    {
      assert f[i] == Opaque(objs)[i];
      assert f[i] in Opaque(objs);
    }
  }

  /**
   * The frame holds exactly the visible objects, each as often as in the scene; every
   * opaque object comes before every transparent one; the transparent tail runs from the
   * farthest to the nearest, objects at equal distance keeping their scene order.
   */
  lemma {:induction false} FrameOrderCorrect(objs: seq<SceneObject>, dist: SceneObject -> real, v: real)
    ensures var f := FrameOrder(objs, dist);
      var k := |Opaque(objs)|;
      && multiset(f) == multiset(VisibleOf(objs))
      && (forall i :: 0 <= i < k ==> Visible(f[i]) && !IsTransparent(f[i]))
      && (forall i :: k <= i < |f| ==> Visible(f[i]) && IsTransparent(f[i]))
      && SortedDesc(f[k..], dist)
      && WithKey(f[k..], dist, v) == WithKey(Transparent(objs), dist, v)
  {
    PartitionExact(objs);
    SortDescSorted(Transparent(objs), dist);
    SortDescStable(Transparent(objs), dist, v);
    FrameTail(objs, dist);
    FrameHeadOpaque(objs, dist);
    FrameTailTransparent(objs, dist);
  }
}

=== FILE: scene_objects.dfy ===
/**
 * SceneObject (scene_objects.py): one drawable, pickable entity.
 *
 * The process-wide OBJECT_COUNT is threaded explicitly: the constructor takes the next free
 * id and returns the incremented counter. The 4x4 world matrix is not computed numerically;
 * `matrix` records the transform fields it was last computed from, so "the matrix is
 * current" is the equation `matrix == Some(TransformOf(o))`.
 */
module SceneObjects {
  import opened Common
  import opened Meshes

  /** A value of the free-form `data` attribute map. */
  datatype Value = VStr(s: string) | VReal(r: real) | VInt(i: int)

  /** The fields calculate_matrix reads. */
  datatype Transform = Transform(location: Vec3, rotation: Vec3, scale: Vec3, origin: Vec3)

  datatype SceneObject = SceneObject(
    id: nat,
    enabled: bool,
    hover: bool,
    currentOpacity: real,
    mesh: ObjectMesh,
    collision: CollisionBox,
    origin: Vec3,
    objType: string,
    data: map<string, Value>,
    scale: Vec3,
    rotation: Vec3,
    location: Vec3,
    matrix: Option<Transform>,
    baseColor: Option<seq<real>>)

  const DefaultObjType: string := "misc"
  const Zero3: Vec3 := Vec3(0.0, 0.0, 0.0)
  const One3: Vec3 := Vec3(1.0, 1.0, 1.0)

  function TransformOf(o: SceneObject): Transform
  {
    Transform(o.location, o.rotation, o.scale, o.origin)
  }

  /** The world matrix was computed from the object's present transform fields. */
  predicate MatrixCurrent(o: SceneObject)
  {
    o.matrix == Some(TransformOf(o))
  }

  /** calculate_matrix: recomputes the world matrix and nothing else. */
  function CalculateMatrix(o: SceneObject): (r: SceneObject)
    ensures MatrixCurrent(r)
    ensures r.(matrix := o.matrix) == o
  {
    o.(matrix := Some(TransformOf(o)))
  }

  /**
   * SceneObject.__init__ with the counter value `next`: the object gets id `next`, the
   * counter advances by one, the flags and transform take their defaults, the matrix is
   * computed before returning and `data` is the caller's map (a value, hence never shared).
   */
  function NewSceneObject(next: nat, mesh: ObjectMesh, collision: CollisionBox, origin: Vec3,
                          objType: string, data: map<string, Value>): (r: (SceneObject, nat))
    ensures r.0.id == next && r.1 == next + 1
    ensures r.0.enabled && !r.0.hover && r.0.currentOpacity == 1.0
    ensures r.0.scale == One3 && r.0.rotation == Zero3 && r.0.location == Zero3
    ensures MatrixCurrent(r.0)
    ensures r.0.mesh == mesh && r.0.collision == collision && r.0.origin == origin
    ensures r.0.objType == objType && r.0.data == data
    ensures r.0.baseColor.None?
  {
    var o := SceneObject(next, true, false, 1.0, mesh, collision, origin, objType, data,
                         One3, Zero3, Zero3, None, None);
    (CalculateMatrix(o), next + 1)
  }

  /**
   * The state a shape builder leaves an object in: the constructor's defaults, an empty
   * data map, the "misc" type, and a matrix computed for the untransformed object.
   */
  predicate Pristine(o: SceneObject)
  {
    && o.enabled && !o.hover && o.currentOpacity == 1.0
    && o.scale == One3 && o.rotation == Zero3 && o.location == Zero3
    && MatrixCurrent(o) && o.baseColor.None?
    && o.data == map[] && o.objType == DefaultObjType
  }

  /** Successive constructions hand out strictly increasing ids, each below the final counter. */
  lemma {:induction false} ConstructionIdsIncrease(next: nat, mesh: ObjectMesh, collision: CollisionBox, origin: Vec3)
    ensures var (a, n1) := NewSceneObject(next, mesh, collision, origin, DefaultObjType, map[]);
            var (b, n2) := NewSceneObject(n1, mesh, collision, origin, DefaultObjType, map[]);
            a.id < b.id < n2
  {
  }

  /** on_hover: sets the flag and swaps the mesh's active edge colours to the hovered tint. */
  function OnHover(o: SceneObject): (r: SceneObject)
    ensures r.hover && r.mesh == Meshes.OnHover(o.mesh)
    ensures r.(hover := o.hover, mesh := o.mesh) == o
  {
    o.(hover := true, mesh := Meshes.OnHover(o.mesh))
  }

  /** on_unhover: clears the flag and restores the mesh's baseline edge colours. */
  function OnUnhover(o: SceneObject): (r: SceneObject)
    ensures !r.hover && r.mesh == Meshes.OnUnhover(o.mesh)
    ensures r.(hover := o.hover, mesh := o.mesh) == o
  {
    o.(hover := false, mesh := Meshes.OnUnhover(o.mesh))
  }

  /** Sets both the object's and its mesh's enabled flag, as the file toggles do. */
  function SetEnabled(o: SceneObject, b: bool): (r: SceneObject)
    ensures r.enabled == b && r.mesh.enabled == b
    ensures r.(enabled := o.enabled, mesh := o.mesh) == o
    ensures r.mesh.(enabled := o.mesh.enabled) == o.mesh
  {
    o.(enabled := b, mesh := o.mesh.(enabled := b))
  }

  /** Of two flag settings only the last one counts. */
  lemma SetEnabledLastWins(o: SceneObject, b1: bool, b2: bool)
    ensures SetEnabled(SetEnabled(o, b1), b2) == SetEnabled(o, b2)
  {
  }

  /** The object and its mesh are both enabled: the draw-loop visibility test. */
  predicate Visible(o: SceneObject)
  {
    o.enabled && o.mesh.enabled
  }
}

=== FILE: shapes.dfy ===
/**
 * Fixed and procedural shapes of object_constructors.py: the cube and pyramid tables, the
 * UV-sphere index grid, and the detector and event markers built on them.
 */
module Shapes {
  import opened Common
  import opened Meshes
  import opened SceneObjects

  const UnitBoxLo: Vec3 := Vec3(0.0, 0.0, 0.0)
  const UnitBoxHi: Vec3 := Vec3(1.0, 1.0, 1.0)
  const Center: Vec3 := Vec3(0.5, 0.5, 0.5)
  const EdgeRgb: seq<real> := [0.5, 0.13, 0.13]
  const WhiteRgb: seq<real> := [1.0, 1.0, 1.0]
  const HoverRgb: seq<real> := [1.0, 0.5, 0.0]

  predicate InUnitBox(p: Vec3)
  {
    0.0 <= p.x <= 1.0 && 0.0 <= p.y <= 1.0 && 0.0 <= p.z <= 1.0
  }

  // ---------------------------------------------------------------- cube

  const CubeVertices: seq<Vec3> := [
    Vec3(0.0, 0.0, 0.0), Vec3(1.0, 0.0, 0.0), Vec3(1.0, 1.0, 0.0), Vec3(0.0, 1.0, 0.0),
    Vec3(0.0, 0.0, 1.0), Vec3(1.0, 0.0, 1.0), Vec3(1.0, 1.0, 1.0), Vec3(0.0, 1.0, 1.0)]

  const CubeColors: seq<real> := [
    0.0, 0.0, 0.0, 1.0,  1.0, 0.0, 0.0, 1.0,  1.0, 1.0, 0.0, 1.0,  0.0, 1.0, 0.0, 1.0,
    0.0, 0.0, 1.0, 1.0,  1.0, 0.0, 1.0, 1.0,  1.0, 1.0, 1.0, 1.0,  0.0, 1.0, 1.0, 1.0]

  const CubeQuads: seq<nat> := [
    0, 1, 2, 3,  3, 2, 6, 7,  1, 0, 4, 5,  2, 1, 5, 6,  0, 3, 7, 4,  7, 6, 5, 4]

  const CubeEdges: seq<nat> := [
    0, 1,  1, 2,  2, 3,  3, 0,  0, 4,  1, 5,  2, 6,  3, 7,  4, 5,  5, 6,  6, 7,  7, 4]

  /** Every cube index names one of the eight vertices, and every vertex lies in the unit box. */
  lemma CubeTables()
    ensures |CubeVertices| == 8 && |CubeColors| == 32 && |CubeQuads| == 24 && |CubeEdges| == 24
    ensures AllBelow(CubeQuads, 8) && AllBelow(CubeEdges, 8)
    ensures forall k :: 0 <= k < 8 ==> InUnitBox(CubeVertices[k])
  {
  }

  /** The cube mesh: the tables above with dark-red edges and the orange hover tint. */
  function CubeMesh(): (mesh: ObjectMesh)
    ensures mesh.vertices == CubeVertices && mesh.colorsFaces == CubeColors
    ensures mesh.facesTriangles.None? && mesh.facesQuads == Some(CubeQuads) && mesh.edges == Some(CubeEdges)
    ensures |mesh.colorsEdges| == 3 * 8 && mesh.colorsEdgesActive == mesh.colorsEdges
    ensures mesh.enableFaces && mesh.enableEdges && mesh.enabled
  {
    var colorsEdges := Tile(EdgeRgb, 8);
    var colorsHovered := Tile(HoverRgb, 8);
    var mesh := NewMesh(CubeVertices, CubeColors, None, Some(CubeQuads), Some(CubeEdges));
    mesh.(colorsEdges := colorsEdges, colorsHovered := colorsHovered,
          colorsSelected := colorsHovered, colorsEdgesActive := colorsEdges,
          enableFaces := true)
  }

  /**
   * create_cube: eight vertices inside the unit collision box, no triangle list, six quads
   * and twelve edges, all indices naming one of the eight vertices.
   */
  function CreateCube(next: nat): (r: (SceneObject, nat))
    ensures var o := r.0;
      && Pristine(o)
      && o.id == next && r.1 == next + 1
      && |o.mesh.vertices| == 8 && o.mesh.facesTriangles.None?
      && o.mesh.facesQuads.Some? && |o.mesh.facesQuads.value| == 24
      && o.mesh.edges.Some? && |o.mesh.edges.value| == 24
      && WellFormed(o.mesh)
      && (forall k :: 0 <= k < 8 ==> InUnitBox(o.mesh.vertices[k]))
      && o.collision == NewCollisionBox(UnitBoxLo, UnitBoxHi) && o.origin == Center
      && o.mesh.enableFaces && o.mesh.enableEdges
  {
    var mesh := CubeMesh();
    CubeTables();
    NewSceneObject(next, mesh, NewCollisionBox(UnitBoxLo, UnitBoxHi), Center, DefaultObjType, map[])
  }

  // ---------------------------------------------------------------- pyramid

  const PyramidVertices: seq<Vec3> := [
    Vec3(0.0, 0.0, 0.0), Vec3(1.0, 0.0, 0.0), Vec3(1.0, 0.0, 1.0), Vec3(0.0, 0.0, 1.0),
    Vec3(0.5, 1.0, 0.5)]

  const PyramidColor: seq<real> := [1.0, 0.0, 1.0, 0.1]

  const PyramidTriangles: seq<nat> := [
    0, 1, 2,  0, 2, 3,  0, 1, 4,  1, 2, 4,  2, 3, 4,  3, 0, 4]

  const PyramidEdges: seq<nat> := [
    0, 1,  1, 2,  2, 3,  3, 0,  0, 4,  1, 4,  2, 4,  3, 4]

  /** Every pyramid index names one of the five vertices, and every vertex lies in the unit box. */
  lemma PyramidTables()
    ensures |PyramidVertices| == 5 && |PyramidTriangles| == 18 && |PyramidEdges| == 16
    ensures AllBelow(PyramidTriangles, 5) && AllBelow(PyramidEdges, 5)
    ensures forall k :: 0 <= k < 5 ==> InUnitBox(PyramidVertices[k])
  {
  }

  /** The pyramid mesh: translucent magenta faces, dark-red edges, orange hover tint. */
  function PyramidMesh(): (mesh: ObjectMesh)
    ensures mesh.vertices == PyramidVertices
    ensures mesh.facesTriangles == Some(PyramidTriangles) && mesh.facesQuads.None? && mesh.edges == Some(PyramidEdges)
    ensures |mesh.colorsFaces| == 4 * 5
    ensures forall k :: 0 <= k < |mesh.colorsFaces| ==> mesh.colorsFaces[k] == PyramidColor[k % 4]
    ensures mesh.enableFaces && mesh.enableEdges && mesh.enabled
  {
    var colors := Tile(PyramidColor, 5);
    TileRgba(PyramidColor, 5);
    var colorsEdges := Tile(EdgeRgb, 5);
    var colorsHovered := Tile(HoverRgb, 5);
    var mesh := NewMesh(PyramidVertices, colors, Some(PyramidTriangles), None, Some(PyramidEdges));
    mesh.(colorsEdges := colorsEdges, colorsHovered := colorsHovered,
          colorsSelected := colorsHovered, colorsEdgesActive := colorsEdges,
          enableFaces := true)
  }

  /**
   * create_pyramid: five vertices inside the unit box, six triangles, no quad list and
   * eight edges, all indices below five; every face colour is magenta with alpha 0.1.
   */
  function CreatePyramid(next: nat): (r: (SceneObject, nat))
    ensures var o := r.0;
      && Pristine(o)
      && o.id == next && r.1 == next + 1
      && |o.mesh.vertices| == 5 && o.mesh.facesQuads.None?
      && o.mesh.facesTriangles.Some? && |o.mesh.facesTriangles.value| == 18
      && o.mesh.edges.Some? && |o.mesh.edges.value| == 16
      && WellFormed(o.mesh)
      && (forall k :: 0 <= k < 5 ==> InUnitBox(o.mesh.vertices[k]))
      && |o.mesh.colorsFaces| == 4 * 5
      && (forall k :: 0 <= k < |o.mesh.colorsFaces| ==> o.mesh.colorsFaces[k] == PyramidColor[k % 4])
      && o.collision == NewCollisionBox(UnitBoxLo, UnitBoxHi) && o.origin == Center
      && o.currentOpacity == 1.0
  {
    var mesh := PyramidMesh();
    PyramidTables();
    NewSceneObject(next, mesh, NewCollisionBox(UnitBoxLo, UnitBoxHi), Center, DefaultObjType, map[])
  }

  // ---------------------------------------------------------------- UV sphere

  /**
   * The two triangles of grid cell (i, j): a, b on parallel i, c, d on parallel i + 1,
   * b and d wrapping to meridian 0 after the last meridian.
   */
  function CellTris(m: nat, i: nat, j: nat): seq<nat>
    requires j < m
  {
    var a := i * m + j;
    var b := i * m + (j + 1) % m;
    var c := (i + 1) * m + j;
    var d := (i + 1) * m + (j + 1) % m;
    [a, b, c, b, d, c]
  }

  /** The edges of grid cell (i, j): along the parallel, and down to parallel i + 1 except on the last row. */
  function CellEdges(m: nat, p: nat, i: nat, j: nat): seq<nat>
    requires j < m
  {
    var current := i * m + j;
    var nextJ := i * m + (j + 1) % m;
    [current, nextJ] + (if i + 1 < p then [current, (i + 1) * m + j] else [])
  }

  lemma CellBounds(m: nat, p: nat, i: nat, j: nat)
    requires j < m && i < p
    ensures i * m + j < (p + 1) * m
    ensures i * m + (j + 1) % m < (p + 1) * m
    ensures (i + 1) * m + j < (p + 1) * m
    ensures (i + 1) * m + (j + 1) % m < (p + 1) * m
    ensures i + 1 < p ==> (i + 1) * m + j < p * m
  {
    assert (i + 1) * m + j < (i + 2) * m;
    assert (i + 2) * m <= (p + 1) * m by { MulMono(i + 2, p + 1, m); }
    assert i + 1 < p ==> (i + 2) * m <= p * m by {
      if i + 1 < p { MulMono(i + 2, p, m); }
    }
  }

  lemma MulMono(a: nat, b: nat, m: nat)
    requires a <= b
    ensures a * m <= b * m
  {
  }

  /** Triangles of cells j .. m-1 of parallel i. */
  function RowTris(m: nat, p: nat, i: nat, j: nat): (r: seq<nat>)
    requires i < p && j <= m
    ensures |r| == 6 * (m - j)
    ensures AllBelow(r, (p + 1) * m)
    decreases m - j
  {
    if j == m then []
    else
      CellBounds(m, p, i, j);
      CellTris(m, i, j) + RowTris(m, p, i, j + 1)
  }

  /** Triangles of parallels i .. p-1. */
  function GridTris(m: nat, p: nat, i: nat): (r: seq<nat>)
    requires i <= p
    ensures |r| == 6 * m * (p - i)
    ensures AllBelow(r, (p + 1) * m)
    decreases p - i
  {
    if i == p then []
    else
      var rest := GridTris(m, p, i + 1);
      assert 6 * m * (p - i) == 6 * (m - 0) + 6 * m * (p - (i + 1));
      RowTris(m, p, i, 0) + rest
  }

  /** Edges of cells j .. m-1 of parallel i. */
  function RowEdges(m: nat, p: nat, i: nat, j: nat): (r: seq<nat>)
    requires i < p && j <= m
    ensures |r| == (if i + 1 < p then 4 else 2) * (m - j)
    ensures AllBelow(r, (p + 1) * m)
    decreases m - j
  {
    if j == m then []
    else
      CellBounds(m, p, i, j);
      assert p * m <= (p + 1) * m;
      CellEdges(m, p, i, j) + RowEdges(m, p, i, j + 1)
  }

  /** Edges of parallels i .. p-1. */
  function GridEdges(m: nat, p: nat, i: nat): (r: seq<nat>)
    requires i < p
    ensures |r| == 2 * m * (p - i) + 2 * m * (p - 1 - i)
    ensures AllBelow(r, (p + 1) * m)
    decreases p - i
  {
    if i + 1 == p then RowEdges(m, p, i, 0)
    else
      var rest := GridEdges(m, p, i + 1);
      assert 2 * m * (p - i) + 2 * m * (p - 1 - i)
          == 4 * m + (2 * m * (p - (i + 1)) + 2 * m * (p - 1 - (i + 1)));
      RowEdges(m, p, i, 0) + rest
  }

  /** The index counts of the whole grid in the form create_sphere's loops produce them. */
  lemma SphereCounts(m: nat, p: nat)
    requires p > 0
    ensures |GridTris(m, p, 0)| == p * m * 6
    ensures |GridEdges(m, p, 0)| == 2 * p * m + 2 * (p - 1) * m
    ensures AllBelow(GridTris(m, p, 0), (p + 1) * m) && AllBelow(GridEdges(m, p, 0), (p + 1) * m)
  {
    assert 6 * m * (p - 0) == p * m * 6;
    assert 2 * m * (p - 0) + 2 * m * (p - 1 - 0) == 2 * p * m + 2 * (p - 1) * m;
  }

  /** Vertex k of the sphere grid sits on parallel k / m, meridian k % m. */
  function SphereVertices(num: Numerics, m: nat, p: nat): (r: seq<Vec3>)
    ensures |r| == (p + 1) * m
  {
    seq((p + 1) * m, k requires 0 <= k < (p + 1) * m => num.spherePoint(m, p, k / m, k % m))
  }

  /** The sphere mesh: the vertex grid, flat face colour, white edges, orange hover tint, edges off. */
  function SphereMesh(num: Numerics, m: nat, p: nat, color: seq<real>): (mesh: ObjectMesh)
    requires p > 0 && |color| == 4
    ensures |mesh.vertices| == (p + 1) * m
    ensures mesh.facesTriangles == Some(GridTris(m, p, 0)) && mesh.facesQuads.None?
    ensures mesh.edges == Some(GridEdges(m, p, 0))
    ensures |mesh.colorsFaces| == 4 * |mesh.vertices|
    ensures forall k :: 0 <= k < |mesh.colorsFaces| ==> mesh.colorsFaces[k] == color[k % 4]
    ensures mesh.enableFaces && !mesh.enableEdges && mesh.enabled
  {
    var vertices := SphereVertices(num, m, p);
    var n := |vertices|;
    var colors := Tile(color, n);
    TileRgba(color, n);
    var mesh := NewMesh(vertices, colors, Some(GridTris(m, p, 0)), None, Some(GridEdges(m, p, 0)));
    var colorsEdges := Tile(WhiteRgb, n);
    var colorsHovered := Tile(HoverRgb, n);
    mesh.(colorsEdges := colorsEdges, colorsHovered := colorsHovered,
          colorsSelected := colorsHovered, colorsEdgesActive := colorsEdges,
          enableFaces := true, enableEdges := false)
  }

  /**
   * create_sphere(meridians, parallels, color). The source divides by `parallels`, so it
   * must be positive, and fills each vertex colour with `color`, so that has four
   * components. Result: (p+1)m vertices, p*m*6 triangle indices and 2pm + 2(p-1)m edge
   * indices, all in range; every vertex's alpha is the colour's alpha; faces are drawn and
   * edges are not.
   */
  function CreateSphere(num: Numerics, next: nat, m: nat, p: nat, color: seq<real>): (r: (SceneObject, nat))
    requires p > 0 && |color| == 4
    ensures var o := r.0;
      && Pristine(o)
      && o.id == next && r.1 == next + 1
      && |o.mesh.vertices| == (p + 1) * m
      && o.mesh.facesTriangles.Some? && |o.mesh.facesTriangles.value| == p * m * 6
      && o.mesh.facesQuads.None?
      && o.mesh.edges.Some? && |o.mesh.edges.value| == 2 * p * m + 2 * (p - 1) * m
      && WellFormed(o.mesh)
      && |o.mesh.colorsFaces| == 4 * |o.mesh.vertices|
      && (forall k :: 0 <= k < |o.mesh.colorsFaces| ==> o.mesh.colorsFaces[k] == color[k % 4])
      && o.mesh.enableFaces && !o.mesh.enableEdges
      && o.collision == NewCollisionBox(UnitBoxLo, UnitBoxHi) && o.origin == Center
  {
    var mesh := SphereMesh(num, m, p, color);
    SphereCounts(m, p);
    NewSceneObject(next, mesh, NewCollisionBox(UnitBoxLo, UnitBoxHi), Center, DefaultObjType, map[])
  }

  // ---------------------------------------------------------------- markers

  /**
   * create_detector: a pyramid at (x, y, z) typed "detector" carrying the detector id. The
   * location is set after construction without recomputing the matrix, so the matrix still
   * describes the pyramid at the origin until the caller recomputes it.
   */
  function CreateDetector(next: nat, detId: int, x: real, y: real, z: real): (r: (SceneObject, nat))
    ensures var o := r.0;
      && o.id == next && r.1 == next + 1
      && o.location == Vec3(x, y, z) && o.objType == "detector"
      && o.matrix == Some(Transform(Zero3, Zero3, One3, Center))
      && o.data == map["id" := VInt(detId)]
      && |o.mesh.vertices| == 5 && WellFormed(o.mesh)
  {
    var (o, next') := CreatePyramid(next);
    (o.(location := Vec3(x, y, z), objType := "detector", data := o.data["id" := VInt(detId)]), next')
  }

  /** The energy thresholds shared by the event colour ramp and the property table. */
  const Thresholds: seq<int> := [100000000000, 1000000000, 100000000, 1000000, 1000, 0]

  /** The default colour per bucket, red for the highest energies down to gray. */
  const BucketColors: seq<seq<real>> := [
    [1.0, 0.0, 0.0, 1.0], [1.0, 0.5, 0.0, 1.0], [1.0, 1.0, 0.0, 1.0],
    [0.0, 1.0, 0.0, 1.0], [0.0, 0.0, 1.0, 1.0], [0.5, 0.5, 0.5, 1.0]]

  /** The bucket create_event chooses: the first of the five positive thresholds the energy strictly exceeds, else the last. */
  function CreateBucket(energy: real): (b: nat)
    ensures b < 6
  {
    if energy > 100000000000.0 then 0
    else if energy > 1000000000.0 then 1
    else if energy > 100000000.0 then 2
    else if energy > 1000000.0 then 3
    else if energy > 1000.0 then 4
    else 5
  }

  /**
   * The strict bucket as a threshold-table characterisation: bucket b is chosen exactly
   * when the energy exceeds threshold b (b < 5) and does not exceed threshold b - 1.
   */
  lemma CreateBucketSpec(energy: real, b: nat)
    requires b < 6
    ensures CreateBucket(energy) == b <==>
            (b == 5 || energy > Thresholds[b] as real) && (b == 0 || energy <= Thresholds[b - 1] as real)
  {
  }

  /** A larger energy never lands in a lower-energy bucket. */
  lemma CreateBucketMonotone(e1: real, e2: real)
    requires e1 <= e2
    ensures CreateBucket(e2) <= CreateBucket(e1)
  {
  }

  /** create_event's colour: the bucket colour, always opaque. */
  function EventColor(energy: real): (c: seq<real>)
    ensures |c| == 4 && c[3] == 1.0
    ensures c == BucketColors[CreateBucket(energy)]
  {
    BucketColors[CreateBucket(energy)]
  }

  /**
   * create_event: a 32x32 sphere in the energy colour at (x, y, z), typed "event",
   * carrying the event type and energy. Its matrix is left as the sphere constructor
   * computed it; add_object_event recomputes it after scaling.
   */
  function CreateEvent(num: Numerics, next: nat, x: real, y: real, z: real, eventType: string, energy: real): (r: (SceneObject, nat))
    ensures var o := r.0;
      && o.id == next && r.1 == next + 1
      && o.location == Vec3(x, y, z) && o.objType == "event"
      && o.matrix == Some(Transform(Zero3, Zero3, One3, Center))
      && o.data == map["type" := VStr(eventType), "energy" := VReal(energy)]
      && |o.mesh.vertices| == 33 * 32 && WellFormed(o.mesh)
      && (forall k :: 0 <= k < |o.mesh.colorsFaces| ==> o.mesh.colorsFaces[k] == EventColor(energy)[k % 4])
      && !o.mesh.enableEdges
  {
    var (o, next') := CreateSphere(num, next, 32, 32, EventColor(energy));
    (o.(location := Vec3(x, y, z), objType := "event",
        data := o.data["type" := VStr(eventType)]["energy" := VReal(energy)]), next')
  }
}

=== FILE: stable_sort.dfy ===
/**
 * `list.sort(key=k, reverse=True)` as paintGL uses it: a stable sort into descending key
 * order. Python's reverse sort keeps equal-key elements in their original order, so the
 * model is an insertion sort that places each new element after every element whose key is
 * at least its own.
 */
module StableSort {

  /** Keys never increase along the sequence. */
  predicate SortedDesc<T>(s: seq<T>, key: T -> real)
  {
    forall i, j :: 0 <= i < j < |s| ==> key(s[i]) >= key(s[j])
  }

  /** The elements of `s` whose key is exactly `v`, in their order in `s`. */
  function WithKey<T>(s: seq<T>, key: T -> real, v: real): (r: seq<T>)
    ensures |r| <= |s|
  {
    if s == [] then []
    else (if key(s[0]) == v then [s[0]] else []) + WithKey(s[1..], key, v)
  }

  lemma {:induction false} WithKeyConcat<T>(a: seq<T>, b: seq<T>, key: T -> real, v: real)
    ensures WithKey(a + b, key, v) == WithKey(a, key, v) + WithKey(b, key, v)
  {
    if a == [] {
      assert a + b == b;
    } else {
      var head := if key(a[0]) == v then [a[0]] else [];
      assert (a + b)[0] == a[0];
      assert (a + b)[1..] == a[1..] + b;
      WithKeyConcat(a[1..], b, key, v);
      assert WithKey(a + b, key, v) == head + WithKey(a[1..] + b, key, v);
      assert WithKey(a, key, v) == head + WithKey(a[1..], key, v);
    }
  }

  /** Inserts `x` after every element whose key is at least key(x). */
  function InsertDesc<T>(x: T, s: seq<T>, key: T -> real): (r: seq<T>)
    ensures |r| == |s| + 1
    ensures multiset(r) == multiset(s) + multiset{x}
  {
    if s == [] then [x]
    else if key(s[0]) >= key(x) then
      assert s == [s[0]] + s[1..];
      [s[0]] + InsertDesc(x, s[1..], key)
    else [x] + s
  }

  lemma {:induction false} InsertDescSorted<T>(x: T, s: seq<T>, key: T -> real)
    requires SortedDesc(s, key)
    ensures SortedDesc(InsertDesc(x, s, key), key)
  {
    if s != [] && key(s[0]) >= key(x) {
      InsertDescSorted(x, s[1..], key);
      var r := InsertDesc(x, s, key);
      var t := InsertDesc(x, s[1..], key);
      assert r == [s[0]] + t;
      forall j | 1 <= j < |r|
        ensures key(s[0]) >= key(r[j])
      {
        assert r[j] == t[j - 1];
        assert r[j] in multiset(t);
        assert r[j] in multiset(s[1..]) + multiset{x};
        if r[j] != x {
          assert r[j] in s[1..];
        }
      }
    }
  }

  /** Inserting into a sorted sequence adds `x` at the end of its own key group and leaves every other group alone. */
  lemma {:induction false} InsertDescStable<T>(x: T, s: seq<T>, key: T -> real, v: real)
    requires SortedDesc(s, key)
    ensures WithKey(InsertDesc(x, s, key), key, v) == WithKey(s, key, v) + (if key(x) == v then [x] else [])
  {
    if s == [] {
    } else if key(s[0]) >= key(x) {
      InsertDescStable(x, s[1..], key, v);
      assert InsertDesc(x, s, key)[1..] == InsertDesc(x, s[1..], key);
    } else {
      if key(x) == v {
        NoneAbove(s, key, v);
      }
      assert InsertDesc(x, s, key)[1..] == s;
    }
  }

  /** A sorted sequence that starts below `v` has no element with key `v`. */
  lemma {:induction false} NoneAbove<T>(s: seq<T>, key: T -> real, v: real)
    requires SortedDesc(s, key)
    requires s != [] ==> key(s[0]) < v
    ensures WithKey(s, key, v) == []
  {
    if s != [] {
      assert s[1..] != [] ==> key(s[1..][0]) <= key(s[0]);
      NoneAbove(s[1..], key, v);
    }
  }

  /** sort(key=key, reverse=True). */
  function SortDesc<T>(s: seq<T>, key: T -> real): (r: seq<T>)
    ensures |r| == |s|
    ensures multiset(r) == multiset(s)
  {
    if s == [] then []
    else
      var init := s[..|s| - 1];
      assert s == init + [s[|s| - 1]];
      InsertDesc(s[|s| - 1], SortDesc(init, key), key)
  }

  /** The result is in descending key order. */
  lemma {:induction false} SortDescSorted<T>(s: seq<T>, key: T -> real)
    ensures SortedDesc(SortDesc(s, key), key)
  {
    if s != [] {
      SortDescSorted(s[..|s| - 1], key);
      InsertDescSorted(s[|s| - 1], SortDesc(s[..|s| - 1], key), key);
    }
  }

  /** Filtering a one-element sequence. */
  lemma WithKeySingle<T>(x: T, key: T -> real, v: real)
    ensures WithKey([x], key, v) == if key(x) == v then [x] else []
  {
    assert [x][1..] == [];
  }

  /** Stability: the elements sharing any one key come out in their input order. */
  lemma {:induction false} SortDescStable<T>(s: seq<T>, key: T -> real, v: real)
    ensures WithKey(SortDesc(s, key), key, v) == WithKey(s, key, v)
  {
    if s != [] {
      var init := s[..|s| - 1];
      var x := s[|s| - 1];
      var sorted := SortDesc(init, key);
      SortDescUnfold(s, key);
      SortDescStable(init, key, v);
      SortDescSorted(init, key);
      InsertDescStable(x, sorted, key, v);
      WithKeySingle(x, key, v);
      WithKeySnoc(s, key, v);
    }
  }

  /** One step of the sort: the last element is inserted into the sorted prefix. */
  lemma {:induction false} SortDescUnfold<T>(s: seq<T>, key: T -> real)
    requires s != []
    ensures SortDesc(s, key) == InsertDesc(s[|s| - 1], SortDesc(s[..|s| - 1], key), key)
  {
  }

  /** Filtering distributes over splitting off the last element. */
  lemma WithKeySnoc<T>(s: seq<T>, key: T -> real, v: real)
    requires s != []
    ensures WithKey(s, key, v) == WithKey(s[..|s| - 1], key, v) + WithKey([s[|s| - 1]], key, v)
  {
    assert s == s[..|s| - 1] + [s[|s| - 1]];
    WithKeyConcat(s[..|s| - 1], [s[|s| - 1]], key, v);
  }
}

=== FILE: text.dfy ===
/**
 * The str methods the parsers rely on — strip(), split() with no argument and a character
 * replace — over the ASCII characters Python counts as whitespace.
 */
module Text {

  predicate IsDigit(c: char) { '0' <= c <= '9' }

  /** The ASCII characters str.isspace() accepts: space, \t \n \v \f \r and the separators 0x1C-0x1F. */
  predicate IsSpace(c: char)
  {
    c == ' ' || ('\t' <= c <= '\r') || ('\U{001C}' <= c <= '\U{001F}')
  }

  /** str.lstrip(): drops the leading whitespace and nothing else. */
  function StripLeft(s: string): (r: string)
    ensures |r| <= |s| && r == s[|s| - |r|..]
    ensures forall k :: 0 <= k < |s| - |r| ==> IsSpace(s[k])
    ensures r == [] || !IsSpace(r[0])
  {
    if s != [] && IsSpace(s[0]) then StripLeft(s[1..]) else s
  }

  /** str.rstrip(): drops the trailing whitespace and nothing else. */
  function StripRight(s: string): (r: string)
    ensures |r| <= |s| && r == s[..|r|]
    ensures forall k :: |r| <= k < |s| ==> IsSpace(s[k])
    ensures r == [] || !IsSpace(r[|r| - 1])
  {
    if s != [] && IsSpace(s[|s| - 1]) then StripRight(s[..|s| - 1]) else s
  }

  function Strip(s: string): string
  {
    StripRight(StripLeft(s))
  }

  /** A string with no surrounding whitespace is its own strip. */
  lemma StripNoSpace(s: string)
    requires s == [] || (!IsSpace(s[0]) && !IsSpace(s[|s| - 1]))
    ensures Strip(s) == s
  {
  }

  /** Stripping twice is stripping once. */
  lemma StripIdempotent(s: string)
    ensures Strip(Strip(s)) == Strip(s)
  {
    var t := Strip(s);
    if t != [] {
      assert StripLeft(s)[0] == t[0];
    }
    StripNoSpace(t);
  }

  /** A token: a non-empty run of non-whitespace characters. */
  predicate IsToken(t: string)
  {
    t != [] && forall k :: 0 <= k < |t| ==> !IsSpace(t[k])
  }

  /** The leading run of non-whitespace characters. */
  function Word(s: string): (w: string)
    ensures |w| <= |s| && w == s[..|w|]
    ensures forall k :: 0 <= k < |w| ==> !IsSpace(w[k])
    ensures |w| < |s| ==> IsSpace(s[|w|])
  {
    if s == [] || IsSpace(s[0]) then [] else [s[0]] + Word(s[1..])
  }

  /** str.split() with no argument: the maximal runs of non-whitespace characters, in order. */
  function Split(s: string): (r: seq<string>)
    ensures forall i :: 0 <= i < |r| ==> IsToken(r[i])
    decreases |s|
  {
    if s == [] then []
    else if IsSpace(s[0]) then Split(s[1..])
    else
      var w := Word(s);
      [w] + Split(s[|w|..])
  }

  /** ' '.join(tokens). */
  function Join(tokens: seq<string>): string
  {
    if tokens == [] then []
    else if |tokens| == 1 then tokens[0]
    else tokens[0] + " " + Join(tokens[1..])
  }

  /** A token followed by whitespace or by nothing is the word at the front. */
  lemma {:induction false} WordOfToken(t: string, rest: string)
    requires IsToken(t)
    requires rest == [] || IsSpace(rest[0])
    ensures Word(t + rest) == t
  {
    var s := t + rest;
    assert s[0] == t[0];
    if |t| > 1 {
      assert s[1..] == t[1..] + rest;
      WordOfToken(t[1..], rest);
    } else {
      assert s[1..] == rest;
    }
  }

  /** Splitting tokens joined by single spaces gives the tokens back. */
  lemma {:induction false} SplitJoin(tokens: seq<string>)
    requires forall i :: 0 <= i < |tokens| ==> IsToken(tokens[i])
    ensures Split(Join(tokens)) == tokens
  {
    if tokens != [] {
      var t := tokens[0];
      var rest := if |tokens| == 1 then [] else " " + Join(tokens[1..]);
      var s := Join(tokens);
      assert s == t + rest;
      WordOfToken(t, rest);
      assert s[|t|..] == rest;
      if |tokens| > 1 {
        SplitJoin(tokens[1..]);
        assert rest[1..] == Join(tokens[1..]);
        assert Split(rest) == Split(Join(tokens[1..]));
      }
    }
  }

  /** s.replace(from, to) for single characters. */
  function ReplaceChar(s: string, from: char, to: char): (r: string)
    ensures |r| == |s|
    ensures forall k :: 0 <= k < |s| ==> r[k] == (if s[k] == from then to else s[k])
  {
    seq(|s|, k requires 0 <= k < |s| => if s[k] == from then to else s[k])
  }

  /** After replacing a character by a different one, it no longer occurs, and a string without it is unchanged. */
  lemma ReplaceCharRemoves(s: string, from: char, to: char)
    requires from != to
    ensures from !in ReplaceChar(s, from, to)
    ensures from !in s ==> ReplaceChar(s, from, to) == s
  {
    var r := ReplaceChar(s, from, to);
    assert forall k :: 0 <= k < |r| ==> r[k] != from;
    if from !in s {
      assert forall k :: 0 <= k < |s| ==> s[k] != from;
    }
  }
}

=== FILE: viewer.dfy ===
/**
 * The scene-owning state of GLWidget (main.py) and its add_object_* factories: the id-keyed
 * object map, the hovered id, the camera's view target, the camera and the object-id
 * counter the constructors draw from.
 */
module Viewer {
  import opened Common
  import opened Meshes
  import opened SceneObjects
  import opened Dict
  import opened Shapes
  import opened Dxf
  import Camera

  datatype Viewer = Viewer(
    objects: Dict<SceneObject>,
    hovered: int,
    viewTarget: Option<SceneObject>,
    camera: Camera.Camera,
    nextId: nat)

  /** The map is well formed, each object is stored under its own id, and every id was already handed out. */
  predicate ViewerValid(v: Viewer)
  {
    && Valid(v.objects)
    && (forall k :: k in v.objects.entries ==> v.objects.entries[k].id == k && k < v.nextId)
  }

  /** GLWidget.__init__ with the counter at `next`: no objects, nothing hovered, no target. */
  function InitialViewer(next: nat): (v: Viewer)
    ensures ViewerValid(v) && v.objects.entries == map[] && v.hovered == -1 && v.viewTarget.None?
    ensures v.camera == Camera.InitialCamera() && v.nextId == next
  {
    Viewer(Empty(), -1, None, Camera.InitialCamera(), next)
  }

  /**
   * `w` is `v` with one more object, stored under the counter's old value and appended to
   * the map's order; every other object, the hover state and the camera are untouched and
   * the counter has advanced by one.
   */
  predicate AddedOne(v: Viewer, w: Viewer)
  {
    && ViewerValid(w) && w.nextId == v.nextId + 1
    && w.hovered == v.hovered && w.camera == v.camera
    && w.objects.order == v.objects.order + [v.nextId]
    && w.objects.entries.Keys == v.objects.entries.Keys + {v.nextId}
    && (forall k :: k in v.objects.entries ==> k in w.objects.entries && w.objects.entries[k] == v.objects.entries[k])
  }

  /** `self.objects[obj.id] = obj` for a freshly constructed object, advancing the counter past it. */
  function AddNew(v: Viewer, o: SceneObject, next': nat): (r: Viewer)
    requires ViewerValid(v) && o.id == v.nextId && next' == v.nextId + 1
    ensures AddedOne(v, r) && LastKey(r.objects) == o.id
    ensures r.objects.entries == v.objects.entries[o.id := o]
    ensures r.hovered == v.hovered && r.camera == v.camera && r.viewTarget == v.viewTarget
  {
    Viewer(Put(v.objects, o.id, o), v.hovered, v.viewTarget, v.camera, next')
  }

  /** Storing an object under its own, already present id keeps the viewer valid, with any counter at least as large. */
  lemma ReplaceKeepsValid(v: Viewer, o: SceneObject, next': nat)
    requires ViewerValid(v) && o.id in v.objects.entries && next' >= v.nextId
    ensures ViewerValid(v.(objects := Put(Remove(v.objects, o.id), o.id, o), nextId := next'))
  {
    ReplaceMovesLast(v.objects, o.id, o);
  }

  /**
   * `w` is `v` after the first `n` items of a batch: their objects, made from the item and
   * the counter value each got, follow the earlier keys in the map's order under the ids
   * `ids`, the consecutive counter values; earlier objects, the hover state, camera and
   * target are untouched.
   */
  ghost predicate Extends<T>(v: Viewer, w: Viewer, ids: seq<nat>, items: seq<T>, make: (nat, T) -> SceneObject, n: nat)
  {
    && n <= |items|
    && ViewerValid(w)
    && w.nextId == v.nextId + n && ids == Span(v.nextId, n)
    && w.objects.order == v.objects.order + ids
    && (forall k :: k in w.objects.entries <==> k in v.objects.entries || v.nextId <= k < w.nextId)
    && (forall k :: k in v.objects.entries ==> w.objects.entries[k] == v.objects.entries[k])
    && (forall i :: 0 <= i < n ==> w.objects.entries[v.nextId + i] == make(v.nextId + i, items[i]))
    && w.hovered == v.hovered && w.camera == v.camera && w.viewTarget == v.viewTarget
  }

  /** Adding the next item's object extends the batch by one, its id being the map's last key. */
  lemma ExtendsStep<T>(v: Viewer, w: Viewer, ids: seq<nat>, items: seq<T>, make: (nat, T) -> SceneObject, n: nat)
    requires Extends(v, w, ids, items, make, n) && n < |items| && make(w.nextId, items[n]).id == w.nextId
    ensures var w' := AddNew(w, make(w.nextId, items[n]), w.nextId + 1);
      LastKey(w'.objects) == w.nextId && Extends(v, w', ids + [w.nextId], items, make, n + 1)
  {
    var w' := AddNew(w, make(w.nextId, items[n]), w.nextId + 1);
    SpanSnoc(v.nextId, n);
    assert w'.objects.order == v.objects.order + (ids + [w.nextId]);
    forall k
      ensures k in w'.objects.entries <==> k in v.objects.entries || v.nextId <= k < w'.nextId
    {
      assert k in w'.objects.entries.Keys <==> k in w.objects.entries.Keys || k == w.nextId;
    }
    forall k | k in v.objects.entries
      ensures w'.objects.entries[k] == v.objects.entries[k]
    {
      assert k in w.objects.entries;
    }
    forall i | 0 <= i < n + 1
      ensures w'.objects.entries[v.nextId + i] == make(v.nextId + i, items[i])
    {
      if i < n {
        assert v.nextId + i in w.objects.entries;
      }
    }
  }

  /**
   * The file loaders' loops: for each item in turn, its object is made under the next
   * counter value and added, and the map's last key is appended to the id list. The ids
   * are the consecutive counter values, the new keys follow the earlier ones in the map's
   * order, the i-th new object is made from the i-th item, and earlier objects, the hover
   * state, camera and target are untouched.
   */
  method AddEach<T(!new)>(v: Viewer, items: seq<T>, make: (nat, T) -> SceneObject) returns (w: Viewer, ids: seq<nat>)
    requires ViewerValid(v)
    requires forall id: nat, t: T :: make(id, t).id == id
    ensures ViewerValid(w)
    ensures w.nextId == v.nextId + |items| && ids == Span(v.nextId, |items|)
    ensures w.objects.order == v.objects.order + ids
    ensures forall k :: k in w.objects.entries <==> k in v.objects.entries || v.nextId <= k < w.nextId
    ensures forall k :: k in v.objects.entries ==> w.objects.entries[k] == v.objects.entries[k]
    ensures forall i :: 0 <= i < |items| ==> w.objects.entries[v.nextId + i] == make(v.nextId + i, items[i])
    ensures w.hovered == v.hovered && w.camera == v.camera && w.viewTarget == v.viewTarget
  {
    w, ids := v, [];
    for n := 0 to |items|
      invariant Extends(v, w, ids, items, make, n)
    {
      ExtendsStep(v, w, ids, items, make, n);
      w := AddNew(w, make(w.nextId, items[n]), w.nextId + 1);
      ids := ids + [LastKey(w.objects)];
    }
  }

  // ---------------------------------------------------------------- sizing

  /** type_multipliers.get(event_type, 1.5). */
  function TypeMultiplier(eventType: string): (m: real)
    ensures m > 0.0
    ensures eventType !in {"explosion", "earthquake", "microseismic", "unknown"} ==> m == 1.5
  {
    if eventType == "explosion" then 3.0
    else if eventType == "earthquake" then 1.5
    else if eventType == "microseismic" then 0.8
    else if eventType == "unknown" then 0.5
    else 1.5
  }

  const MaxEventSize: real := 100.0

  /** The sphere and beach-ball scale: |ln energy| times the type multiplier, capped at 100; 1.0 for non-positive energy. */
  function EventSize(num: Numerics, eventType: string, energy: real): (s: real)
    ensures 0.0 <= s <= MaxEventSize
    ensures energy <= 0.0 ==> s == 1.0
    ensures energy > 0.0 ==> s <= Abs(num.ln(energy)) * TypeMultiplier(eventType)
    ensures energy > 0.0 && s < MaxEventSize ==> s == Abs(num.ln(energy)) * TypeMultiplier(eventType)
  {
    var s := if energy > 0.0 then Abs(num.ln(energy)) * TypeMultiplier(eventType) else 1.0;
    if MaxEventSize < s then MaxEventSize else s
  }

  /** For one energy, explosions are drawn at least as large as earthquakes, earthquakes as microseismic events, those as unknown ones. */
  lemma EventSizeByType(num: Numerics, energy: real, other: string)
    requires other !in {"explosion", "earthquake", "microseismic", "unknown"}
    ensures EventSize(num, "explosion", energy) >= EventSize(num, "earthquake", energy)
    ensures EventSize(num, "earthquake", energy) == EventSize(num, other, energy)
    ensures EventSize(num, "earthquake", energy) >= EventSize(num, "microseismic", energy)
    ensures EventSize(num, "microseismic", energy) >= EventSize(num, "unknown", energy)
  {
    var a := Abs(num.ln(energy));
    assert a * 3.0 >= a * 1.5 >= a * 0.8 >= a * 0.5;
  }

  // ---------------------------------------------------------------- factories

  /**
   * add_object_dxf: builds the object from the file's faces, recomputes its matrix at unit
   * scale, stores it and makes it the camera's target. None where the source raises: a
   * file without a single face vertex has no bounding box.
   */
  function AddObjectDxf(v: Viewer, faces: seq<seq<Vec3>>): (r: Option<Viewer>)
    requires ViewerValid(v)
    ensures r.None? <==> TotalPoints(faces) == 0
    ensures r.Some? ==>
      var w := r.value;
      && AddedOne(v, w)
      && w.viewTarget == Some(w.objects.entries[v.nextId])
      && w.objects.entries[v.nextId].scale == One3 && MatrixCurrent(w.objects.entries[v.nextId])
      && |w.objects.entries[v.nextId].mesh.vertices| == TotalPoints(faces)
  {
    var made := CreateDxfObject(v.nextId, faces);
    if made.None? then None
    else
      var o := CalculateMatrix(made.value.0.(scale := One3));
      Some(AddNew(v, o, made.value.1).(viewTarget := Some(o)))
  }

  /** The object add_object_detector stores under counter value `id`: the pyramid at (x, y, z), scaled by 50, matrix recomputed. */
  function DetectorObject(id: nat, detId: int, x: real, y: real, z: real): (o: SceneObject)
    ensures o.id == id
    ensures o.objType == "detector" && o.location == Vec3(x, y, z)
    ensures o.scale == Vec3(50.0, 50.0, 50.0) && MatrixCurrent(o)
    ensures o.data == map["id" := VInt(detId)]
  {
    CalculateMatrix(CreateDetector(id, detId, x, y, z).0.(scale := Vec3(50.0, 50.0, 50.0)))
  }

  /** add_object_detector: the detector object stored under the next counter value, which its constructor consumed. */
  function AddObjectDetector(v: Viewer, detId: int, x: real, y: real, z: real): (w: Viewer)
    requires ViewerValid(v)
    ensures AddedOne(v, w)
    ensures w.objects.entries[v.nextId] == DetectorObject(v.nextId, detId, x, y, z)
    ensures w.viewTarget == v.viewTarget
  {
    AddNew(v, DetectorObject(v.nextId, detId, x, y, z), v.nextId + 1)
  }

  /**
   * The object add_object_event stores under counter value `id` when no custom colour is
   * given: the event sphere at (x, y, z) scaled to EventSize, matrix recomputed, base colour
   * red and opacity 1.0.
   */
  function EventObject(num: Numerics, id: nat, x: real, y: real, z: real, eventType: string, energy: real): (o: SceneObject)
    ensures o.id == id
    ensures o.objType == "event" && o.location == Vec3(x, y, z)
    ensures o.scale == Vec3(EventSize(num, eventType, energy), EventSize(num, eventType, energy), EventSize(num, eventType, energy))
    ensures MatrixCurrent(o)
    ensures o.baseColor == Some([1.0, 0.0, 0.0]) && o.currentOpacity == 1.0
    ensures o.data == map["type" := VStr(eventType), "energy" := VReal(energy)]
    ensures forall k :: 0 <= k < |o.mesh.colorsFaces| ==> o.mesh.colorsFaces[k] == EventColor(energy)[k % 4]
  {
    var o := CreateEvent(num, id, x, y, z, eventType, energy).0;
    var s := EventSize(num, eventType, energy);
    // The matrix does not depend on the colour fields, so they are set before it is computed.
    CalculateMatrix(o.(scale := Vec3(s, s, s), baseColor := Some([1.0, 0.0, 0.0]), currentOpacity := 1.0))
  }

  /**
   * add_object_event. With a custom colour the source calls create_event with one argument
   * too many and raises before constructing anything, so the result is None and no id is
   * consumed. Otherwise the event object is stored under the next counter value.
   */
  function AddObjectEvent(num: Numerics, v: Viewer, x: real, y: real, z: real, eventType: string,
                          energy: real, customColor: Option<seq<real>>): (r: Option<Viewer>)
    requires ViewerValid(v)
    ensures r.None? <==> customColor.Some?
    ensures r.Some? ==> r.value.viewTarget == v.viewTarget
    ensures r.Some? ==>
      && AddedOne(v, r.value)
      && r.value.objects.entries[v.nextId] == EventObject(num, v.nextId, x, y, z, eventType, energy)
  {
    if customColor.Some? then None
    else Some(AddNew(v, EventObject(num, v.nextId, x, y, z, eventType, energy), v.nextId + 1))
  }

  /** Without a custom colour add_object_event is one add of the event object. */
  lemma AddObjectEventAdds(num: Numerics, v: Viewer, x: real, y: real, z: real, eventType: string, energy: real)
    requires ViewerValid(v)
    ensures AddObjectEvent(num, v, x, y, z, eventType, energy, None) == Some(AddNew(v, EventObject(num, v.nextId, x, y, z, eventType, energy), v.nextId + 1))
  {
  }

  /**
   * A builder the object constructors import but do not define (create_beach_ball_hosohedron,
   * create_point): given an RGBA colour it yields the mesh, collision box and origin that
   * the SceneObject constructor receives.
   */
  type Builder = seq<real> -> (ObjectMesh, CollisionBox, Vec3)

  /** The beach-ball and point colour: the custom colour if given, else the energy bucket colour. */
  function MarkerColor(energy: real, customColor: Option<seq<real>>): (c: seq<real>)
    ensures customColor.Some? ==> c == customColor.value
    ensures customColor.None? ==> c == EventColor(energy) && |c| == 4 && c[3] == 1.0
  {
    if customColor.Some? then customColor.value else BucketColors[CreateBucket(energy)]
  }

  /** The beach-ball colour guarantee: an RGB colour gets alpha 1.0 appended, anything else is used as given. */
  function PadRgba(c: seq<real>): (r: seq<real>)
    ensures |c| == 3 ==> |r| == 4 && r[..3] == c && r[3] == 1.0
    ensures |c| != 3 ==> r == c
  {
    if |c| == 3 then c + [1.0] else c
  }

  /** Builds a marker object with `build`, places, types, sizes and stores it. */
  function AddMarker(v: Viewer, build: Builder, color: seq<real>, x: real, y: real, z: real,
                     eventType: string, energy: real, visualization: string, s: real): (w: Viewer)
    requires ViewerValid(v)
    ensures AddedOne(v, w)
    ensures var o := w.objects.entries[v.nextId];
      && o.objType == "event" && o.location == Vec3(x, y, z)
      && o.scale == Vec3(s, s, s) && MatrixCurrent(o)
      && o.mesh == build(color).0
      && o.data == map["type" := VStr(eventType), "energy" := VReal(energy), "visualization" := VStr(visualization)]
  {
    var (mesh, box, origin) := build(color);
    var (o, next') := NewSceneObject(v.nextId, mesh, box, origin, DefaultObjType, map[]);
    var o := o.(location := Vec3(x, y, z), objType := "event",
                data := o.data["type" := VStr(eventType)]["energy" := VReal(energy)]["visualization" := VStr(visualization)],
                scale := Vec3(s, s, s));
    AddNew(v, CalculateMatrix(o), next')
  }

  /** add_object_beach_ball: RGBA-padded colour, sized like an event sphere, visualization "beach_ball". */
  function AddObjectBeachBall(num: Numerics, v: Viewer, build: Builder, x: real, y: real, z: real,
                              eventType: string, energy: real, customColor: Option<seq<real>>): (w: Viewer)
    requires ViewerValid(v)
    ensures AddedOne(v, w)
    ensures var o := w.objects.entries[v.nextId];
      && o.mesh == build(PadRgba(MarkerColor(energy, customColor))).0
      && o.scale == Vec3(EventSize(num, eventType, energy), EventSize(num, eventType, energy), EventSize(num, eventType, energy))
      && o.data == map["type" := VStr(eventType), "energy" := VReal(energy), "visualization" := VStr("beach_ball")]
  {
    AddMarker(v, build, PadRgba(MarkerColor(energy, customColor)), x, y, z, eventType, energy,
              "beach_ball", EventSize(num, eventType, energy))
  }

  /** The size of every point marker. */
  const PointSize: real := 5.0

  /**
   * add_object_point, the second of its two definitions (the one Python keeps): the colour
   * is used without RGBA padding, the size is fixed, visualization "point".
   */
  function AddObjectPoint(v: Viewer, build: Builder, x: real, y: real, z: real,
                          eventType: string, energy: real, customColor: Option<seq<real>>): (w: Viewer)
    requires ViewerValid(v)
    ensures AddedOne(v, w)
    ensures var o := w.objects.entries[v.nextId];
      && o.mesh == build(MarkerColor(energy, customColor)).0
      && o.scale == Vec3(PointSize, PointSize, PointSize)
      && o.data == map["type" := VStr(eventType), "energy" := VReal(energy), "visualization" := VStr("point")]
  {
    AddMarker(v, build, MarkerColor(energy, customColor), x, y, z, eventType, energy, "point", PointSize)
  }

  /**
   * Two adds in a row (any of the add_object_* factories) store two distinct objects under
   * the counter's next two values, the second after the first in the map's order.
   */
  lemma SuccessiveAddsDistinct(v: Viewer, w1: Viewer, w2: Viewer)
    requires AddedOne(v, w1) && AddedOne(w1, w2)
    ensures w2.nextId == v.nextId + 2
    ensures w2.objects.order == v.objects.order + [v.nextId, v.nextId + 1]
    ensures v.nextId in w2.objects.entries && v.nextId + 1 in w2.objects.entries
    ensures w2.objects.entries[v.nextId].id < w2.objects.entries[v.nextId + 1].id
  {
    assert w2.objects.order == v.objects.order + [v.nextId] + [v.nextId + 1];
    assert v.nextId in w1.objects.entries.Keys;
  }
}
